=== FILE: README.md ===
# LifeOS server core in Dafny

A model of the core of the LifeOS server: the Python back end that records
a user's day as short video segments and turns them into searchable
memories. Segments are pushed onto a Redis work queue, and workers upload
them to S3, index them with TwelveLabs and store the summaries in Supabase
and a vector store. The server then answers daily recaps, highlights and
calendar questions from those memories. Authentication is a username and
password login that issues a 24-hour JWT, sent back as a Bearer token.

Every module is a set of pure functions over immutable datatypes, one
Dafny file per source file. Anything the server asks of the outside world
is a parameter of the function that asks:

- what Redis, S3, Supabase, TwelveLabs or OpenAI answer;
- the clock and freshly generated UUIDs;
- the bcrypt and JWT primitives;
- whether an awaited call returns or raises.

Where the code calls something in a way that cannot succeed, the model
does what the code does, and an "as written" lemma shows the consequence.

The files and what they model:

- common.dfy: `Option`, ASCII string helpers, decimal text, counting.
- chrono.dfy: the proleptic Gregorian calendar, ISO 8601 text, day and minute arithmetic.
- exceptions.dfy: `server/app/core/exceptions.py`.
- base_service.dfy: `server/app/core/base_service.py`.
- bearer.dfy: the Bearer header used by the middleware and the external API headers.
- auth_schemas.dfy, auth_service.dfy, auth_middleware.dfy: the simple auth schemas, service and middleware.
- system.dfy: the per-user video system registry of `endpoints/system.py`.
- cli_main.dfy: `server/main.py`.
- calendar.dfy, highlights.dfy, summary_analyzer.dfy, automation_controller.dfy: the automations.
- s3_storage.dfy, s3_service.dfy: S3 keys, URLs and uploads.
- queue_manager.dfy, worker_manager.dfy, worker.dfy, ingestion.dfy: the video queue, its workers and the ingestion loop.
- memory_models.dfy, memory_schemas.dfy, vector_store.dfy, supabase.dfy: memory records, their schemas and the two stores.
- insights.dfy: `endpoints/insights.py`.
- performance_optimizer.dfy, pipeline_optimizer.dfy: the two pipeline monitors.

## Model

| member | source | states |
|---|---|---|
| SystemRegistry.DefaultConfig | server/app/api/v1/endpoints/system.py:82-87 | The start reply's config block reports resolution "1280x720", 10 fps, 10-second segments and 3 workers. |
| SystemRegistry.StartVideoSystem | server/app/api/v1/endpoints/system.py:36-95 | Start never changes the registry itself. A registered user gets "already_running". An absent user gets "starting", with the run scheduled, exactly when a key is configured and building the manager does not raise. Every failure, the handler's own missing-key error included, becomes a 500 "Failed to start video system: …". |
| SystemRegistry.RegisterRun | server/app/api/v1/endpoints/system.py:61-67 | The background run registers the user as "running" from the current clock. Every other entry is kept. |
| SystemRegistry.RunFailed | server/app/api/v1/endpoints/system.py:69-72 | A failing run pops that user's entry, if there is one, and nothing else. |
| SystemRegistry.GetSystemStatus | server/app/api/v1/endpoints/system.py:104-124 | The status is "not_running" exactly when the user is not a key of the registry. Otherwise it is the stored status, with the uptime since the recorded start rounded to two places: a whole number of hundredths within 0.005 of it. |
| SystemRegistry.StopVideoSystem | server/app/api/v1/endpoints/system.py:139-157 | For an absent user, stop answers "not_running" and leaves the registry unchanged. Otherwise it answers "stopped" and removes exactly that key. |
| SystemRegistry.EndVideoSystem | server/app/api/v1/endpoints/system.py:175-194 | End behaves like stop but answers "ended", with the uptime of the removed entry rounded to two places. |
| Common.Hundredths | server/app/api/v1/endpoints/system.py:121 | The hundredths kept by `round(x, 2)` are the integer nearest to 100 x, and a tie goes to the even one. |
| Common.Round2 | server/app/api/v1/endpoints/system.py:121 | `round(x, 2)` is a whole number of hundredths within 0.005 of x. |
| Common.Round2Keeps | server/app/api/v1/endpoints/system.py:192 | A value in whole hundredths is kept by the rounding, so rounding twice is rounding once. |
| SystemRegistry.SystemHealth | server/app/api/v1/endpoints/system.py:206-229 | Health is "healthy" exactly when Redis answers and a key is configured. `running_systems` is the registry's size and `active_users` its key set. |
| SystemRegistry.StopEndIdempotent | server/app/api/v1/endpoints/system.py:139-185 | A stop or end after a stop or end finds the user gone, answers "not_running" and changes nothing. |
| SystemRegistry.StopLeavesOthers | server/app/api/v1/endpoints/system.py:149-185 | A stop or end by one user leaves every other user's status as it was. |
| SystemRegistry.OperationsKeepRunning | server/app/api/v1/endpoints/system.py:63-120 | Every operation keeps all entries at "running". So the status endpoint says "not_running" exactly for absent users. |
| SystemRegistry.StartRace | server/app/api/v1/endpoints/system.py:40-75 | Because the user is inserted only when the task runs, two starts before it runs both pass the check and schedule a task each. After both tasks run, the user has a single entry, the later one. |
| SystemRegistry.Lifecycle | server/app/api/v1/endpoints/system.py:40-72 | Once a start's task has run, a second start answers "already_running" and the status reports the rounded uptime. After a stop, or a failed run, the registry is exactly as before the start. |
| SystemRegistry.StartAsWrittenFails | server/app/api/v1/endpoints/system.py:58-95 | Building the manager always raises (it passes `user_id` on to a constructor without that parameter). So a start for an absent user always answers 500 and schedules nothing, whether or not a key is configured. |
| SystemRegistry.HealthCountsUsers | server/app/api/v1/endpoints/system.py:219-227 | Health reports exactly one running system per active user. |
| Bearer.AuthorizationValue | server/app/core/base_service.py:45-49 | The header value is the "Bearer" scheme, one space, then the token unchanged (section 2.1 of RFC 6750). |
| Bearer.ReadHeader | server/app/middleware/simple_auth.py:8-12 | A missing header, or one without a space, is rejected as not authenticated. Credentials come only from a header with a space, and are never empty. |
| Bearer.ReadSplitHeader | server/app/middleware/simple_auth.py:8-12 | For a header "scheme rest" whose scheme has no space: an empty part means not authenticated; otherwise a scheme other than "bearer" in any case is rejected as such; otherwise the credentials are the rest. |
| Bearer.BearerCredentials | server/app/middleware/simple_auth.py:8-14 | Credentials are read only from a header that has a space, a non-empty scheme equal to "bearer" ignoring case, and a non-empty token. A missing header gives none. |
| Bearer.HeaderRoundTrip | server/app/middleware/simple_auth.py:8-21 | Reading back the header built for a non-empty token gives that token, spaces inside it included. |
| Bearer.OtherSchemeRejected | server/app/middleware/simple_auth.py:8-12 | A header of another, non-empty scheme with a credential is rejected as another scheme. A bare "Bearer" and "Bearer " are rejected as not authenticated. |
| AuthSchemas.StringField | server/app/schemas/simple_auth.py:4-11 | A declared field validates exactly when it is present as a JSON string. |
| AuthSchemas.ParseUserRegister | server/app/schemas/simple_auth.py:4-6 | A register body validates exactly when `username` and `password` are both strings. The model carries those two strings. |
| AuthSchemas.ParseUserLogin | server/app/schemas/simple_auth.py:9-11 | A login body validates exactly when a register body would, to the same two strings. |
| AuthSchemas.NoContentConstraint | server/app/schemas/simple_auth.py:4-11 | Any two strings, empty ones included, round-trip through both body models. No length or emptiness rule applies. |
| AuthSchemas.ExtraFieldsIgnored | server/app/schemas/simple_auth.py:4-6 | A field other than the two declared ones does not change what a body validates to. |
| AuthService.InitSecret | server/app/services/simple_auth.py:15-21 | The service starts exactly when the Supabase URL and key are set and non-empty. Its JWT secret is `JWT_SECRET`, or "your-secret-key" when that is unset. |
| AuthService.FindFirst | server/app/services/simple_auth.py:101-109 | A lookup by username or by id finds nothing exactly when no row holds that value in that column. Otherwise it finds a row of the table holding it. |
| AuthService.VerifyJwtToken | server/app/services/simple_auth.py:43-51 | A token is accepted exactly when it decodes and its `exp` is after now (section 4.1.4 of RFC 7519). The accepted claims are the decoded ones. |
| AuthService.TokenLifetimeBound | server/app/services/simple_auth.py:34-51 | A created token is accepted exactly until 24 hours after issue, and its claims name the user it was made for. |
| AuthService.RegisterUser | server/app/services/simple_auth.py:53-95 | Registration succeeds exactly when the lookup answers, the username is new and the insert returns a row. The table then gains that row with the hashed password, and the answer is a token plus the row's id and name. A taken username is 400 "Username already exists". A failure raised by a call is 500 "Registration error: …", and an empty insert is 500 "Failed to create user". On any error nothing is inserted. |
| AuthService.LoginUser | server/app/services/simple_auth.py:97-135 | Login succeeds exactly when the username is found and the password check answers that it matches. The answer then carries a token and the row's id and name. It is 401 "Invalid credentials" exactly when the lookup answers and the name is unknown or the password does not match. A raising lookup, or a raising password check (as bcrypt raises on a malformed hash), is 500 "Login error: …" with its text. |
| AuthService.GetUserFromToken | server/app/services/simple_auth.py:137-149 | A user comes back exactly when the token verifies, the lookup answers and some row has the token's user id. It is built from that row. |
| AuthService.RegisterKeepsUsernamesUnique | server/app/services/simple_auth.py:56-70 | Registration preserves the invariant that no two rows share a username. |
| AuthService.NoUserEnumeration | server/app/services/simple_auth.py:103-116 | An unknown username and a wrong password get identical answers. |
| AuthService.FindAppended | server/app/services/simple_auth.py:67-70 | A row appended under a new username is what a later lookup of that name finds. |
| AuthService.FindUniqueId | server/app/services/simple_auth.py:144-146 | With unique ids, the id lookup finds the row at any position. |
| AuthService.RegisterThenLogin | server/app/services/simple_auth.py:53-127 | After a successful registration, a login with the same password succeeds for the new row (given a sound hash pair). |
| AuthService.LoginTokenIdentifiesUser | server/app/services/simple_auth.py:119-146 | For the next 24 hours, a login's token resolves to the user it names (given unique ids and a sound codec). |
| AuthMiddleware.GetCurrentUser | server/app/middleware/simple_auth.py:12-29 | Without credentials the answer is 401 "Authorization header missing", a branch HTTPBearer makes unreachable (see AuthMiddleware.Authenticate). Otherwise the user is accepted exactly when the token resolves, and the resolved user is returned. An unresolved token gives 401 "Invalid or expired token". Both rejections carry the Bearer challenge. |
| AuthMiddleware.BearerRejection | server/app/middleware/simple_auth.py:8-12 | HTTPBearer's own rejection says "Not authenticated" exactly for a missing part and "Invalid authentication credentials" for another scheme. Its status is 403 exactly on releases that answer 403, and a 401 carries the Bearer challenge. It never uses the dependency's details. |
| AuthMiddleware.Authenticate | server/app/middleware/simple_auth.py:8-29 | A header HTTPBearer cannot read gets HTTPBearer's rejection before the dependency runs. Readable credentials are handed to the dependency. No request is ever answered "Authorization header missing". |
| AuthMiddleware.RejectionsChallenge | server/app/middleware/simple_auth.py:8-27 | Once HTTPBearer has read credentials, every rejection is a 401 with `WWW-Authenticate: Bearer` (section 3 of RFC 6750). Before that, the release decides between a 401 with the challenge and a 403 without it. |
| AuthMiddleware.LoginThenAuthenticate | server/app/middleware/simple_auth.py:12-29 | End to end: within 24 hours, a login's token sent as a Bearer header authenticates as the user who logged in. |
| AuthMiddleware.MissingHeaderRejected | server/app/middleware/simple_auth.py:8-12 | No header, or a bare "Bearer", gets HTTPBearer's "Not authenticated". A header of another scheme gets its "Invalid authentication credentials". |
| Chrono.ShiftDays | server/automations/calendar_integration.py:249-292 | Adding n days lands exactly n ordinal days later on a valid date. Past year 9999 the result is the overflow error. |
| Chrono.ShiftMinutes | server/automations/calendar_integration.py:211-218 | Adding n minutes lands exactly n minutes later, seconds kept. Past year 9999 the result is the overflow error. |
| Chrono.WeekdayAfter | server/automations/calendar_integration.py:257-292 | Moving n days forward moves the weekday (Monday 0) n steps round the week. |
| Chrono.NextDayOrdinal | server/automations/calendar_integration.py:249-292 | The day after a valid date is exactly one ordinal day later, across month and year ends. |
| Chrono.AddDaysOrdinal | server/automations/calendar_integration.py:249-292 | Adding n days lands exactly n ordinal days later. |
| Chrono.FromIsoFormat | server/app/api/v1/endpoints/insights.py:91 | A parse succeeds only on text that starts with a `YYYY-MM-DD` date. The result is a valid date-time whose date is that prefix and whose hour and minute are the text's. For an `HH:MM` time without seconds, it succeeds exactly when the date and clock are valid and the rest is empty or a `+HH:MM` offset, and the seconds are zero. |
| Chrono.MinutesRoundTrip | server/app/api/v1/endpoints/insights.py:126 | A date, a separator, an hour and a minute, with no seconds and an optional offset, parse back to that time with zero seconds. |
| Chrono.MinutePrecisionAccepted | server/app/api/v1/endpoints/insights.py:126 | `2024-01-15T10:30` parses to 10:30:00 on 15 January 2024. |
| Chrono.MinutePrecisionWithOffset | server/app/api/v1/endpoints/insights.py:126 | `2024-01-15T10:30+05:00` parses to the same time, with the offset dropped. |
| Chrono.FiveDigitFractionRejected | server/app/api/v1/endpoints/insights.py:91 | A five-digit fraction is outside the modelled grammar: the parse fails, as it does before Python 3.11. |
| Chrono.DateRoundTrip | server/app/api/v1/endpoints/insights.py:89-92 | Parsing a date's ISO text gives midnight of that date. |
| Chrono.DateTimeRoundTrip | server/automations/calendar_integration.py:202-218 | Parsing what `isoformat()` wrote for a valid date-time, with or without a `+HH:MM` offset, gives that date-time back. |
| Calendar.DaysAhead | server/automations/calendar_integration.py:257-292 | The offset to a named weekday is 1..7 days. It lands on that weekday with no earlier such day in between. |
| Calendar.DaysAddedStayNear | server/automations/calendar_integration.py:250-277 | A shift of at most 31 days, as every keyword and weekday shift is, moves at most into the next year. So before the last year these shifts never overflow. |
| Calendar.JanuaryStays | server/automations/calendar_integration.py:250-277 | From a January day, a shift that stays within the month's 31 days stays in that year. |
| Calendar.WithYear | server/automations/calendar_integration.py:298-299 | Moving a date to another year keeps its month and day. It fails exactly for 29 February into a common year. |
| Calendar.TargetDate | server/automations/calendar_integration.py:245-302 | The resolved date is a valid date. A missing or empty date string resolves to today. |
| Calendar.RelativeDate | server/automations/calendar_integration.py:249-256 | "today", "tomorrow", "next week" and "next month" move today by 0, 1, 7 and 30 days. The first keyword of that chain that is present wins. |
| Calendar.WeekdayShift | server/automations/calendar_integration.py:257-292 | The weekday offset lands on the named weekday, 1 to 7 days ahead, with no day of that weekday in between. |
| Calendar.NextWeekdayDate | server/automations/calendar_integration.py:257-292 | A weekday name with no earlier keyword gives the next strictly later day with that weekday. |
| Calendar.IsoDate | server/automations/calendar_integration.py:294-301 | An ISO date keeps its month and day. A year before the current one is moved to the current year, and a later year is kept. It fails exactly for 29 February moved into a common year. |
| Calendar.FirstDigit | server/automations/calendar_integration.py:319 | The clock search starts at the first digit of the time text. There is no match when the text has no digit. |
| Calendar.DigitRun | server/automations/calendar_integration.py:319 | A digit group of the clock pattern is the longest run of at most 1-2 digits. |
| Calendar.MatchClockAt | server/automations/calendar_integration.py:319-323 | The hour and minute read by the clock pattern are each below 100. |
| Calendar.To24 | server/automations/calendar_integration.py:325-328 | "pm" adds 12 to every hour but 12, and "12 am" is hour 0. Without am/pm the hour is kept. |
| Calendar.ApplyTime | server/automations/calendar_integration.py:305-344 | The time step keeps the target day and sets seconds to 0. No time text leaves the day at midnight. |
| Calendar.DescriptiveKeepsMidnight | server/automations/calendar_integration.py:309-316 | "morning", "afternoon", "evening" and "night" set only the unused `target_time`, so the result stays at midnight. |
| Calendar.NoClockDefaultsToTen | server/automations/calendar_integration.py:341-342 | Time text with no descriptive word and no digit defaults the hour to 10:00. |
| Calendar.ClockTime | server/automations/calendar_integration.py:319-331 | A matched clock sets the 24-hour hour and the minute. An out-of-range hour or minute makes the whole parse fail. |
| Calendar.ParseEventDateTime | server/automations/calendar_integration.py:226-348 | A parsed start is a valid date-time with zero seconds, on the resolved target date. |
| Calendar.EndOffset | server/automations/calendar_integration.py:211-218 | The end offset is the duration when it is positive and 60 minutes otherwise. It is never zero. |
| Calendar.ProcessEvent | server/automations/calendar_integration.py:177-224 | An event without a title, or without both date and time, is rejected. Title, description and location are stripped, with missing values as "". Duration defaults to 60 and type to "event". The end is start plus the duration when positive, otherwise plus one hour, and is absent exactly when the start is. |
| Calendar.ParseEventTime | server/automations/calendar_integration.py:444-475 | A missing or empty string, or one without a leading ISO date, parses to nothing. Any parse is a valid date-time. |
| Calendar.ParseEventTimeRoundTrip | server/automations/calendar_integration.py:462-463 | The stored `isoformat()` text, with or without an offset, parses back to the same date-time. |
| Calendar.ParseEventDateRoundTrip | server/automations/calendar_integration.py:466-467 | A bare ISO date parses back to midnight of that day. |
| Calendar.CreateCalendarEvent | server/automations/calendar_integration.py:365-442 | The entry's start is the parsed start. A missing end defaults to start plus one hour. The entry is API-created exactly when the service inserts and a start exists, and then carries the service's id. Otherwise the simulated id is used and the note is appended to the description. |
| Calendar.ProcessedEventCreates | server/automations/calendar_integration.py:198-218 | End to end: the entry created from a processed event carries exactly its start, end and title. |
| Calendar.RenderedCreates | server/automations/calendar_integration.py:198-218 | An entry created from the ISO strings of a start and end that are both present and valid, or both absent, carries that same start and end. |
| SummaryAnalyzer.MentionsIsAny | server/automations/summary_analyzer.py:128 | The short-circuiting keyword scan holds exactly when some keyword occurs in the text. |
| SummaryAnalyzer.Verdict | server/automations/summary_analyzer.py:126-146 | The list holds "calendar" iff the calendar test passed and "highlights" iff the highlights test passed. Nothing else appears, with no repeats, and calendar comes first. |
| SummaryAnalyzer.TriggeredAutomations | server/automations/summary_analyzer.py:100-146 | "calendar" is triggered iff some calendar keyword occurs in the lower-cased summary. "highlights" likewise with its own keywords. Nothing is repeated. |
| SummaryAnalyzer.CaseInsensitive | server/automations/summary_analyzer.py:114 | A summary and its upper-cased form trigger the same automations. |
| SummaryAnalyzer.SubstringTriggers | server/automations/summary_analyzer.py:128 | A calendar keyword anywhere in the summary, even inside a longer word, triggers the calendar automation. |
| SummaryAnalyzer.FallbackAnalysis | server/automations/summary_analyzer.py:91-98 | The fallback is the keyword verdict with zero confidences, the fixed reasoning and the "general" class. |
| SummaryAnalyzer.AnalyzeSummary | server/automations/summary_analyzer.py:23-89 | A failed call or a reply that is not JSON gives the fallback analysis. A parsed reply is returned as it is. |
| Highlights.HighlightTitle | server/automations/highlights_integration.py:62-92 | With key moments, the title is "Highlight: ", then at most 50 characters of the first moment, then "...". Else it is the first category plus " Moment". Else it is the first `. `-separated sentence, cut to 50 characters with "..." exactly when it was longer. |
| Highlights.ShortMomentStillElided | server/automations/highlights_integration.py:79 | "..." is appended even to a key moment that needed no cutting. |
| Highlights.KeywordTags | server/automations/highlights_integration.py:117-133 | A tag is produced iff one of its rule's words occurs in the text. |
| Highlights.ExtractTags | server/automations/highlights_integration.py:94-140 | The tags have no repeats. A tag is present iff it is a category or some word of its rule occurs in the lower-cased summary. |
| Highlights.GymIsFitness | server/automations/highlights_integration.py:129-130 | A summary mentioning "gym", in any case, is tagged "fitness". |
| Highlights.RuleFires | server/automations/highlights_integration.py:116-134 | A rule one of whose words occurs in the lower-cased summary adds its tag. |
| Highlights.AddToHighlights | server/automations/highlights_integration.py:40-52 | The placeholder always reports the automation as triggered, stamped with the current time. |
| AutomationController.ScheduledTasks | server/automations/automation_controller.py:61-81 | The calendar task is scheduled iff the analysis lists "calendar", and the highlights task iff it lists "highlights". Calendar comes first, and no task is scheduled twice. |
| AutomationController.EntryFor | server/automations/automation_controller.py:88-95 | A finished task contributes its own success entry. A raised one contributes an error entry with status "failed" and the exception text. |
| AutomationController.Gather | server/automations/automation_controller.py:83-95 | There is one entry per scheduled task, in scheduling order, each the entry for that task's outcome. |
| AutomationController.ProcessVideoSummary | server/automations/automation_controller.py:28-110 | The result always names the video. An escaping exception gives no analysis, no entries and its error text. Otherwise the analysis is the analyzer's, with one entry per scheduled task in order. |
| AutomationController.FallbackRunsBoth | server/automations/automation_controller.py:61-95 | When the model is unreachable, a summary mentioning a meeting and a milestone runs both automations, calendar first. |
| S3Storage.NewStorage | server/video_injestion/s3_storage.py:15-19 | An empty or missing bucket name falls back to the configured bucket. The region is kept. |
| S3Storage.LastSegment | server/video_injestion/s3_storage.py:60 | The file name is a suffix of the path with no '/' in it, preceded by '/' unless it is the whole path. |
| S3Storage.EffectiveKey | server/video_injestion/s3_storage.py:59-61 | A non-empty key is used as given. Otherwise the key is "video_segments/" followed by the file's base name. |
| S3Storage.UploadVideoSegment | server/video_injestion/s3_storage.py:38-91 | A URL is returned exactly when there is a client, the file exists and the upload succeeds. It is the virtual-hosted URL of the bucket, region and effective key. |
| S3Storage.CreateBucketIfNotExists | server/video_injestion/s3_storage.py:93-129 | No client fails. An existing bucket is reported without a create. A 404 creates the bucket, with a location constraint exactly when the region is not us-east-1, and reports whether that create succeeded. Any other client error fails. An exception that is not a client error, from the head or the create call, escapes to the caller with its text. |
| S3Storage.GetBucketInfo | server/video_injestion/s3_storage.py:157-175 | Without a client there is an error. A head call that raises something other than a client error escapes. Otherwise the info names the bucket and region, marks it found iff the head call succeeded, and only then gives the bucket's URL. |
| S3Storage.BucketOpsAgree | server/video_injestion/s3_storage.py:93-175 | On the same head answer, the info finds the bucket exactly when the create reports success without creating. Only a 404 leads to a create call, and then the info reports the bucket missing. An unhandled exception escapes both with the same text. |
| S3Service.ParseObjectUrl | server/app/services/s3_service.py:47-66 | A URL without the "https://" prefix does not parse, and neither does one with no '/' after the host. The key is everything after the first '/'. The host before it has at least three dot-separated labels, the second being "s3", and the bucket is the first label. |
| S3Service.GeneratePresignedUrl | server/app/services/s3_service.py:29-84 | Without a client, or for a URL that does not parse, the URL comes back unchanged. Otherwise the result is the presigned URL for the parsed bucket and key, or the input when presigning raises. |
| S3Service.ObjectUrlRoundTrip | server/app/services/s3_service.py:51-66 | A URL the uploader builds parses back to its bucket and key, for a bucket without '.' or '/', a region without '/', and a key without "https://". |
| S3Service.PresignsUploadedObject | server/app/services/s3_service.py:73-80 | Presigning the URL of an uploaded segment asks for exactly that segment's bucket and key. |
| QueueManager.NewJob | server/video_queue/queue_manager.py:47-52 | A new job carries the path and the time, is "pending", and has the given metadata, or none when it is missing. |
| QueueManager.AddVideoSegment | server/video_queue/queue_manager.py:39-61 | On success the job is pushed on the head, in front of the unchanged rest of the queue. On failure the queue is untouched. The flag reports which happened. |
| QueueManager.AddVideoSegmentData | server/video_queue/queue_manager.py:63-84 | On success a pending data job is pushed on the head. On failure the queue is untouched. |
| QueueManager.ActualTimeout | server/video_queue/queue_manager.py:93 | A missing or zero timeout becomes 0.5 seconds. Any other value is kept. |
| QueueManager.GetVideoSegment | server/video_queue/queue_manager.py:86-103 | A job comes back exactly when the call succeeds on a non-empty queue. It is the oldest job, and the rest leave in the same order afterwards. Otherwise the queue is untouched. |
| QueueManager.GetQueueSize | server/video_queue/queue_manager.py:105-113 | The size is the number of jobs still to be handed out, or 0 when the call fails. |
| QueueManager.ClearQueue | server/video_queue/queue_manager.py:115-125 | After a successful clear the queue reports size 0. A failed clear changes nothing. |
| QueueManager.BatchJobs | server/video_queue/queue_manager.py:136-145 | There is one pending job per path, in order, all with the same timestamp. |
| QueueManager.AddBatchSegments | server/video_queue/queue_manager.py:127-158 | A successful non-empty batch returns its size, and its jobs leave after everything already queued, in path order. A failure, or an empty batch, which Redis rejects, returns 0 and leaves the queue untouched. |
| QueueManager.DrainPush | server/video_queue/queue_manager.py:55 | A job pushed on the head is the last to leave. |
| QueueManager.FifoOrder | server/video_queue/queue_manager.py:94 | Pushing on the head and popping from the tail is first in, first out: queued jobs leave first, then the new ones in push order. |
| QueueManager.BatchIsSequential | server/video_queue/queue_manager.py:148-151 | A batch push leaves the same queue as adding its paths one by one with the batch's timestamp. |
| QueueManager.BatchAsPushAll | server/video_queue/queue_manager.py:136-151 | The batch's jobs pushed in one command equal the jobs added one after another. |
| QueueManager.AddThenGet | server/video_queue/queue_manager.py:39-99 | Taking from a queue that held only a just-added job yields that job and leaves the queue empty. |
| WorkerManager.NewWorker | server/video_processing/worker.py:26-37 | A new worker is not running, has processed nothing and has no index. |
| WorkerManager.NewManager | server/video_queue/worker_manager.py:18-24 | A missing or zero worker count falls back to the configured 3. The pool starts empty and stopped. |
| WorkerManager.FreshWorkers | server/video_queue/worker_manager.py:34-39 | Starting creates n workers with ids 0 to n-1, none for n <= 0. |
| WorkerManager.StartWorkers | server/video_queue/worker_manager.py:26-46 | Start appends the fresh workers after the existing ones and starts one task per new worker. The manager is then marked running. |
| WorkerManager.StopWorker | server/video_processing/worker.py:58-61 | Stopping a worker clears only its running flag. |
| WorkerManager.StopWorkers | server/video_queue/worker_manager.py:54-82 | A stopped manager is left alone. Otherwise it and every worker stop, and nothing else changes. |
| WorkerManager.GetWorkerStats | server/video_queue/worker_manager.py:130-149 | The stats report the configured count, the number of running workers and the summed processed counts. There is one detail per worker, in order, with that worker's fields. |
| WorkerManager.FreshPoolProcessedNothing | server/video_queue/worker_manager.py:34-39 | A freshly started pool has processed nothing. |
| WorkerManager.StoppedPoolIsIdle | server/video_queue/worker_manager.py:60-64 | After stop no worker counts as active. |
| WorkerManager.StopIdempotent | server/video_queue/worker_manager.py:56-57 | Stopping twice is the same as stopping once. |
| WorkerManager.StartedPoolSize | server/video_queue/worker_manager.py:26-46 | A pool started from a new manager with a positive count holds exactly that many workers. The active count never exceeds it. |
| Worker.FailureBackoff | server/video_processing/worker.py:428-431 | The sleep after failed polls is positive and never above the 2-second cap. |
| Worker.NextInterval | server/video_processing/worker.py:416-421 | While "processing" the interval drops back to at most the base interval. In other states it grows but stays within the 2-second cap. A positive interval stays positive. |
| Worker.WaitForTaskOptimized | server/video_processing/worker.py:393-434 | The wait stops at the first "ready", "failed" or "error" poll. "ready" yields that poll's video id, while the other two, or running out of time, yield none. Every sleep is positive and within max(base, 2.0), and a sleep after a failed poll is within 2.0. |
| Worker.EnsureIndex | server/video_processing/worker.py:64-91 | An index named "video_analysis_index" that already exists supplies the id. Otherwise the created index's id is used. A listing that raises gives no id. |
| Worker.FindIndex | server/video_processing/worker.py:71-75 | No index is found iff none has the name. A found id is that of the first index with the name. |
| Worker.UploadVideoOptimized | server/video_processing/worker.py:287-318 | A video id comes back exactly when an index id is present or could be ensured, the task was created and the wait produced a non-empty id. That id is the wait's. |
| Worker.AnalyzeFrom | server/video_processing/worker.py:442-473 | From attempt k on, the attempts made all raised except possibly the last, which supplies the summary. When it raised too, all three were used and the error text is reported. |
| Worker.AnalyzeVideoOptimized | server/video_processing/worker.py:436-473 | At most three attempts are made, and all but the last raised. The first success supplies the summary. When all three raise, the summary reports the last error. The linking id and timestamps are kept. |
| Worker.AnalysisOutcome | server/video_processing/worker.py:442-473 | When all three attempts raise, the summary starts with "Error after 3 attempts: ". Otherwise the first successful attempt is the summary. |
| Worker.EmbedFrom | server/video_processing/worker.py:592-606 | The attempts from k on succeed iff one of them before the limit returns True. |
| Worker.EmbedWithRetry | server/video_processing/worker.py:588-606 | The result is True iff some attempt among the first `max_retries` returns True. |
| Worker.AutomationsFrom | server/video_processing/worker.py:714-735 | The attempts from k on succeed iff one of them before the limit returns results without an error. |
| Worker.RunAutomationsWithRetry | server/video_processing/worker.py:710-735 | The result is True iff some attempt among the first `max_retries` returns results without an "error" key. |
| Worker.AutomationRunSucceeds | server/video_processing/worker.py:723-731 | A controller run whose body raises nothing succeeds at the first attempt. |
| Worker.ProcessVideoSegment | server/video_processing/worker.py:146-285 | The error paths are, in order: a data job (no "video_path"), a missing file, a failed TwelveLabs upload, and the insert call raising, which reports the path. A processed segment carries the analysis, the S3 URL only when one was returned, and "stored" iff the insert returned an id. Automations are scheduled iff the summary is non-empty. The embedding is finalised from the pre-created task only after a stored insert. |
| Worker.AsWrittenNeverCounts | server/video_processing/worker.py:228-230 | Because the insert is called with one argument too many, no segment ever comes back without an error. |
| Worker.ProcessLoop | server/video_processing/worker.py:93-145 | The loop runs passes until the running flag is cleared. The count grows by exactly the passes whose segment result has no error. |
| Worker.AsWrittenCountIsZero | server/video_processing/worker.py:106-109 | With the insert as written, `processed_count` never moves. |
| Ingestion.Put | server/video_injestion/ingestion.py:91-100 | The new frame always ends up last and the buffer never exceeds 100. With room it is appended; a full buffer drops its oldest frame first. |
| Ingestion.PutAll | server/video_injestion/ingestion.py:83-107 | The buffer stays within 100 frames and ends with the last frame read. |
| Ingestion.PutKeepsNewest | server/video_injestion/ingestion.py:91-100 | One put leaves exactly the newest 100 frames of the buffer extended by the new frame. |
| Ingestion.BufferHoldsNewest | server/video_injestion/ingestion.py:83-107 | Whatever is read, the buffer holds exactly the newest 100 frames ever put, oldest first. |
| Ingestion.StampLength | server/video_injestion/ingestion.py:115 | The timestamp text is 15 characters, as `%Y%m%d_%H%M%S` gives for years of at most four digits. |
| Ingestion.FilenameReadsBack | server/video_injestion/ingestion.py:116 | A segment file name is 32 characters, starts with "segment_" and ends with ".mp4". Its four digits before the suffix read back as the segment id. |
| Ingestion.SaveVideoSegment | server/video_injestion/ingestion.py:109-138 | No frames, or a failed write, give no path. Otherwise the path is the numbered file under "video_segments", and the writer receives every frame, resized to the configured resolution, in order. |
| Ingestion.AsMetadata | server/video_injestion/ingestion.py:173-178 | The queued metadata has exactly the keys segment_id, fps, resolution and frame_count, holding the segment's values. |
| Ingestion.Queued | server/video_injestion/ingestion.py:165-180 | A queued request carries the segment's id, fps, resolution and frame count, and names the file saved for that id at that time. |
| Ingestion.ProcessSegments | server/video_injestion/ingestion.py:140-187 | The loop never queues more segments than the ids it hands out. |
| Ingestion.ProcessSegmentsStep | server/video_injestion/ingestion.py:160-183 | Each window adds nothing when empty. Otherwise it advances the id, and it queues a request under the old id only when its save succeeds. |
| Ingestion.NextIdCountsWindows | server/video_injestion/ingestion.py:160-183 | The next id is the number of non-empty windows, so the id advances even when a save fails. |
| Ingestion.QueuedInOrder | server/video_injestion/ingestion.py:160-183 | Queued segments have strictly increasing ids below the next id, positive frame counts and the configured fps and resolution. |
| Ingestion.RequestProvenance | server/video_injestion/ingestion.py:160-183 | Each queued request comes from a non-empty window whose save succeeded. Its id is the number of non-empty windows before it, its frame count is that window's size, and its path is that id's file. |
| Ingestion.AllSavedAllQueued | server/video_injestion/ingestion.py:160-183 | When every save succeeds, each non-empty window is queued, with ids 0, 1, 2, .... |
| Ingestion.QueuedJobCarriesFrameCount | server/video_injestion/ingestion.py:180 | The job a queued segment becomes carries its path and its frame count. |
| MemoryModels.BuildMemoryPoint | server/app/models/memory.py:7-18 | A point validates iff user, content, content type and timestamp are given, and keeps them as given. A missing id draws a fresh one. Missing metadata and tags become empty, and a missing source or embedding stays None. |
| MemoryModels.RebuildIsIdentity | server/app/models/memory.py:7-18 | A point rebuilt from all its own fields is that point, whatever fresh id is available. |
| MemoryModels.DefaultsOnly | server/app/models/memory.py:10-18 | With only the required fields, a point takes every default: fresh id, no metadata, no tags, no source, no embedding. |
| MemorySchemas.NonEmptyText | server/app/schemas/memory.py:10 | A required text passes iff it is given with at least one character. |
| MemorySchemas.OrNone | server/app/schemas/memory.py:14 | An optional field is present exactly when it was given, with that value. |
| MemorySchemas.Threshold | server/app/schemas/memory.py:26 | An absent threshold is 0.01 and a null one is None. A given one passes iff it lies in [0, 1]. |
| MemorySchemas.ValidateCreate | server/app/schemas/memory.py:7-14 | A create request passes iff the content has at least one character, a content type is given, and metadata and tags are not null. Metadata defaults to {}, tags to [], and the source to None. |
| MemorySchemas.ValidateSearch | server/app/schemas/memory.py:17-26 | A search passes iff the query is non-empty, the limit is absent or within [1, 100], and the threshold is valid. The limit defaults to 10, and the filters default to None. |
| MemorySchemas.ValidateChatbot | server/app/schemas/memory.py:38-42 | A chatbot query passes iff the input is non-empty and the threshold is valid. Both are kept. |
| MemorySchemas.DeleteResponse | server/app/schemas/memory.py:83-88 | The errors list defaults to empty and cannot be null. The counts are kept. |
| MemorySchemas.SearchDefaults | server/app/schemas/memory.py:20-26 | A query alone takes limit 10, threshold 0.01 and no filters. Only the length is checked, so a single space passes. |
| MemorySchemas.LimitBounds | server/app/schemas/memory.py:20-21 | Both limit bounds are inclusive: 1 and 100 pass, 0 and 101 fail, and an empty query fails. |
| VectorStore.InitializeCollection | server/app/services/vector_store.py:40-77 | An existing collection succeeds without a create. A missing one succeeds iff creating it and its indexes succeeds. A listing that raises fails. |
| VectorStore.StoredPayload | server/app/services/vector_store.py:89-95 | The payload holds exactly the user id, the point's own id as video_id, and a timestamp text that parses back to the point's timestamp. |
| VectorStore.AddMemory | server/app/services/vector_store.py:79-105 | A point is stored iff it has a non-empty embedding and the upsert succeeds. It is then stored under its id with that vector and payload. Otherwise the collection is unchanged. |
| VectorStore.IsoBound | server/app/services/vector_store.py:127-130 | A range bound is written exactly when that date is given. |
| VectorStore.SearchFilter | server/app/services/vector_store.py:120-134 | The filter always matches the user first. It adds a timestamp range iff some bound is given, and the range holds exactly the given bounds. |
| VectorStore.FilterMeaning | server/app/services/vector_store.py:120-138 | The filter admits a point iff it belongs to the user and its timestamp lies within each given bound, both bounds inclusive. |
| VectorStore.RangeMeaning | server/app/services/vector_store.py:127-134 | The timestamp range admits exactly the timestamps within the bounds it was built from, both inclusive. |
| VectorStore.ParseHit | server/app/services/vector_store.py:154-166 | A hit converts iff its id is a UUID and its timestamp parses. It keeps the id, the video_id (or "") and the score. |
| VectorStore.ParseHits | server/app/services/vector_store.py:153-171 | The results number exactly the hits that convert. |
| VectorStore.ResultProvenance | server/app/services/vector_store.py:153-171 | The k-th result is the conversion of a hit with exactly k converting hits before it, so results keep the hits' order. |
| VectorStore.AllParsableKept | server/app/services/vector_store.py:153-171 | When every hit converts, the results are the hits converted one for one. |
| VectorStore.SearchMemories | server/app/services/vector_store.py:107-177 | With a date bound given and a `Range` that rejects ISO bounds, the answer is []. Otherwise the search runs under the user and date filter. A search that raises gives [], and otherwise the result is the hits that convert. |
| VectorStore.AsWrittenDateSearchEmpty | server/app/services/vector_store.py:125-177 | With the numeric `Range`, a search with a date bound answers [] whatever is stored, and a search without bounds is unaffected. |
| VectorStore.Retrieve | server/app/services/vector_store.py:181-186 | Retrieving one id gives that point if it is stored and nothing otherwise. |
| VectorStore.GetMemory | server/app/services/vector_store.py:179-213 | No point, or a failed retrieval, gives None. A rebuilt point takes its id, user, timestamp and embedding from the stored point. Content is "", type "video", and no metadata, tags or source. |
| VectorStore.DeleteMemories | server/app/services/vector_store.py:215-241 | The deleted and failed counts add up to the ids given. A successful delete removes exactly those ids and keeps every other point. A raising one changes nothing and counts all as failed with one error. |
| VectorStore.AddThenGet | server/app/services/vector_store.py:79-209 | A stored point reads back with its id, user, timestamp and embedding. The fields the payload does not keep come back at their fixed values. |
| VectorStore.HitOnStoredPoint | server/app/services/vector_store.py:91-93 | A search hit on a stored point reports the point's own id as its video_id. |
| VectorStore.DeletedAreGone | server/app/services/vector_store.py:226-234 | After a successful delete no deleted id can be retrieved, and every other point still can. |
| SupabaseClient.VideoRecord | server/database/supabase_client.py:41-49 | The stored row has exactly the seven table columns. video_id is the analysis's linking id, and both timestamp and datetime take its datetime. The linking id is not stored under its own name. |
| SupabaseClient.InsertVideoAnalysis | server/database/supabase_client.py:29-62 | A returned row appends the record to the table. The linking id comes back iff a row was returned and the analysis has one, and it is the new row's video_id. No rows, or a raise, leave the table and return None. |
| SupabaseClient.GetVideoAnalysis | server/database/supabase_client.py:64-83 | The result is None iff no row has the id, or when the query raises. A found row is in the table and has that video_id. |
| SupabaseClient.UpdateData | server/database/supabase_client.py:98-104 | The update always sets the status and the time. It sets the vector id iff a non-empty one is given. |
| SupabaseClient.UpdateVectorStatus | server/database/supabase_client.py:85-112 | Exactly the rows whose linking_uuid matches receive the update columns, and the others are untouched. The result is true iff some row matched. A raise changes nothing and returns false. |
| SupabaseClient.InsertThenGet | server/database/supabase_client.py:52-78 | A stored analysis is found again by its linking id when no earlier row carries that id. |
| SupabaseClient.InsertKeepsShape | server/database/supabase_client.py:41-52 | Every row the insert writes has a video_id and no linking_uuid column. |
| SupabaseClient.UpdateMissesInsertedRows | server/database/supabase_client.py:106 | The status update filters on linking_uuid, which the insert never writes. So on inserted rows it matches nothing, changes nothing and returns false. |
| Insights.RecentLines | server/app/api/v1/endpoints/insights.py:38-41 | There is one line per video with a truthy summary. |
| Insights.GetRecentEvents | server/app/api/v1/endpoints/insights.py:13-56 | A failed fetch gives the 500 detail. No videos gives the "No recent events found" answer. Otherwise the answer lists every fetched video and counts them in its message. |
| Insights.RecentLinesNumbered | server/app/api/v1/endpoints/insights.py:38-41 | When every video has a summary, the k-th line is video k's, numbered by its position in the list starting at 1. |
| Insights.VideoDate | server/app/api/v1/endpoints/insights.py:86-96 | A video's date comes from the first of timestamp, datetime and processed_at that is truthy and parses. |
| Insights.TodayVideos | server/app/api/v1/endpoints/insights.py:83-99 | Only videos dated today are kept, in their original order, and their number is the count of such videos. |
| Insights.TodayVideosKeeps | server/app/api/v1/endpoints/insights.py:98-99 | A video is kept iff it is dated today. |
| Insights.StrLeTotal | server/app/api/v1/endpoints/insights.py:119 | String comparison is total, so any two text keys can be ordered. |
| Insights.StrLeTrans | server/app/api/v1/endpoints/insights.py:119 | String comparison is transitive. |
| Insights.KeyLeTotal | server/app/api/v1/endpoints/insights.py:119 | Two keys of the same kind can always be ordered. |
| Insights.KeyLeTrans | server/app/api/v1/endpoints/insights.py:119 | Key order is transitive. |
| Insights.InsertByKey | server/app/api/v1/endpoints/insights.py:119 | An insertion adds exactly the one element to the list's contents. |
| Insights.InsertKeepsSorted | server/app/api/v1/endpoints/insights.py:119 | Inserting into a list sorted by key keeps it sorted. |
| Insights.SortByKey | server/app/api/v1/endpoints/insights.py:119 | The sort is a permutation of its input. |
| Insights.SortByKeySorts | server/app/api/v1/endpoints/insights.py:119 | Sorting keys of one kind gives a permutation in key order. |
| Insights.Clock12 | server/app/api/v1/endpoints/insights.py:127 | The 12-hour time is always 8 characters: two digits, a colon, two digits, a space, then "AM" exactly for hours before noon and "PM" otherwise. |
| Insights.TimelineLines | server/app/api/v1/endpoints/insights.py:121-136 | There is one timeline line per event, in order: its time, then its summary. |
| Insights.Classify | server/app/api/v1/endpoints/insights.py:143-148 | 10 or more events make a busy day, 5 to 9 a moderate one, and fewer a quiet one. |
| Insights.RecapLines | server/app/api/v1/endpoints/insights.py:111-150 | The recap has a four-line heading, the timeline of the events in time order, and a four-line summary ending in the day's classification. |
| Insights.GetDailyRecap | server/app/api/v1/endpoints/insights.py:59-164 | A failed fetch gives the 500 detail. Otherwise there is a recap iff today's videos can be ordered. It lists exactly today's videos, and an empty day gets the quiet-day answer. |
| Insights.RecapOf | server/app/api/v1/endpoints/insights.py:101-164 | Unorderable events give the 500 detail. Otherwise the recap carries the date, the events and their count. An empty day gets the quiet-day message; a busy one gets the recap lines. |
| Insights.RecapTimelineOrdered | server/app/api/v1/endpoints/insights.py:83-121 | The recap's timeline is a permutation of today's videos in time order. |
| Insights.AsWrittenBothFail | server/app/api/v1/endpoints/insights.py:23-24 | The client has no `get_user_videos`, so both endpoints answer 500. |
| PerformanceOptimizer.Newest | server/performance_optimizer.py:99 | The newest-n slice has min(n, length) entries, and they are the last entries of the history in order. |
| PerformanceOptimizer.Trim | server/performance_optimizer.py:87-90 | A trimmed history keeps its newest 100 entries in order. One within the limit is unchanged. |
| PerformanceOptimizer.CollectMetrics | server/performance_optimizer.py:59-93 | The new queue sample always ends the queue history. When the statistics are read, a sample with utilisation active/total is appended and every history is trimmed to 100. When the read raises, only the queue sample is added and nothing is trimmed. |
| PerformanceOptimizer.AnalyzeAndOptimize | server/performance_optimizer.py:95-118 | queue_buildup is reported iff there is a sample and the newest five all exceed 10. low_utilization iff the newest three are all below 0.5. slow_processing iff there are more than ten times and the newest ten add up to more than 600 s. No issue repeats. |
| PerformanceOptimizer.QueueRule | server/performance_optimizer.py:99-100 | The check on the newest five sizes holds iff there is a sample and every one of the newest five exceeds 10. |
| PerformanceOptimizer.UtilizationRule | server/performance_optimizer.py:105-106 | The check on the newest three holds iff there is a sample and every one of the newest three is below 0.5. |
| PerformanceOptimizer.ProcessingRule | server/performance_optimizer.py:111-113 | The mean of the newest ten exceeds 60 s iff there are more than ten times and the newest ten add up to more than 600 s. |
| PerformanceOptimizer.Suggestions | server/performance_optimizer.py:120-145 | An issue has suggestions iff it is one of the three known issues. |
| PerformanceOptimizer.Recommendations | server/performance_optimizer.py:180-202 | Each advice line appears iff its rule fires, with the queue rules exclusive and likewise the utilisation and throughput rules. So there are 1 to 3 lines without repeats. "Running optimally" appears alone, iff no rule fires. |
| PerformanceOptimizer.Throughput | server/performance_optimizer.py:159-169 | The throughput is 0 with fewer than two utilisation samples or no elapsed time, and never negative. |
| PerformanceOptimizer.GetPerformanceReport | server/performance_optimizer.py:147-178 | A report is an error iff no queue sample was collected. Otherwise it counts all queue samples and carries the monitoring flag. The averages of the newest ten samples and the throughput are rounded to two places. The recommendations are those for the three numbers before rounding, and never empty. |
| PerformanceOptimizer.AdviceBeforeRounding | server/performance_optimizer.py:171-176 | The advice reads the unrounded average: a report can show an average queue size of 20.0 and still advise on a queue above 20. |
| PerformanceOptimizer.GetPerformanceOptimizer | server/performance_optimizer.py:205-215 | An existing instance is returned unchanged. Without one, an instance with empty metrics, not monitoring, is created iff a manager is given. The instance kept is the one returned. |
| PerformanceOptimizer.CollectKeepsBounded | server/performance_optimizer.py:87-93 | Collection keeps bounded histories bounded whenever statistics are read. A failed read grows a full queue history to 101 entries. |
| PerformanceOptimizer.TrimKeepsNewest | server/performance_optimizer.py:89-90 | Trimming keeps the newest entry and is idempotent. |
| PerformanceOptimizer.SlowProcessingNeverFires | server/performance_optimizer.py:110-115 | Nothing appends a processing time, so over any run of collections from empty metrics slow_processing is never reported. |
| PerformanceOptimizer.IssuesHaveSuggestions | server/performance_optimizer.py:102-115 | Every issue the analysis reports has suggestions. |
| PerformanceOptimizer.EarlyReportsAdviseLowThroughput | server/performance_optimizer.py:160-169 | With fewer than two utilisation samples every report advises investigating low throughput and never reports running optimally. |
| PerformanceOptimizer.SingletonStable | server/performance_optimizer.py:208-215 | A call without a manager creates nothing. After one call with a manager, later calls return that same instance whatever manager they get. |
| PipelineOptimizer.CheckTimingConsistency | server/pipeline_optimizer.py:38-43 | One sample with the time and queue size is appended, and the earlier ones are kept. |
| PipelineOptimizer.ValidateRecordsEach | server/pipeline_optimizer.py:30-32 | A run of checks records one sample per reading, after the earlier ones and in reading order. |
| PipelineOptimizer.MaxOf | server/pipeline_optimizer.py:69 | The maximum is one of the sizes and at least every size. |
| PipelineOptimizer.AverageAbove5Iff | server/pipeline_optimizer.py:68-74 | The true-division average exceeds 5 iff the sum exceeds 5 times the count. |
| PipelineOptimizer.Recommendations | server/pipeline_optimizer.py:85-102 | The two scaling lines are given iff some size exceeds 20. Otherwise the backlog line is given iff the average exceeds 5. Otherwise, including with no samples, the three defaults. Never empty. |
| PipelineOptimizer.NumberedLines | server/pipeline_optimizer.py:104-105 | There is one printed line per recommendation, numbered from 1 in order. |
| PipelineOptimizer.QueueAnalysis | server/pipeline_optimizer.py:65-77 | There is no queue analysis iff there are no samples. The high-average flag is set iff the average exceeds 5, and the high-peak flag iff some size exceeds 20. |
| PipelineOptimizer.FlagsMatchRecommendations | server/pipeline_optimizer.py:74-102 | A high peak gives the two scaling lines. A high average alone gives one backlog line. Neither gives the three defaults. |
| PipelineOptimizer.NumberingStartsAtOne | server/pipeline_optimizer.py:104-105 | The first printed line is numbered 1. |
| Exceptions.OrEmpty | server/app/core/exceptions.py:14 | Missing details become the empty map, and given ones are kept. |
| Exceptions.NewLifeOSException | server/app/core/exceptions.py:5-15 | A base exception keeps its message and code, and its details default to {}. |
| Exceptions.AuthenticationError | server/app/core/exceptions.py:18-20 | The code is always AUTH_ERROR with no details. The message is the given one, or "Authentication failed". |
| Exceptions.AuthorizationError | server/app/core/exceptions.py:23-25 | The code is always AUTHORIZATION_ERROR with no details. The message is the given one, or "Insufficient permissions". |
| Exceptions.VideoProcessingError | server/app/core/exceptions.py:28-30 | The code is VIDEO_PROCESSING_ERROR, and the message and details are kept, details defaulting to {}. |
| Exceptions.VectorStoreError | server/app/core/exceptions.py:33-35 | The code is VECTOR_STORE_ERROR, and the message and details are kept, details defaulting to {}. |
| Exceptions.ExternalServiceError | server/app/core/exceptions.py:38-40 | The code is the service name upper-cased, character by character, followed by "_ERROR". The message is the service name, " service error: ", then the given text. |
| Exceptions.CreateHttpException | server/app/core/exceptions.py:43-56 | The HTTP error keeps the status code, and its detail holds the message, the code or null, and the details or {}. |
| Exceptions.ExternalServiceMessageRecovered | server/app/core/exceptions.py:40 | The given text is recovered from an external-service message after the name and the infix. |
| Exceptions.SubclassesHaveCodes | server/app/core/exceptions.py:18-40 | Every subclass carries an error code. Only the base class may lack one. |
| Exceptions.HttpDetailOfException | server/app/core/exceptions.py:49-56 | An exception rendered as an HTTP error keeps its own message, code and details. |
| BaseService.HandleError | server/app/core/base_service.py:12-16 | An application exception is re-raised as it is. Any other error becomes a base exception with its text as the message, no code and no details. |
| BaseService.SafeExecute | server/app/core/base_service.py:18-22 | An operation that returns passes its value through. One that raises ends in exactly what error handling raises for it. |
| BaseService.GetHeaders | server/app/core/base_service.py:45-49 | The headers are exactly Authorization, the Bearer form of the key, and a JSON Content-Type. |
| BaseService.HealthCheck | server/app/core/base_service.py:30-36 | The default health check of both base services reports healthy, since its guarded block cannot fail. |
| BaseService.HandleErrorIdempotent | server/app/core/base_service.py:14-16 | Normalising an error twice gives the same exception as once. A foreign error keeps its text as the message. |
| BaseService.SafeExecuteKeepsAppErrors | server/app/core/base_service.py:18-22 | An operation raising an application exception raises that same exception, with code and details unchanged. |
| BaseService.HeadersCarryKey | server/app/core/base_service.py:47 | A Bearer reader recovers the non-empty API key from the headers. |
| CliMain.ActionOf | server/main.py:164 | A mode names an action iff it is one of the four running modes. |
| CliMain.ParseMode | server/main.py:154-157 | The mode is the first argument lower-cased, or "both" without one. |
| CliMain.ApiKey | server/main.py:170 | The key is the environment's when it is set and non-empty. Otherwise it is the configured one. |
| CliMain.MainOutcome | server/main.py:151-204 | Help is answered before any check. The Redis check applies exactly to the four running modes, and the key check exactly to workers and both. A manager build that raises escapes uncaught. An unknown mode exits 1. A run ends normally, interrupted or with a fatal exit 1. A missing key reaches ingestion and monitor as "". |
| CliMain.HelpSkipsChecks | server/main.py:156-161 | "HELP" and "help" print the usage, whatever the state of Redis, the key or the manager. |
| CliMain.DefaultModeNeedsBoth | server/main.py:155-176 | With no argument the mode is "both", which needs Redis and then the key. |
| CliMain.KeyOptionalForCapture | server/main.py:170-194 | Ingestion and monitoring run without a key, and a missing key is handed on as "". |
| CliMain.AsWrittenNothingRuns | server/main.py:183-184 | Building the manager always raises, outside the handled block, so no mode ever runs. Every mode but help ends at a check or with that uncaught error. |

## Left out

- Concurrency is not modelled. This covers asyncio `gather` and `create_task`, threads, signal handlers, sleeps and timeouts, and the thread safety of `queue.Queue`. Each background task is a separate step, so an interleaving is a chosen order of steps, as in the start race of `endpoints/system.py`.
- The clock, time zones and fresh UUIDs are parameters. Date-times are naive and whole-second. The America/New_York zone and microseconds are not modelled.
- Redis, S3 (boto3), Supabase, Qdrant, TwelveLabs and OpenAI are outcome or oracle parameters. Their wrappers `embedding_service.py`, `text_embedding_service.py`, `openai_service.py` and `config/connections.py` are not part of this model.
- bcrypt and JWT signing are cryptography. They are a hash/verify pair and a token codec passed in, and a lemma assumes only that the pair and the codec are sound.
- Camera capture, OpenCV encoding, `psutil` readings, logging and printed output are left out. The usage text of `server/main.py` is not modelled; only the fact that it is printed is.
- The monitoring and validation loops (`start_monitoring`, `stop_monitoring`, `start_validation` and the optimizer's `main`) are sequences of the steps they repeat, not loops over time.
- Floats are `real`.
- Chrono.FromIsoFormat: models a subset of the `fromisoformat` grammar of Python 3.7 to 3.10. A date alone, or a date, one separator character and `HH:MM` or `HH:MM:SS`, are accepted. After the seconds, a 3- or 6-digit fraction may follow. An optional `+HH:MM` or `-HH:MM` offset may end the text. Those releases also accept an hour alone and an offset with seconds; the model does not. The source does not pin a Python release. From 3.11 on, Python also accepts fractions of other lengths, compact `HHMMSS` forms, offsets without a colon, a trailing `Z`, and week dates. The model treats all of these as failures. A database timestamp such as `…:00.12345+00:00` therefore falls through to the next date field in `Insights.VideoDate`, and `Insights.TimeText` prints it raw instead of as a 12-hour time.
- Common.Round2: `round(x, 2)` is modelled on exact reals, as the nearest hundredth with ties to the even one. Python rounds the binary float, so a decimal tie such as 2.675 can come out one hundredth lower.
- Python string methods (`lower`, `upper`, `strip`, `\s`, `\d`) act on ASCII only. Case folding of other characters is not modelled.
- JSON is assumed to round-trip: a job is stored in Redis as its record, not as text. Detail and metadata values are strings or a small value type, not arbitrary JSON.
- Dict iteration order is not modelled. The registry's `active_users` is stated as a set of keys, and the order of tags after `list(set(…))` is not stated.
- FastAPI's `HTTPBearer` is modelled by its header split and its two rejections. Their status and challenge depend on the FastAPI release, which is a parameter (`AuthMiddleware.BearerRelease`). Their detail texts are taken as the same in every release.
- Routing and request glue are not part of this model: `app/main.py`, the routers, `endpoints/videos.py`, `endpoints/highlights.py`, `endpoints/memory.py` and the settings modules. Only their constants are used.
- `endpoints/memory.py` passes `content_types` and `tags` to `search_memories`, which does not accept them. The endpoint is not modelled, so this mismatch is noted here only.
- The exception paths of the default health checks are not modelled, since nothing inside their guarded blocks can raise.
- `worker.py` passes two arguments to `insert_video_analysis`, which takes one. The model follows the code: Worker.AsWrittenNeverCounts shows that every processed segment then ends in an error result and `processed_count` stays 0.
- `server/main.py` and `endpoints/system.py` pass `user_id` to a constructor without that parameter. CliMain.AsWrittenNothingRuns shows that no mode then ever runs, and SystemRegistry.StartAsWrittenFails states the same for the start endpoint.
- The insight endpoints call `get_user_videos`, which the Supabase client does not define. Insights.AsWrittenBothFail shows that both endpoints then answer with their error form.
- `update_vector_status` filters on `linking_uuid`, but the insert writes that value under `video_id`. SupabaseClient.UpdateMissesInsertedRows shows that an update never finds a row the client inserted.
- Nothing in `performance_optimizer.py` appends to the processing-time or throughput histories. PerformanceOptimizer.SlowProcessingNeverFires shows that the slow-processing rule therefore never fires; the rule itself is modelled over any given history.
- In `performance_optimizer.py`, a failed statistics read returns before the trim. PerformanceOptimizer.CollectKeepsBounded shows that the queue history can then pass 100 entries; the bound holds only while reads succeed.
- PerformanceOptimizer.GetPerformanceReport: the averages are stated only as the means of the newest ten samples, by their definitions; no further property of the means is proved.
- Insights.RecentLines: the contract states only the number of lines. Their contents and numbering are stated by Insights.RecentLinesNumbered, for the case where every video has a summary.
- Worker.WaitForTaskOptimized: the 180-second deadline is modelled as the length of the sequence of polls the task answers before time runs out.
- The optimizers' suggestions are only logged, so they are modelled as the list of messages chosen.
- VectorStore.FilterMeaning: states the date filter the code evidently intends, comparing date-times. The service writes ISO text into qdrant_client's `Range`, whose bounds are numbers, so as written the filter is never built (VectorStore.AsWrittenDateSearchEmpty). The lemma describes the search only where the library accepts such bounds.
- VectorStore.RangeMeaning: the same holds for the range alone; it states the comparison of date-times, not what a numeric `Range` would do with ISO text.
- AuthService.LoginUser: a stored row always has a password hash, so the KeyError of a row without one is not modelled.

=== FILE: auth_middleware.dfy ===
/**
 * The authentication dependency of the protected endpoints
 * (server/app/middleware/simple_auth.py). FastAPI's `HTTPBearer`, built
 * with its default of rejecting on its own, reads the Authorization header
 * first; the dependency then resolves the credentials to a user through
 * the auth service. The dependency's own rejection is a 401 with the
 * `WWW-Authenticate: Bearer` challenge of section 3 of RFC 6750; how
 * `HTTPBearer` answers depends on the FastAPI release, which is a
 * parameter.
 */
module AuthMiddleware {
  import opened Common
  import opened AuthSchemas
  import opened AuthService
  import Bearer

  const HeaderMissing: string := "Authorization header missing"
  const InvalidToken: string := "Invalid or expired token"

  /** The details of `HTTPBearer`'s own rejections. */
  const NotAuthenticatedDetail: string := "Not authenticated"
  const InvalidCredentialsDetail: string := "Invalid authentication credentials"

  datatype AuthOutcome =
    | Authenticated(user: User)
    | Rejected(code: nat, detail: string, wwwAuthenticate: Option<string>)

  /** How the installed FastAPI answers a request `HTTPBearer` rejects:
      older releases with 403 and no challenge, newer ones with 401 and the
      Bearer challenge. */
  datatype BearerRelease = Answers403 | Answers401

  /** `HTTPBearer`'s rejection, raised before the dependency runs. */
  function BearerRejection(release: BearerRelease, reading: Bearer.Reading): (r: AuthOutcome)
    requires !reading.Credentials?
    ensures r.Rejected? && r.detail != HeaderMissing && r.detail != InvalidToken
    ensures r.code == 401 <==> r.wwwAuthenticate == Some(Bearer.Challenge)
    ensures r.code == 403 <==> release == Answers403
    ensures r.detail == NotAuthenticatedDetail <==> reading.NotAuthenticated?
  {
    var detail := if reading.NotAuthenticated? then NotAuthenticatedDetail else InvalidCredentialsDetail;
    match release
    case Answers403 => Rejected(403, detail, None)
    case Answers401 => Rejected(401, detail, Some(Bearer.Challenge))
  }

  /** `get_current_user`, given the credentials (None stands for a falsy
      `credentials`), the user table, the token codec, the clock and
      whether the user lookup raises. */
  function GetCurrentUser(credentials: Option<string>, t: UserTable, c: Codec, now: int, lookupRaises: bool): (r: AuthOutcome)
    ensures credentials.None? ==> r == Rejected(401, HeaderMissing, Some(Bearer.Challenge))
    ensures credentials.Some? ==>
      (r.Authenticated? <==> GetUserFromToken(t, c, credentials.value, now, lookupRaises).Some?)
    ensures credentials.Some? && r.Authenticated? ==> Some(r.user) == GetUserFromToken(t, c, credentials.value, now, lookupRaises)
    ensures credentials.Some? && r.Rejected? ==> r == Rejected(401, InvalidToken, Some(Bearer.Challenge))
  {
    match credentials
    case None => Rejected(401, HeaderMissing, Some(Bearer.Challenge))
    case Some(token) =>
      match GetUserFromToken(t, c, token, now, lookupRaises)
      case None => Rejected(401, InvalidToken, Some(Bearer.Challenge))
      case Some(u) => Authenticated(User(u.id, u.username))
  }

  /** A protected request with a raw Authorization header: `HTTPBearer`
      rejects it, or hands the dependency credentials, which are never
      missing, so the dependency's "Authorization header missing" branch
      is never reached. */
  function Authenticate(header: Option<string>, release: BearerRelease, t: UserTable, c: Codec, now: int,
                        lookupRaises: bool): (r: AuthOutcome)
    ensures Bearer.BearerCredentials(header).None? ==> r == BearerRejection(release, Bearer.ReadHeader(header))
    ensures Bearer.BearerCredentials(header).Some? ==>
      r == GetCurrentUser(Bearer.BearerCredentials(header), t, c, now, lookupRaises)
    ensures r.Rejected? ==> r.detail != HeaderMissing
  {
    match Bearer.ReadHeader(header)
    case Credentials(token) => GetCurrentUser(Some(token), t, c, now, lookupRaises)
    case NotAuthenticated => BearerRejection(release, Bearer.NotAuthenticated)
    case InvalidScheme => BearerRejection(release, Bearer.InvalidScheme)
  }

  /** Once `HTTPBearer` has accepted the header, every rejection is the
      dependency's 401 with the Bearer challenge; before that, the release
      decides between 401 with the challenge and 403 without it. */
  lemma RejectionsChallenge(header: Option<string>, release: BearerRelease, t: UserTable, c: Codec, now: int, lookupRaises: bool)
    ensures var r := Authenticate(header, release, t, c, now, lookupRaises);
      r.Rejected? && (Bearer.BearerCredentials(header).Some? || release == Answers401) ==>
        r.code == 401 && r.wwwAuthenticate == Some(Bearer.Challenge)
    ensures var r := Authenticate(header, release, t, c, now, lookupRaises);
      r.Rejected? && Bearer.BearerCredentials(header).None? && release == Answers403 ==>
        r.code == 403 && r.wwwAuthenticate.None?
  {
  }

  /** End to end: a client that logged in and sends its token as a Bearer
      header within 24 hours is authenticated as the user it logged in as,
      when ids are unique and the lookup answers. */
  lemma LoginThenAuthenticate(t: UserTable, username: string, password: string, h: Hasher, c: Codec, now: int, later: int,
                              release: BearerRelease)
    requires SoundCodec(c) && UniqueIds(t)
    requires LoginUser(t, username, password, h, c, now, None).AuthOk?
    requires now <= later < now + TokenLifetime
    ensures var resp := LoginUser(t, username, password, h, c, now, None).response;
      Authenticate(Some(Bearer.AuthorizationValue(resp.token)), release, t, c, later, false) == Authenticated(resp.user)
  {
    var resp := LoginUser(t, username, password, h, c, now, None).response;
    LoginTokenIdentifiesUser(t, username, password, h, c, now, later);
    var row := FindByUsername(t, username).value;
    TokenLifetimeBound(c, row.id, row.username, now, later);
    assert resp.token == c.encode(Payload(row.id, row.username, now + TokenLifetime));
    Bearer.HeaderRoundTrip(resp.token);
  }

  /** No header, a header without a credential, or a header of another
      scheme is turned away by `HTTPBearer` with its own detail, never with
      the dependency's. */
  lemma MissingHeaderRejected(release: BearerRelease, t: UserTable, c: Codec, now: int, lookupRaises: bool,
                              scheme: string, token: string)
    requires ' ' !in scheme && scheme != "" && token != "" && Lower(scheme) != "bearer"
    ensures Authenticate(None, release, t, c, now, lookupRaises) == BearerRejection(release, Bearer.NotAuthenticated)
    ensures Authenticate(Some(Bearer.SchemeName), release, t, c, now, lookupRaises)
            == BearerRejection(release, Bearer.NotAuthenticated)
    ensures Authenticate(Some(scheme + " " + token), release, t, c, now, lookupRaises)
            == BearerRejection(release, Bearer.InvalidScheme)
    ensures Authenticate(None, release, t, c, now, lookupRaises).detail == NotAuthenticatedDetail
    ensures Authenticate(Some(scheme + " " + token), release, t, c, now, lookupRaises).detail == InvalidCredentialsDetail
  {
    Bearer.OtherSchemeRejected(scheme, token);
  }
}

=== FILE: auth_schemas.dfy ===
/**
 * The request and response bodies of username/password authentication
 * (server/app/schemas/simple_auth.py). A body arrives as JSON fields; a
 * model is built when every declared field is present as a string, extra
 * fields are ignored, and no length or emptiness rule applies.
 */
module AuthSchemas {
  import opened Common

  /** A JSON value as far as these models care: a string, or anything else. */
  datatype JsonValue = JString(text: string) | JOther

  type JsonObject = map<string, JsonValue>

  datatype UserRegister = UserRegister(username: string, password: string)
  datatype UserLogin = UserLogin(username: string, password: string)
  datatype User = User(id: string, username: string)
  datatype AuthResponse = AuthResponse(token: string, user: User)

  /** The field `name` of `body` when it is a string. */
  function StringField(body: JsonObject, name: string): (r: Option<string>)
    ensures r.Some? <==> name in body && body[name].JString?
    ensures r.Some? ==> body[name] == JString(r.value)
  {
    if name in body && body[name].JString? then Some(body[name].text) else None
  }

  /** Validation of a `UserRegister` body. */
  function ParseUserRegister(body: JsonObject): (r: Option<UserRegister>)
    ensures r.Some? <==> StringField(body, "username").Some? && StringField(body, "password").Some?
    ensures r.Some? ==> body["username"] == JString(r.value.username) && body["password"] == JString(r.value.password)
  {
    match (StringField(body, "username"), StringField(body, "password"))
    case (Some(u), Some(p)) => Some(UserRegister(u, p))
    case _ => None
  }

  /** Validation of a `UserLogin` body: the same two fields. */
  function ParseUserLogin(body: JsonObject): (r: Option<UserLogin>)
    ensures r.Some? <==> ParseUserRegister(body).Some?
    ensures r.Some? ==> (r.value.username == ParseUserRegister(body).value.username
                         && r.value.password == ParseUserRegister(body).value.password)
  {
    match (StringField(body, "username"), StringField(body, "password"))
    case (Some(u), Some(p)) => Some(UserLogin(u, p))
    case _ => None
  }

  /** The JSON object a register body is sent as. */
  function RegisterBody(m: UserRegister): JsonObject
  {
    map["username" := JString(m.username), "password" := JString(m.password)]
  }

  /** Every pair of strings, empty ones included, is a valid register and
      login body, and validation gives it back. */
  lemma NoContentConstraint(username: string, password: string)
    ensures ParseUserRegister(RegisterBody(UserRegister(username, password))) == Some(UserRegister(username, password))
    ensures ParseUserLogin(RegisterBody(UserRegister(username, password))) == Some(UserLogin(username, password))
  {
    var body := RegisterBody(UserRegister(username, password));
    assert body["username"] == JString(username);
    assert body["password"] == JString(password);
  }

  /** Extra fields do not change what a body validates to. */
  lemma ExtraFieldsIgnored(body: JsonObject, name: string, v: JsonValue)
    requires name != "username" && name != "password"
    ensures ParseUserRegister(body[name := v]) == ParseUserRegister(body)
  {
    assert StringField(body[name := v], "username") == StringField(body, "username");
    assert StringField(body[name := v], "password") == StringField(body, "password");
  }
}

=== FILE: auth_service.dfy ===
/**
 * Username/password authentication (server/app/services/simple_auth.py).
 *
 * The Supabase `users` table is a sequence of rows; a query returns the
 * matching rows in table order and `.data[0]` is the first of them.
 * bcrypt is an abstract hashing pair and the HS256 JWT codec an abstract
 * encode/decode pair keyed by the service's secret. Whether a database call
 * raises, what the insert hands back, the salt and the clock (whole
 * seconds since the epoch, in UTC) are parameters.
 */
module AuthService {
  import opened Common
  import opened AuthSchemas

  /** `timedelta(hours=24)`, the token lifetime, in seconds. */
  const TokenLifetime: int := 86400

  /** The secret used when `JWT_SECRET` is unset. */
  const DefaultSecret: string := "your-secret-key"

  const UsernameTaken: string := "Username already exists"
  const CreateFailed: string := "Failed to create user"
  const InvalidCredentials: string := "Invalid credentials"
  const RegistrationErrorPrefix: string := "Registration error: "
  const LoginErrorPrefix: string := "Login error: "

  datatype UserRow = UserRow(id: string, username: string, passwordHash: string)

  type UserTable = seq<UserRow>

  /** The claims of a token: `exp` is a registered claim (section 4.1.4 of
      RFC 7519), a NumericDate in seconds. */
  datatype Payload = Payload(userId: string, username: string, exp: int)

  /** What `bcrypt.checkpw` does: it answers whether the password matches,
      or raises with the given text, as it does on a malformed hash. */
  datatype Check = Checked(matches: bool) | CheckRaises(message: string)

  /** bcrypt: `hash(password, salt)` and `verify(password, hashed)`. */
  datatype Hasher = Hasher(hash: (string, string) -> string, verify: (string, string) -> Check)

  /** HS256 with the service's secret: `decode` is None for a token whose
      signature or format is bad. */
  datatype Codec = Codec(encode: Payload -> string, decode: string -> Option<Payload>)

  /** A password verifies against any hash made of it. */
  ghost predicate SoundHasher(h: Hasher)
  {
    forall p, salt :: h.verify(p, h.hash(p, salt)) == Checked(true)
  }

  /** A token decodes to the claims it was encoded from, and is never
      empty (a compact JWS has three dot-separated parts). */
  ghost predicate SoundCodec(c: Codec)
  {
    forall p :: c.decode(c.encode(p)) == Some(p) && c.encode(p) != ""
  }

  /** `SimpleAuthService.__init__`: the JWT secret, or None where the
      constructor raises because the Supabase URL or key is unset or empty. */
  function InitSecret(url: Option<string>, key: Option<string>, secretEnv: Option<string>): (r: Option<string>)
    ensures r.Some? <==> url.Some? && url.value != "" && key.Some? && key.value != ""
    ensures r.Some? && secretEnv.None? ==> r.value == DefaultSecret
    ensures r.Some? && secretEnv.Some? ==> r.value == secretEnv.value
  {
    if url.None? || url.value == "" || key.None? || key.value == "" then None
    else Some(if secretEnv.Some? then secretEnv.value else DefaultSecret)
  }

  /** The two columns the service looks rows up by. */
  datatype Column = UsernameColumn | IdColumn

  function Cell(row: UserRow, c: Column): string
  {
    match c
    case UsernameColumn => row.username
    case IdColumn => row.id
  }

  /** The first row whose column holds `value`, as `.eq(column, value)`
      followed by `.data[0]`. */
  function FindFirst(t: UserTable, c: Column, value: string): (r: Option<UserRow>)
    ensures r.Some? ==> r.value in t && Cell(r.value, c) == value
    ensures r.None? <==> forall i :: 0 <= i < |t| ==> Cell(t[i], c) != value
    decreases |t|
  {
    if |t| == 0 then None
    else if Cell(t[0], c) == value then Some(t[0])
    else FindFirst(t[1..], c, value)
  }

  /** The lookup by username of registration and login. */
  function FindByUsername(t: UserTable, username: string): Option<UserRow>
  {
    FindFirst(t, UsernameColumn, username)
  }

  /** The lookup by id of `get_user_from_token`. */
  function FindById(t: UserTable, id: string): Option<UserRow>
  {
    FindFirst(t, IdColumn, id)
  }

  /** No two rows share a username. */
  predicate UniqueUsernames(t: UserTable)
  {
    forall i, j :: 0 <= i < j < |t| ==> t[i].username != t[j].username
  }

  /** No two rows share an id. */
  predicate UniqueIds(t: UserTable)
  {
    forall i, j :: 0 <= i < j < |t| ==> t[i].id != t[j].id
  }

  /** `create_jwt_token` at clock reading `now`. */
  function CreateJwtToken(c: Codec, userId: string, username: string, now: int): string
  {
    c.encode(Payload(userId, username, now + TokenLifetime))
  }

  /** `verify_jwt_token`: the claims, or None for a token that does not
      decode or whose `exp` is not after `now`. */
  function VerifyJwtToken(c: Codec, token: string, now: int): (r: Option<Payload>)
    ensures r.Some? <==> c.decode(token).Some? && now < c.decode(token).value.exp
    ensures r.Some? ==> r == c.decode(token)
  {
    match c.decode(token)
    case None => None
    case Some(p) => if p.exp <= now then None else Some(p)
  }

  /** A token is accepted from the moment it is made until 24 hours later,
      and never after; the claims name the user it was made for. */
  lemma TokenLifetimeBound(c: Codec, userId: string, username: string, issued: int, now: int)
    requires SoundCodec(c)
    ensures var p := VerifyJwtToken(c, CreateJwtToken(c, userId, username, issued), now);
      (p.Some? <==> now < issued + TokenLifetime)
      && (p.Some? ==> p.value == Payload(userId, username, issued + TokenLifetime))
  {
    assert c.decode(c.encode(Payload(userId, username, issued + TokenLifetime))) == Some(Payload(userId, username, issued + TokenLifetime));
  }

  /** The service's answer: a token and user, or an HTTP error. */
  datatype AuthResult = AuthOk(response: AuthResponse) | AuthError(code: nat, detail: string)

  /** What the insert into `users` does: returns the new row's id, returns
      no rows, or raises. */
  datatype InsertOutcome = Inserted(id: string) | InsertedNothing | InsertRaises(message: string)

  /** The answer for a user row: a fresh token and the row's id and name. */
  function Grant(c: Codec, id: string, username: string, now: int): AuthResult
  {
    AuthOk(AuthResponse(CreateJwtToken(c, id, username, now), User(id, username)))
  }

  /** `register_user`: the table afterwards and the answer. `selectRaises`
      is what the username lookup raises, if anything. */
  function RegisterUser(t: UserTable, username: string, password: string, h: Hasher, salt: string, c: Codec, now: int,
                        selectRaises: Option<string>, insert: InsertOutcome): (r: (UserTable, AuthResult))
    ensures r.1.AuthOk? <==> selectRaises.None? && FindByUsername(t, username).None? && insert.Inserted?
    ensures r.1.AuthOk? ==> (r.0 == t + [UserRow(insert.id, username, h.hash(password, salt))]
                             && r.1 == Grant(c, insert.id, username, now))
    ensures r.1.AuthError? ==> r.0 == t && (r.1.code == 400 || r.1.code == 500)
    ensures r.1 == AuthError(400, UsernameTaken) <==> selectRaises.None? && FindByUsername(t, username).Some?
    ensures selectRaises.Some? ==> r.1 == AuthError(500, RegistrationErrorPrefix + selectRaises.value)
    ensures selectRaises.None? && FindByUsername(t, username).None? && insert.InsertRaises? ==>
      r.1 == AuthError(500, RegistrationErrorPrefix + insert.message)
    ensures selectRaises.None? && FindByUsername(t, username).None? && insert.InsertedNothing? ==>
      r.1 == AuthError(500, CreateFailed)
  {
    if selectRaises.Some? then (t, AuthError(500, RegistrationErrorPrefix + selectRaises.value))
    else if FindByUsername(t, username).Some? then (t, AuthError(400, UsernameTaken))
    else match insert
      case Inserted(id) => (t + [UserRow(id, username, h.hash(password, salt))], Grant(c, id, username, now))
      case InsertedNothing => (t, AuthError(500, CreateFailed))
      case InsertRaises(e) => (t, AuthError(500, RegistrationErrorPrefix + e))
  }

  /** `login_user`. A raise from the lookup or from the password check
      is answered with 500. */
  function LoginUser(t: UserTable, username: string, password: string, h: Hasher, c: Codec, now: int,
                     selectRaises: Option<string>): (r: AuthResult)
    ensures r.AuthOk? <==> selectRaises.None? && FindByUsername(t, username).Some?
                           && h.verify(password, FindByUsername(t, username).value.passwordHash) == Checked(true)
    ensures r.AuthOk? ==> (var row := FindByUsername(t, username).value; r == Grant(c, row.id, row.username, now))
    ensures selectRaises.Some? ==> r == AuthError(500, LoginErrorPrefix + selectRaises.value)
    ensures selectRaises.None? && FindByUsername(t, username).Some?
            && h.verify(password, FindByUsername(t, username).value.passwordHash).CheckRaises? ==>
      r == AuthError(500, LoginErrorPrefix + h.verify(password, FindByUsername(t, username).value.passwordHash).message)
    ensures r == AuthError(401, InvalidCredentials) <==>
      selectRaises.None? && (FindByUsername(t, username).None?
                             || h.verify(password, FindByUsername(t, username).value.passwordHash) == Checked(false))
  {
    if selectRaises.Some? then AuthError(500, LoginErrorPrefix + selectRaises.value)
    else match FindByUsername(t, username)
      case None => AuthError(401, InvalidCredentials)
      case Some(row) =>
        match h.verify(password, row.passwordHash)
        case CheckRaises(e) => AuthError(500, LoginErrorPrefix + e)
        case Checked(false) => AuthError(401, InvalidCredentials)
        case Checked(true) => Grant(c, row.id, row.username, now)
  }

  /** `get_user_from_token`: the row's id and username, or None when the
      token is rejected, the lookup raises, or no row has the token's id. */
  function GetUserFromToken(t: UserTable, c: Codec, token: string, now: int, selectRaises: bool): (r: Option<User>)
    ensures r.Some? <==> VerifyJwtToken(c, token, now).Some? && !selectRaises
                         && FindById(t, VerifyJwtToken(c, token, now).value.userId).Some?
    ensures r.Some? ==> exists i :: 0 <= i < |t| && t[i].id == VerifyJwtToken(c, token, now).value.userId
                                    && r.value == User(t[i].id, t[i].username)
  {
    match VerifyJwtToken(c, token, now)
    case None => None
    case Some(p) =>
      if selectRaises then None
      else match FindById(t, p.userId)
        case None => None
        case Some(row) => Some(User(row.id, row.username))
  }

  /** Registration keeps usernames unique. */
  lemma RegisterKeepsUsernamesUnique(t: UserTable, username: string, password: string, h: Hasher, salt: string, c: Codec,
                                     now: int, selectRaises: Option<string>, insert: InsertOutcome)
    requires UniqueUsernames(t)
    ensures UniqueUsernames(RegisterUser(t, username, password, h, salt, c, now, selectRaises, insert).0)
  {
  }

  /** No user enumeration: an unknown username and a wrong password get the
      same answer. */
  lemma NoUserEnumeration(t: UserTable, known: string, unknown: string, password: string, h: Hasher, c: Codec, now: int)
    requires FindByUsername(t, unknown).None?
    requires FindByUsername(t, known).Some? && h.verify(password, FindByUsername(t, known).value.passwordHash) == Checked(false)
    ensures LoginUser(t, unknown, password, h, c, now, None) == LoginUser(t, known, password, h, c, now, None)
  {
  }

  /** A row appended under a new username is what a lookup of that
      username finds. */
  lemma {:induction false} FindAppended(t: UserTable, row: UserRow)
    requires FindByUsername(t, row.username).None?
    ensures FindByUsername(t + [row], row.username) == Some(row)
    decreases |t|
  {
    if |t| > 0 {
      assert (t + [row])[1..] == t[1..] + [row];
      FindAppended(t[1..], row);
    }
  }

  /** In a table with unique ids, the lookup by id finds the row at any
      position holding that id. */
  lemma {:induction false} FindUniqueId(t: UserTable, i: nat)
    requires UniqueIds(t) && i < |t|
    ensures FindById(t, t[i].id) == Some(t[i])
    decreases |t|
  {
    if i > 0 {
      assert t[0].id != t[i].id;
      FindUniqueId(t[1..], i - 1);
    }
  }

  /** Register then log in: after a successful registration, logging in
      with the same password succeeds for the new row, and the token it
      returns names that row. */
  lemma RegisterThenLogin(t: UserTable, username: string, password: string, h: Hasher, salt: string, c: Codec,
                          now: int, later: int, id: string)
    requires SoundHasher(h)
    requires FindByUsername(t, username).None?
    ensures var (t1, reg) := RegisterUser(t, username, password, h, salt, c, now, None, Inserted(id));
      reg == Grant(c, id, username, now)
      && LoginUser(t1, username, password, h, c, later, None) == Grant(c, id, username, later)
  {
    var row := UserRow(id, username, h.hash(password, salt));
    FindAppended(t, row);
    assert h.verify(password, h.hash(password, salt)) == Checked(true);
  }

  /** A token from a successful login identifies its user for the next 24
      hours, when ids are unique and the lookup answers. */
  lemma LoginTokenIdentifiesUser(t: UserTable, username: string, password: string, h: Hasher, c: Codec, now: int, later: int)
    requires SoundCodec(c) && UniqueIds(t)
    requires LoginUser(t, username, password, h, c, now, None).AuthOk?
    requires now <= later < now + TokenLifetime
    ensures var resp := LoginUser(t, username, password, h, c, now, None).response;
      GetUserFromToken(t, c, resp.token, later, false) == Some(resp.user)
  {
    var row := FindByUsername(t, username).value;
    var i :| 0 <= i < |t| && t[i] == row;
    FindUniqueId(t, i);
    TokenLifetimeBound(c, row.id, row.username, now, later);
  }
}

=== FILE: automation_controller.dfy ===
/**
 * Automation dispatch (server/automations/automation_controller.py).
 *
 * The controller analyses a summary, schedules the calendar task when the
 * analysis lists "calendar" and the highlights task when it lists
 * "highlights", gathers their outcomes in scheduling order (a raised
 * exception becomes an error entry), and reports them. How each task ends
 * is a parameter; the gathering's concurrency is not modelled.
 */
module AutomationController {
  import opened Common
  import opened SummaryAnalyzer

  /** One entry of `automations_triggered`: its "type", its "status" and, for
      a failed task, the exception text. */
  datatype Entry = Entry(kind: string, status: string, error: Option<string>)

  /** How a scheduled automation task ended. */
  datatype TaskOutcome = Succeeded | Raised(message: string)

  datatype AutomationResults = AutomationResults(
    videoId: string, analysis: Option<Analysis>, triggered: seq<Entry>, error: Option<string>)

  /** The tasks `process_video_summary` schedules, in order. */
  function ScheduledTasks(triggered: seq<string>): (r: seq<string>)
    ensures "calendar" in r <==> "calendar" in triggered
    ensures "highlights" in r <==> "highlights" in triggered
    ensures forall a :: a in r ==> a == "calendar" || a == "highlights"
    ensures NoDup(r) && (|r| == 2 ==> r == ["calendar", "highlights"])
  {
    Verdict("calendar" in triggered, "highlights" in triggered)
  }

  /** The entry a task contributes: its own success report, or the error
      entry `gather(..., return_exceptions=True)` turns an exception into. */
  function EntryFor(task: string, outcome: TaskOutcome): (r: Entry)
    ensures outcome.Succeeded? ==> r == Entry(task, "success", None)
    ensures outcome.Raised? ==> r == Entry("error", "failed", Some(outcome.message))
  {
    match outcome
    case Succeeded => Entry(task, "success", None)
    case Raised(m) => Entry("error", "failed", Some(m))
  }

  function Gather(tasks: seq<string>, outcome: string -> TaskOutcome): (r: seq<Entry>)
    ensures |r| == |tasks|
    ensures forall i :: 0 <= i < |tasks| ==> r[i] == EntryFor(tasks[i], outcome(tasks[i]))
  {
    seq(|tasks|, i requires 0 <= i < |tasks| => EntryFor(tasks[i], outcome(tasks[i])))
  }

  /** `process_video_summary`. `reply` is the analyzer's model reply,
      `outcome` says how each scheduled task ends, and `failure` is an
      exception escaping the body (reported with no entries). */
  function ProcessVideoSummary(
    videoId: string, summary: string, reply: LlmReply,
    outcome: string -> TaskOutcome, failure: Option<string>): (r: AutomationResults)
    ensures r.videoId == videoId
    ensures failure.Some? ==> r.triggered == [] && r.error == failure && r.analysis.None?
    ensures failure.None? ==> r.error.None? && r.analysis == Some(AnalyzeSummary(summary, reply))
    ensures failure.None? ==>
      var tasks := ScheduledTasks(AnalyzeSummary(summary, reply).triggered);
      |r.triggered| == |tasks|
      && forall i :: 0 <= i < |tasks| ==> r.triggered[i] == EntryFor(tasks[i], outcome(tasks[i]))
  {
    if failure.Some? then AutomationResults(videoId, None, [], failure)
    else
      var analysis := AnalyzeSummary(summary, reply);
      AutomationResults(videoId, Some(analysis), Gather(ScheduledTasks(analysis.triggered), outcome), None)
  }

  /** When the model is unreachable, a summary mentioning a meeting and a
      milestone runs both automations, calendar first. */
  lemma FallbackRunsBoth(videoId: string, summary: string, outcome: string -> TaskOutcome)
    requires AnyIn(CalendarKeywords, Lower(summary)) && AnyIn(HighlightsKeywords, Lower(summary))
    ensures var r := ProcessVideoSummary(videoId, summary, ApiError, outcome, None);
      |r.triggered| == 2
      && r.triggered[0] == EntryFor("calendar", outcome("calendar"))
      && r.triggered[1] == EntryFor("highlights", outcome("highlights"))
  {
    var t := TriggeredAutomations(summary);
    assert "calendar" in ScheduledTasks(t) && "highlights" in ScheduledTasks(t);
  }
}

=== FILE: base_service.dfy ===
/**
 * The shared service base classes (server/app/core/base_service.py): error
 * normalisation, guarded execution, the headers sent to external APIs and
 * the default health checks. An operation's outcome is a parameter, and
 * the error log write is left out.
 */
module BaseService {
  import opened Common
  import opened Exceptions
  import opened Bearer

  /** An error as caught: one of the application's exceptions, or any
      other exception with its string form. */
  datatype CaughtError = AppError(exception: LifeOSException) | OtherError(text: string)

  /** `handle_error`: it never returns normally; the result is the
      exception it raises. An application exception is raised again as it
      is; anything else becomes a base exception with its text as message,
      no code and no details. */
  function HandleError(error: CaughtError): (r: LifeOSException)
    ensures error.AppError? ==> r == error.exception
    ensures error.OtherError? ==> r.kind == Base && r.message == error.text && r.errorCode.None? && r.details == map[]
  {
    match error
    case AppError(e) => e
    case OtherError(text) => NewLifeOSException(text, None, None)
  }

  /** What an awaited operation does. */
  datatype Outcome<T> = Returned(value: T) | Raised(error: CaughtError)

  /** What `safe_execute` does: return a value, or raise an application
      exception. */
  datatype Guarded<T> = Value(value: T) | Raises(exception: LifeOSException)

  /** `safe_execute`: the operation's result when it does not raise;
      otherwise whatever `handle_error` raises for its error. */
  function SafeExecute<T>(outcome: Outcome<T>): (r: Guarded<T>)
    ensures outcome.Returned? <==> r.Value?
    ensures outcome.Returned? ==> r.value == outcome.value
    ensures outcome.Raised? ==> r.exception == HandleError(outcome.error)
  {
    match outcome
    case Returned(v) => Value(v)
    case Raised(e) => Raises(HandleError(e))
  }

  const JsonContentType: string := "application/json"

  /** `ExternalAPIService.get_headers`: the Bearer authorisation for the
      API key and a JSON content type, and nothing else. */
  function GetHeaders(apiKey: string): (r: map<string, string>)
    ensures r.Keys == {"Authorization", "Content-Type"}
    ensures r["Authorization"] == AuthorizationValue(apiKey)
    ensures r["Content-Type"] == JsonContentType
  {
    map["Authorization" := AuthorizationValue(apiKey), "Content-Type" := JsonContentType]
  }

  /** The two services with a default health check. */
  datatype ServiceKind = DatabaseService | ExternalAPIService

  /** The default `health_check` of both base classes: it reports healthy,
      as nothing in its guarded block can fail. */
  function HealthCheck(kind: ServiceKind): (r: bool)
    ensures r
  {
    true
  }

  /** Normalising an error twice raises the same exception as once, and
      every error leaves as an application exception whose message is the
      original text for a foreign one. */
  lemma HandleErrorIdempotent(error: CaughtError)
    ensures HandleError(AppError(HandleError(error))) == HandleError(error)
    ensures error.OtherError? ==> HandleError(error) == NewLifeOSException(error.text, None, None)
  {
  }

  /** A guarded operation that raises an application exception raises the
      same one again, code and details unchanged. */
  lemma SafeExecuteKeepsAppErrors<T>(e: LifeOSException)
    ensures SafeExecute<T>(Raised(AppError(e))) == Raises(e)
  {
  }

  /** The headers sent to an external API carry the key back to a Bearer
      reader: reading the Authorization header recovers a non-empty key. */
  lemma HeadersCarryKey(apiKey: string)
    requires apiKey != ""
    ensures BearerCredentials(Some(GetHeaders(apiKey)["Authorization"])) == Some(apiKey)
  {
    HeaderRoundTrip(apiKey);
  }
}

=== FILE: bearer.dfy ===
/**
 * The Bearer scheme of RFC 6750 as the server uses it on both sides: it
 * sends `Authorization: Bearer <key>` to the services it calls
 * (server/app/core/base_service.py) and reads the same header from its own
 * clients (server/app/middleware/simple_auth.py, through FastAPI's
 * `HTTPBearer`). Section 2.1 of RFC 6750 fixes the header form, section 3
 * the `WWW-Authenticate: Bearer` challenge sent with a rejection.
 */
module Bearer {
  import opened Common

  const SchemeName: string := "Bearer"

  /** The challenge value of a rejection (section 3 of RFC 6750). */
  const Challenge: string := "Bearer"

  /** The Authorization header value that carries `token`. */
  function AuthorizationValue(token: string): (r: string)
    ensures StartsWith(r, SchemeName + " ")
    ensures r[|SchemeName| + 1..] == token
  {
    SchemeName + " " + token
  }

  /** What FastAPI's `HTTPBearer` makes of an Authorization header: the
      credentials, or the reason it rejects the request. */
  datatype Reading =
    | Credentials(token: string)
    | NotAuthenticated   // no header, or no scheme or no credential in it
    | InvalidScheme      // a scheme other than Bearer

  /** The header is split at its first space and the scheme compared
      without regard to case. A missing part is checked before the
      scheme. */
  function ReadHeader(header: Option<string>): (r: Reading)
    ensures header.None? ==> r == NotAuthenticated
    ensures header.Some? && ' ' !in header.value ==> r == NotAuthenticated
    ensures r.Credentials? ==> r.token != "" && header.Some? && ' ' in header.value
  {
    match header
    case None => NotAuthenticated
    case Some(h) =>
      SplitOnceNone(h, ' ');
      match SplitOnce(h, ' ')
      case None => NotAuthenticated
      case Some((scheme, token)) =>
        if scheme == "" || token == "" then NotAuthenticated
        else if Lower(scheme) != "bearer" then InvalidScheme
        else Credentials(token)
  }

  /** The credentials in an Authorization header, None when `HTTPBearer`
      rejects it. */
  function BearerCredentials(header: Option<string>): (r: Option<string>)
    ensures header.None? ==> r.None?
    ensures r.Some? ==> r.value != "" && header.Some? && ' ' in header.value
  {
    match ReadHeader(header)
    case Credentials(token) => Some(token)
    case _ => None
  }

  /** Every header with a space is a scheme without spaces, a space and the
      rest; its reading is decided by those two parts alone. */
  lemma ReadSplitHeader(scheme: string, rest: string)
    requires ' ' !in scheme
    ensures ReadHeader(Some(scheme + " " + rest)) ==
      if scheme == "" || rest == "" then NotAuthenticated
      else if Lower(scheme) != "bearer" then InvalidScheme
      else Credentials(rest)
  {
    assert scheme + " " + rest == scheme + [' '] + rest;
    SplitOnceAfter(scheme, ' ', rest);
  }

  /** Round trip: the credentials read back from the header built for a
      non-empty token are that token, spaces inside it included. */
  lemma HeaderRoundTrip(token: string)
    requires token != ""
    ensures BearerCredentials(Some(AuthorizationValue(token))) == Some(token)
  {
    ReadSplitHeader(SchemeName, token);
    assert Lower(SchemeName) == "bearer";
  }

  /** A header of any other scheme is rejected as such; one with nothing
      after the scheme is rejected as not authenticated. */
  lemma OtherSchemeRejected(scheme: string, token: string)
    requires ' ' !in scheme && scheme != "" && token != "" && Lower(scheme) != "bearer"
    ensures ReadHeader(Some(scheme + " " + token)) == InvalidScheme
    ensures ReadHeader(Some(SchemeName)) == NotAuthenticated
    ensures ReadHeader(Some(SchemeName + " ")) == NotAuthenticated
  {
    ReadSplitHeader(scheme, token);
    ReadSplitHeader(SchemeName, "");
    assert SchemeName + " " == SchemeName + " " + "";
  }
}

=== FILE: calendar.dfy ===
/**
 * Calendar event normalisation (server/automations/calendar_integration.py).
 *
 * The language model hands back loosely typed events; the integration
 * rejects those without a title or any date/time hint, resolves relative
 * dates ("tomorrow", "friday", an ISO date) against today's date in the
 * America/New_York zone, reads a clock time such as "3:30 pm", derives the
 * end time from the duration, and later parses the ISO strings back when it
 * creates the (real or simulated) calendar entry. Today's date is a
 * parameter; every `datetime` is the naive wall-clock value.
 */
module Calendar {
  import opened Common
  import opened Chrono

  /** A JSON member of an extracted event: missing, null or a string. */
  datatype Field = Absent | Null | Text(s: string)

  /** `bool(event.get(k))` */
  predicate Truthy(f: Field)
  {
    f.Text? && |f.s| > 0
  }

  /** `(event.get(k) or "")` */
  function OrEmpty(f: Field): string
  {
    if f.Text? then f.s else ""
  }

  /** `event.get(k)` as an optional string. */
  function Optional(f: Field): Option<string>
  {
    if f.Text? then Some(f.s) else None
  }

  /** `event.get(k, default)` */
  function GetOr(f: Field, default: string): Option<string>
  {
    match f
    case Absent => Some(default)
    case Null => None
    case Text(s) => Some(s)
  }

  /** The `duration` member: missing, null or a number of minutes. */
  datatype Duration = NoDuration | NullDuration | Minutes(n: int)

  datatype RawEvent = RawEvent(
    title: Field, description: Field, location: Field,
    date: Field, time: Field, kind: Field, duration: Duration)

  datatype ProcessedEvent = ProcessedEvent(
    title: string, description: string, location: string,
    start: Option<DateTime>, end: Option<DateTime>,
    durationMinutes: Option<int>, eventType: Option<string>,
    rawDate: Option<string>, rawTime: Option<string>)

  // -----------------------------------------------------------------------
  // Dates
  // -----------------------------------------------------------------------

  /** The keywords of the date chain, in the order they are checked. */
  const DateWords: seq<string> := [
    "today", "tomorrow", "next week", "next month",
    "monday", "tuesday", "wednesday", "thursday", "friday", "saturday", "sunday"]

  /** Day offsets of the four relative keywords. */
  const RelativeDays: seq<nat> := [0, 1, 7, 30]

  /** The weekday j days after a day of weekday w. */
  function WeekdayPlus(w: int, j: int): int
  {
    (w + j) % 7
  }

  /** Days from a day with weekday `w` to the next strictly later day with
      weekday `k` (`days_ahead`, with 7 added when it is not positive). */
  function DaysAhead(w: int, k: int): (r: int)
    requires 0 <= w < 7 && 0 <= k < 7
    ensures 1 <= r <= 7
    ensures WeekdayPlus(w, r) == k
    ensures forall j :: 1 <= j < r ==> WeekdayPlus(w, j) != k
  {
    var d := k - w;
    if d <= 0 then d + 7 else d
  }

  /** `date.replace(year=y)`: None stands for the ValueError on 29 February
      of a common year. */
  function WithYear(d: Date, y: int): (r: Option<Date>)
    requires ValidDate(d) && 1 <= y <= MaxYear
    ensures r.Some? <==> !(d.month == 2 && d.day == 29 && !IsLeap(y))
    ensures r.Some? ==> ValidDate(r.value) && r.value == Date(y, d.month, d.day)
  {
    var e := Date(y, d.month, d.day);
    if WellFormed(e) then Some(e) else None
  }

  /** The date part of `_parse_event_datetime`; None stands for an exception
      (a malformed ISO date, a moved 29 February, an overflow). */
  function TargetDate(dateStr: Option<string>, today: Date): (r: Option<Date>)
    requires ValidDate(today)
    ensures r.Some? ==> ValidDate(r.value)
    ensures dateStr.None? || |dateStr.value| == 0 ==> r == Some(today)
  {
    if dateStr.None? || |dateStr.value| == 0 then Some(today)
    else
      var s := dateStr.value;
      match FirstContained(DateWords, Lower(Strip(s)))
      case Some(i) =>
        if i < 4 then ShiftDays(today, RelativeDays[i])
        else ShiftDays(today, DaysAhead(Weekday(today), i - 4))
      case None =>
        if !DatePrefix(s) then Some(today)
        else match DateFields(s)
          case None => None
          case Some(p) => if p.year < today.year then WithYear(p, today.year) else Some(p)
  }

  /** "today", "tomorrow", "next week" and "next month" move today by 0, 1, 7
      and 30 days; the first of the chain's keywords present decides. */
  lemma RelativeDate(s: string, today: Date, i: nat)
    requires ValidDate(today) && i < 4
    requires Contains(Lower(Strip(s)), DateWords[i])
    requires forall j :: 0 <= j < i ==> !Contains(Lower(Strip(s)), DateWords[j])
    ensures TargetDate(Some(s), today) == ShiftDays(today, RelativeDays[i])
    ensures today.year < MaxYear ==> TargetDate(Some(s), today).Some?
  {
    var l := Lower(Strip(s));
    var k := FirstContained(DateWords, l);
    assert k == Some(i);
    if today.year < MaxYear {
      var n := RelativeDays[i];
      assert n <= 30;
      DaysAddedStayNear(today, n);
    }
  }

  /** Moving at most 31 days from a date before the last year stays in range. */
  lemma {:induction false} DaysAddedStayNear(d: Date, n: nat)
    requires WellFormed(d) && n <= 31
    ensures AddDays(d, n).year <= d.year + 1
    decreases n
  {
    if n > 0 {
      var e := NextDay(d);
      assert AddDays(d, n) == AddDays(e, n - 1);
      if e.year == d.year {
        DaysAddedStayNear(e, n - 1);
      } else {
        JanuaryStays(e, n - 1);
      }
    }
  }

  lemma {:induction false} JanuaryStays(d: Date, n: nat)
    requires WellFormed(d) && d.month == 1 && d.day + n <= 31
    ensures AddDays(d, n).year == d.year
    decreases n
  {
    if n > 0 {
      JanuaryStays(NextDay(d), n - 1);
    }
  }

  /** Shifting today by `DaysAhead` lands on weekday k, one to seven days
      later, with no day of weekday k in between. */
  lemma WeekdayShift(today: Date, k: nat)
    requires ValidDate(today) && k < 7
    ensures var r := ShiftDays(today, DaysAhead(Weekday(today), k));
      r.Some? ==>
        (Weekday(r.value) == k
        && 1 <= Ordinal(r.value) - Ordinal(today) <= 7
        && forall j :: 1 <= j < Ordinal(r.value) - Ordinal(today) ==> WeekdayPlus(Weekday(today), j) != k)
    ensures today.year < MaxYear ==> ShiftDays(today, DaysAhead(Weekday(today), k)).Some?
  {
    var w := Weekday(today);
    var n := DaysAhead(w, k);
    var e := AddDays(today, n);
    AddDaysOrdinal(today, n);
    WeekdayAfter(today, n);
    assert Weekday(e) == WeekdayPlus(w, n) == k;
    DaysAddedStayNear(today, n);
    var r := ShiftDays(today, n);
    if r.Some? {
      assert r.value == e;
      assert Ordinal(r.value) - Ordinal(today) == n;
    }
  }

  /** A weekday name gives the next strictly later day with that weekday. */
  lemma NextWeekdayDate(s: string, today: Date, k: nat)
    requires ValidDate(today) && k < 7
    requires Contains(Lower(Strip(s)), DateWords[4 + k])
    requires forall j :: 0 <= j < 4 + k ==> !Contains(Lower(Strip(s)), DateWords[j])
    ensures TargetDate(Some(s), today) == ShiftDays(today, DaysAhead(Weekday(today), k))
  {
    var l := Lower(Strip(s));
    assert FirstContained(DateWords, l) == Some(4 + k);
  }

  /** An ISO date without any keyword keeps its month and day and is moved
      forward to the current year when it lies in an earlier one. */
  lemma IsoDate(s: string, today: Date)
    requires ValidDate(today) && DatePrefix(s)
    requires forall j :: 0 <= j < |DateWords| ==> !Contains(Lower(Strip(s)), DateWords[j])
    ensures var r := TargetDate(Some(s), today);
      match DateFields(s)
      case None => r.None?
      case Some(p) =>
        (r.Some? ==>
          (r.value.month == p.month && r.value.day == p.day
          && r.value.year == (if p.year < today.year then today.year else p.year)))
        && (r.None? <==> p.year < today.year && p.month == 2 && p.day == 29 && !IsLeap(today.year))
  {
    assert |s| > 0;
    assert FirstContained(DateWords, Lower(Strip(s))).None?;
    var r := TargetDate(Some(s), today);
    match DateFields(s)
    case None =>
    case Some(p) =>
      assert r == (if p.year < today.year then WithYear(p, today.year) else Some(p));
  }

  // -----------------------------------------------------------------------
  // Clock times
  // -----------------------------------------------------------------------

  datatype Meridiem = NoMeridiem | Am | Pm

  /** The groups of `(\d{1,2}):?(\d{0,2})\s*(am|pm)?` (minute 0 when the
      second group is empty). */
  datatype ClockMatch = ClockMatch(hour: nat, minute: nat, meridiem: Meridiem)

  /** Descriptive words and the `target_time` each sets. */
  const Descriptive: seq<string> := ["morning", "afternoon", "evening", "night"]

  /** The index of the first digit at or after `from`: where `re.search`
      finds the pattern, since it must start with a digit. */
  function FirstDigit(s: string, from: nat): (r: Option<nat>)
    ensures r.Some? ==> from <= r.value < |s| && IsDigit(s[r.value])
    ensures r.Some? ==> forall j :: from <= j < r.value ==> !IsDigit(s[j])
    ensures r.None? ==> forall j :: from <= j < |s| ==> !IsDigit(s[j])
    decreases |s| - from
  {
    if from >= |s| then None
    else if IsDigit(s[from]) then Some(from)
    else FirstDigit(s, from + 1)
  }

  /** Greedy `\d{0,max}` at index i: the length of the run taken. */
  function DigitRun(s: string, i: nat, max: nat): (r: nat)
    requires i <= |s|
    ensures r <= max && i + r <= |s|
    ensures forall j :: i <= j < i + r ==> IsDigit(s[j])
    ensures r < max && i + r < |s| ==> !IsDigit(s[i + r])
    decreases max
  {
    if max == 0 || i == |s| || !IsDigit(s[i]) then 0 else 1 + DigitRun(s, i + 1, max - 1)
  }

  /** Greedy `\s*` at index i: the index after the run. */
  function SkipSpace(s: string, i: nat): (r: nat)
    requires i <= |s|
    ensures i <= r <= |s|
    ensures forall j :: i <= j < r ==> IsSpace(s[j])
    ensures r < |s| ==> !IsSpace(s[r])
    decreases |s| - i
  {
    if i < |s| && IsSpace(s[i]) then SkipSpace(s, i + 1) else i
  }

  /** The match of the clock pattern starting at the digit at index i. */
  function MatchClockAt(s: string, i: nat): (r: ClockMatch)
    requires i < |s| && IsDigit(s[i])
    ensures r.hour < 100 && r.minute < 100
  {
    var n1 := DigitRun(s, i, 2);
    var c := i + n1;
    var m0 := if c < |s| && s[c] == ':' then c + 1 else c;
    var n2 := DigitRun(s, m0, 2);
    var w := SkipSpace(s, m0 + n2);
    var mer :=
      if w + 2 <= |s| && s[w..w + 2] == "am" then Am
      else if w + 2 <= |s| && s[w..w + 2] == "pm" then Pm
      else NoMeridiem;
    TwoDigitsBound(s[i..c]);
    TwoDigitsBound(s[m0..m0 + n2]);
    ClockMatch(ParseDigits(s[i..c]), ParseDigits(s[m0..m0 + n2]), mer)
  }

  lemma TwoDigitsBound(s: string)
    requires |s| <= 2 && AllDigits(s)
    ensures ParseDigits(s) < 100
  {
    if |s| == 2 {
      assert s[..1][..0] == "";
    } else if |s| == 1 {
      assert s[..0] == "";
    }
  }

  /** The 12-hour to 24-hour step: "pm" adds 12 except to 12, "12 am" is 0. */
  function To24(h: nat, m: Meridiem): (r: nat)
    ensures 1 <= h <= 12 && m == Am ==> r == h % 12
    ensures 1 <= h <= 12 && m == Pm ==> r == h % 12 + 12
    ensures m == NoMeridiem ==> r == h
    ensures 1 <= h <= 12 && m != NoMeridiem ==> r < 24
  {
    if m == Pm && h != 12 then h + 12
    else if m == Am && h == 12 then 0
    else h
  }

  /** The time part of `_parse_event_datetime` applied to the target day (at
      midnight): None stands for the ValueError of an hour or minute out of
      range. */
  function ApplyTime(d: Date, timeStr: Option<string>): (r: Option<DateTime>)
    requires ValidDate(d)
    ensures r.Some? ==> ValidDateTime(r.value) && r.value.date == d && r.value.second == 0
    ensures timeStr.None? || |timeStr.value| == 0 ==> r == Some(Midnight(d))
  {
    if timeStr.None? || |timeStr.value| == 0 then Some(Midnight(d))
    else
      var t := Lower(Strip(timeStr.value));
      if FirstContained(Descriptive, t).Some? then Some(Midnight(d))
      else match FirstDigit(t, 0)
        case Some(i) =>
          var m := MatchClockAt(t, i);
          var h := To24(m.hour, m.meridiem);
          if h < 24 && m.minute < 60 then Some(DateTime(d, h, m.minute, 0)) else None
        case None => Some(DateTime(d, 10, 0, 0))
  }

  /** "morning", "afternoon", "evening" and "night" set only the unused
      `target_time`: the returned time stays at midnight. */
  lemma DescriptiveKeepsMidnight(d: Date, t: string, k: nat)
    requires ValidDate(d) && k < |Descriptive|
    requires Contains(Lower(Strip(t)), Descriptive[k])
    ensures ApplyTime(d, Some(t)) == Some(Midnight(d))
  {
    var l := Lower(Strip(t));
    assert FirstContained(Descriptive, l).Some?;
  }

  /** A time text with no descriptive word and no digit defaults to 10:00. */
  lemma NoClockDefaultsToTen(d: Date, t: string)
    requires ValidDate(d) && |t| > 0
    requires forall k :: 0 <= k < |Descriptive| ==> !Contains(Lower(Strip(t)), Descriptive[k])
    requires forall j :: 0 <= j < |Lower(Strip(t))| ==> !IsDigit(Lower(Strip(t))[j])
    ensures ApplyTime(d, Some(t)) == Some(DateTime(d, 10, 0, 0))
  {
    assert FirstContained(Descriptive, Lower(Strip(t))).None?;
    assert FirstDigit(Lower(Strip(t)), 0).None?;
  }

  /** A matched clock time sets hour and minute after the 12/24-hour step,
      and an hour or minute out of range makes the whole parse fail. */
  lemma ClockTime(d: Date, t: string, i: nat)
    requires ValidDate(d) && |t| > 0
    requires forall k :: 0 <= k < |Descriptive| ==> !Contains(Lower(Strip(t)), Descriptive[k])
    requires FirstDigit(Lower(Strip(t)), 0) == Some(i)
    ensures var m := MatchClockAt(Lower(Strip(t)), i);
      var h := To24(m.hour, m.meridiem);
      ApplyTime(d, Some(t)) == (if h < 24 && m.minute < 60 then Some(DateTime(d, h, m.minute, 0)) else None)
  {
    assert FirstContained(Descriptive, Lower(Strip(t))).None?;
  }

  /** `_parse_event_datetime(date_str, time_str)` with today's date given. */
  function ParseEventDateTime(dateStr: Option<string>, timeStr: Option<string>, today: Date): (r: Option<DateTime>)
    requires ValidDate(today)
    ensures r.Some? ==> ValidDateTime(r.value) && r.value.second == 0
    ensures r.Some? ==> TargetDate(dateStr, today) == Some(r.value.date)
  {
    match TargetDate(dateStr, today)
    case None => None
    case Some(d) => ApplyTime(d, timeStr)
  }

  // -----------------------------------------------------------------------
  // Processing an extracted event
  // -----------------------------------------------------------------------

  /** An event needs a title and a date or a time. */
  predicate Accepted(ev: RawEvent)
  {
    Truthy(ev.title) && (Truthy(ev.date) || Truthy(ev.time))
  }

  /** `event.get("duration", 60)` */
  function DurationValue(d: Duration): Option<int>
  {
    match d
    case NoDuration => Some(60)
    case NullDuration => None
    case Minutes(n) => Some(n)
  }

  /** The minutes between start and end: the duration when it is positive,
      otherwise one hour. */
  function EndOffset(d: Option<int>): (r: nat)
    ensures r > 0
    ensures d.Some? && d.value > 0 ==> r == d.value
  {
    if d.Some? && d.value > 0 then d.value else 60
  }

  /** `_process_extracted_event`; None is a rejected event or an exception. */
  function ProcessEvent(ev: RawEvent, today: Date): (r: Option<ProcessedEvent>)
    requires ValidDate(today)
    ensures !Accepted(ev) ==> r.None?
    ensures r.Some? ==>
      (r.value.title == Strip(OrEmpty(ev.title))
      && r.value.description == Strip(OrEmpty(ev.description))
      && r.value.location == Strip(OrEmpty(ev.location)))
    ensures r.Some? ==>
      (r.value.durationMinutes == DurationValue(ev.duration)
      && r.value.eventType == GetOr(ev.kind, "event")
      && r.value.rawDate == GetOr(ev.date, "") && r.value.rawTime == GetOr(ev.time, ""))
    ensures r.Some? ==> r.value.start == ParseEventDateTime(Optional(ev.date), Optional(ev.time), today)
    ensures r.Some? ==> (r.value.start.None? <==> r.value.end.None?)
    ensures r.Some? && r.value.start.Some? ==>
      ValidDateTime(r.value.end.value)
      && TotalMinutes(r.value.end.value) == TotalMinutes(r.value.start.value) + EndOffset(r.value.durationMinutes)
    ensures Accepted(ev) && r.None? ==> ParseEventDateTime(Optional(ev.date), Optional(ev.time), today).Some?
  {
    if !Accepted(ev) then None
    else
      var start := ParseEventDateTime(Optional(ev.date), Optional(ev.time), today);
      var duration := DurationValue(ev.duration);
      var base := ProcessedEvent(
        Strip(OrEmpty(ev.title)), Strip(OrEmpty(ev.description)), Strip(OrEmpty(ev.location)),
        start, None, duration, GetOr(ev.kind, "event"), GetOr(ev.date, ""), GetOr(ev.time, ""));
      match start
      case None => Some(base)
      case Some(t) =>
        match ShiftMinutes(t, EndOffset(duration))
        case None => None
        case Some(e) => Some(base.(end := Some(e)))
  }

  // -----------------------------------------------------------------------
  // Creating the calendar entry
  // -----------------------------------------------------------------------

  /** `_parse_event_time`: an ISO date-time (a `Z` read as `+00:00`) or a
      bare ISO date; anything else, or an exception, is None. */
  function ParseEventTime(s: Option<string>): (r: Option<DateTime>)
    ensures r.Some? ==> ValidDateTime(r.value)
    ensures s.None? || |s.value| == 0 || !DatePrefix(s.value) ==> r.None?
  {
    if s.None? || |s.value| == 0 then None
    else if DateTimePrefix(s.value) then FromIsoFormat(ExpandZulu(s.value))
    else if DatePrefix(s.value) && |s.value| == 10 then
      match DateFields(s.value)
      case None => None
      case Some(d) => Some(Midnight(d))
    else None
  }

  lemma NoZuluInDigits(s: string)
    requires AllDigits(s)
    ensures 'Z' !in s
  {
    assert forall i :: 0 <= i < |s| ==> s[i] != 'Z';
  }

  lemma NoZuluInFormat(t: DateTime, offset: string)
    requires ValidDateTime(t) && OffsetOk(offset)
    ensures 'Z' !in FormatDateTime(t) + offset
  {
    NoZuluInDigits(ZeroPad(t.date.year, 4));
    NoZuluInDigits(ZeroPad(t.date.month, 2));
    NoZuluInDigits(ZeroPad(t.date.day, 2));
    NoZuluInDigits(ZeroPad(t.hour, 2));
    NoZuluInDigits(ZeroPad(t.minute, 2));
    NoZuluInDigits(ZeroPad(t.second, 2));
    if |offset| > 0 {
      assert offset == [offset[0]] + offset[1..3] + [offset[3]] + offset[4..6];
      NoZuluInDigits(offset[1..3]);
      NoZuluInDigits(offset[4..6]);
    }
  }

  /** What `isoformat()` wrote, with or without a UTC offset, reads back. */
  lemma ParseEventTimeRoundTrip(t: DateTime, offset: string)
    requires ValidDateTime(t) && OffsetOk(offset)
    ensures ParseEventTime(Some(FormatDateTime(t) + offset)) == Some(t)
  {
    var s := FormatDateTime(t) + offset;
    NoZuluInFormat(t, offset);
    ExpandZuluAbsent(s);
    DateTimeRoundTrip(t, offset);
  }

  /** A bare ISO date reads back as midnight of that day. */
  lemma ParseEventDateRoundTrip(d: Date)
    requires ValidDate(d)
    ensures ParseEventTime(Some(FormatDate(d))) == Some(Midnight(d))
  {
    FormatDateReadsBack(d);
    FormatDateParts(d);
  }

  /** The processed event's strings as `_create_calendar_event` reads them. */
  datatype EventData = EventData(
    title: string, description: string, location: string,
    startTime: Option<string>, endTime: Option<string>)

  /** The Google Calendar client: absent, failing on insert, or returning the
      new event's id. */
  datatype CalendarService = NoService | InsertFails | Inserted(eventId: string)

  datatype CalendarEvent = CalendarEvent(
    id: string, title: string, description: string,
    start: Option<DateTime>, end: Option<DateTime>, location: string,
    apiCreated: bool)

  const SimulatedNote: string := "\n\nCreated from LifeOS video analysis"

  /** `_create_calendar_event`; `simulatedId` is the time-stamped id of the
      simulated entry. None stands for the OverflowError of the default end. */
  function CreateCalendarEvent(e: EventData, service: CalendarService, simulatedId: string): (r: Option<CalendarEvent>)
    ensures r.Some? ==> r.value.start == ParseEventTime(e.startTime)
    ensures r.Some? && ParseEventTime(e.endTime).Some? ==> r.value.end == ParseEventTime(e.endTime)
    ensures r.Some? && r.value.start.Some? ==> r.value.end.Some?
    ensures r.Some? && ParseEventTime(e.startTime).Some? && ParseEventTime(e.endTime).None? ==>
      r.value.end.Some? && ValidDateTime(r.value.end.value)
      && TotalMinutes(r.value.end.value) == TotalMinutes(ParseEventTime(e.startTime).value) + 60
    ensures r.Some? ==> (r.value.apiCreated <==> service.Inserted? && r.value.start.Some?)
    ensures r.Some? && r.value.apiCreated ==> r.value.id == service.eventId && r.value.description == e.description
    ensures r.Some? && !r.value.apiCreated ==> r.value.id == simulatedId && r.value.description == e.description + SimulatedNote
    ensures r.None? ==> ParseEventTime(e.startTime).Some? && ParseEventTime(e.endTime).None?
  {
    var start := ParseEventTime(e.startTime);
    var given := ParseEventTime(e.endTime);
    var end: Option<Option<DateTime>> :=
      if start.Some? && given.None? then
        match ShiftMinutes(start.value, 60)
        case None => None
        case Some(x) => Some(Some(x))
      else Some(given);
    match end
    case None => None
    case Some(stop) =>
      if service.Inserted? && start.Some? then
        Some(CalendarEvent(service.eventId, e.title, e.description, start, stop, e.location, true))
      else
        Some(CalendarEvent(simulatedId, e.title, e.description + SimulatedNote, start, stop, e.location, false))
  }

  /** The strings `_process_extracted_event` stores: `isoformat()` of the
      start and end, carrying the zone offset when the value is aware. */
  function Rendered(p: ProcessedEvent, offset: string): EventData
    requires p.start.Some? ==> ValidDateTime(p.start.value)
    requires p.end.Some? ==> ValidDateTime(p.end.value)
  {
    EventData(p.title, p.description, p.location,
      if p.start.Some? then Some(FormatDateTime(p.start.value) + offset) else None,
      if p.end.Some? then Some(FormatDateTime(p.end.value) + offset) else None)
  }

  /** End to end: the calendar entry made from a processed event carries
      exactly the processed start and end times. */
  lemma ProcessedEventCreates(ev: RawEvent, today: Date, offset: string, service: CalendarService, id: string)
    requires ValidDate(today) && OffsetOk(offset)
    requires ProcessEvent(ev, today).Some?
    ensures var p := ProcessEvent(ev, today).value;
      var c := CreateCalendarEvent(Rendered(p, offset), service, id);
      c.Some? && c.value.start == p.start && c.value.end == p.end && c.value.title == p.title
  {
    var p := ProcessEvent(ev, today).value;
    RenderedCreates(p, offset, service, id);
  }

  /** Creating an entry from the rendered strings of an event whose start
      and end are both present and valid, or both absent, gives back the
      same start and end. */
  lemma RenderedCreates(p: ProcessedEvent, offset: string, service: CalendarService, id: string)
    requires OffsetOk(offset)
    requires p.start.Some? <==> p.end.Some?
    requires p.start.Some? ==> ValidDateTime(p.start.value) && ValidDateTime(p.end.value)
    ensures var c := CreateCalendarEvent(Rendered(p, offset), service, id);
      c.Some? && c.value.start == p.start && c.value.end == p.end && c.value.title == p.title
  {
    if p.start.Some? {
      ParseEventTimeRoundTrip(p.start.value, offset);
      ParseEventTimeRoundTrip(p.end.value, offset);
    }
  }
}

=== FILE: chrono.dfy ===
/**
 * Proleptic Gregorian dates and naive date-times as Python's `datetime`
 * module handles them: the ordinal day count of `date.toordinal()`,
 * `weekday()` (Monday is 0), `timedelta` additions, the year range 1..9999,
 * and the `isoformat()` / `fromisoformat()` text forms the server writes and
 * reads back. Time zones are not modelled: an offset suffix is accepted and
 * dropped, as `.date()` of an aware value keeps its local calendar fields.
 */
module Chrono {
  import opened Common

  datatype Date = Date(year: int, month: int, day: int)

  datatype DateTime = DateTime(date: Date, hour: int, minute: int, second: int)

  /** `datetime.MAXYEAR`; going past it raises OverflowError in Python. */
  const MaxYear: int := 9999

  predicate IsLeap(y: int)
  {
    y % 4 == 0 && (y % 100 != 0 || y % 400 == 0)
  }

  function DaysInMonth(y: int, m: int): int
    requires 1 <= m <= 12
  {
    if m == 2 then (if IsLeap(y) then 29 else 28)
    else if m == 4 || m == 6 || m == 9 || m == 11 then 30
    else 31
  }

  function DaysInYear(y: int): int
  {
    if IsLeap(y) then 366 else 365
  }

  /** A calendar date, with no upper bound on the year. */
  predicate WellFormed(d: Date)
  {
    d.year >= 1 && 1 <= d.month <= 12 && 1 <= d.day <= DaysInMonth(d.year, d.month)
  }

  /** A date Python's `datetime.date` can represent. */
  predicate ValidDate(d: Date)
  {
    WellFormed(d) && d.year <= MaxYear
  }

  predicate ValidClock(h: int, m: int, s: int)
  {
    0 <= h < 24 && 0 <= m < 60 && 0 <= s < 60
  }

  predicate ValidDateTime(t: DateTime)
  {
    ValidDate(t.date) && ValidClock(t.hour, t.minute, t.second)
  }

  function Midnight(d: Date): DateTime
  {
    DateTime(d, 0, 0, 0)
  }

  function DaysBeforeYear(y: int): int
  {
    var p := y - 1;
    365 * p + p / 4 - p / 100 + p / 400
  }

  function DaysBeforeMonth(y: int, m: int): int
    requires 1 <= m <= 13
    decreases m
  {
    if m == 1 then 0 else DaysBeforeMonth(y, m - 1) + DaysInMonth(y, m - 1)
  }

  /** `date.toordinal()`: 0001-01-01 is day 1. */
  function Ordinal(d: Date): int
    requires 1 <= d.month <= 12
  {
    DaysBeforeYear(d.year) + DaysBeforeMonth(d.year, d.month) + d.day
  }

  /** `date.weekday()`: Monday is 0 and Sunday is 6. */
  function Weekday(d: Date): int
    requires 1 <= d.month <= 12
  {
    (Ordinal(d) + 6) % 7
  }

  lemma YearStep(y: int)
    requires y >= 1
    ensures DaysBeforeYear(y + 1) == DaysBeforeYear(y) + DaysInYear(y)
  {
    DivStep(y, 4);
    DivStep(y, 100);
    DivStep(y, 400);
    MultipleOfMultiple(y, 4, 25);
    MultipleOfMultiple(y, 100, 4);
  }

  /** Stepping from y - 1 to y adds one to y / k exactly when k divides y. */
  lemma DivStep(y: int, k: int)
    requires k > 0
    ensures y / k - (y - 1) / k == (if y % k == 0 then 1 else 0)
  {
    var q := y / k;
    var r := y % k;
    if r == 0 {
      DivUnique(y - 1, k, q - 1, k - 1);
    } else {
      DivUnique(y - 1, k, q, r - 1);
    }
  }

  lemma DivUnique(x: int, k: int, q: int, r: int)
    requires k > 0 && 0 <= r < k && x == k * q + r
    ensures x / k == q && x % k == r
  {
    var q' := x / k;
    var r' := x % k;
    assert k * (q - q') == k * q - k * q';
    MulInsideBand(k, q - q', r' - r);
  }

  /** The only multiple of k strictly between -k and k is 0. */
  lemma MulInsideBand(k: int, d: int, e: int)
    requires k > 0 && k * d == e && -k < e < k
    ensures d == 0
  {
    if d >= 1 {
      MulAtLeast(k, d);
    } else if d <= -1 {
      MulAtLeast(k, -d);
    }
  }

  lemma {:induction false} MulAtLeast(k: int, a: int)
    requires k > 0 && a >= 1
    ensures k * a >= k
    decreases a
  {
    if a > 1 {
      MulAtLeast(k, a - 1);
      assert k * a == k * (a - 1) + k;
    }
  }

  /** A multiple of k * m is a multiple of k. */
  lemma MultipleOfMultiple(y: int, k: int, m: int)
    requires k > 0 && m > 0
    ensures y % (k * m) == 0 ==> y % k == 0
  {
    if y % (k * m) == 0 {
      var q := y / (k * m);
      assert y == (k * m) * q;
      assert y == k * (m * q) + 0;
      DivUnique(y, k, m * q, 0);
    }
  }

  lemma MonthsFillYear(y: int)
    ensures DaysBeforeMonth(y, 13) == DaysInYear(y)
  {
    var l := if IsLeap(y) then 1 else 0;
    assert DaysBeforeMonth(y, 2) == 31;
    assert DaysBeforeMonth(y, 3) == 59 + l;
    assert DaysBeforeMonth(y, 4) == 90 + l;
    assert DaysBeforeMonth(y, 5) == 120 + l;
    assert DaysBeforeMonth(y, 6) == 151 + l;
    assert DaysBeforeMonth(y, 7) == 181 + l;
    assert DaysBeforeMonth(y, 8) == 212 + l;
    assert DaysBeforeMonth(y, 9) == 243 + l;
    assert DaysBeforeMonth(y, 10) == 273 + l;
    assert DaysBeforeMonth(y, 11) == 304 + l;
    assert DaysBeforeMonth(y, 12) == 334 + l;
  }

  /** The day after `d` (a `timedelta(days=1)` step). */
  function NextDay(d: Date): (r: Date)
    requires WellFormed(d)
    ensures WellFormed(r)
    ensures r.year == d.year || r.year == d.year + 1
    ensures r.year != d.year ==> r.month == 1 && r.day == 1
  {
    if d.day < DaysInMonth(d.year, d.month) then Date(d.year, d.month, d.day + 1)
    else if d.month < 12 then Date(d.year, d.month + 1, 1)
    else Date(d.year + 1, 1, 1)
  }

  /** The day after is the next ordinal day, across month and year ends. */
  lemma NextDayOrdinal(d: Date)
    requires WellFormed(d)
    ensures Ordinal(NextDay(d)) == Ordinal(d) + 1
  {
    if d.day == DaysInMonth(d.year, d.month) && d.month == 12 {
      YearStep(d.year);
      MonthsFillYear(d.year);
    }
  }

  /** `d + timedelta(days=n)` for n >= 0, without the year bound (the caller
      checks `ValidDate` to model Python's OverflowError). */
  function AddDays(d: Date, n: nat): (r: Date)
    requires WellFormed(d)
    ensures WellFormed(r)
    ensures d.year <= r.year
    decreases n
  {
    if n == 0 then d else AddDays(NextDay(d), n - 1)
  }

  /** Adding n days lands exactly n ordinal days later. */
  lemma {:induction false} AddDaysOrdinal(d: Date, n: nat)
    requires WellFormed(d)
    ensures Ordinal(AddDays(d, n)) == Ordinal(d) + n
    decreases n
  {
    if n > 0 {
      NextDayOrdinal(d);
      AddDaysOrdinal(NextDay(d), n - 1);
    }
  }

  /** Minutes since the start of the ordinal calendar. */
  function TotalMinutes(t: DateTime): int
    requires 1 <= t.date.month <= 12
  {
    Ordinal(t.date) * 1440 + t.hour * 60 + t.minute
  }

  /** `t + timedelta(minutes=n)` for n >= 0 (year bound left to the caller). */
  function AddMinutes(t: DateTime, n: nat): (r: DateTime)
    requires WellFormed(t.date) && 0 <= t.hour < 24 && 0 <= t.minute < 60
    ensures WellFormed(r.date) && 0 <= r.hour < 24 && 0 <= r.minute < 60
    ensures r.second == t.second
    ensures TotalMinutes(r) == TotalMinutes(t) + n
    ensures t.date.year <= r.date.year
  {
    var total := t.hour * 60 + t.minute + n;
    MinuteSplit(total);
    AddDaysOrdinal(t.date, total / 1440);
    DateTime(AddDays(t.date, total / 1440), total % 1440 / 60, total % 60, t.second)
  }

  /** A minute count splits into whole days, the hour of the last day and
      the minute of that hour. */
  lemma MinuteSplit(total: nat)
    ensures total == total / 1440 * 1440 + total % 1440 / 60 * 60 + total % 60
    ensures 0 <= total % 1440 / 60 < 24
  {
    var d := total / 1440;
    var rest := total % 1440;
    var h := rest / 60;
    var m := rest % 60;
    assert total == d * 1440 + rest;
    assert rest == h * 60 + m;
    assert total == (d * 24 + h) * 60 + m;
    assert total % 60 == m;
  }

  /** `d + timedelta(days=n)`: None stands for the OverflowError past year 9999. */
  function ShiftDays(d: Date, n: nat): (r: Option<Date>)
    requires ValidDate(d)
    ensures r.Some? ==> ValidDate(r.value) && Ordinal(r.value) == Ordinal(d) + n
    ensures r.None? ==> AddDays(d, n).year > MaxYear
  {
    var e := AddDays(d, n);
    AddDaysOrdinal(d, n);
    if e.year <= MaxYear then Some(e) else None
  }

  /** `t + timedelta(minutes=n)`: None stands for the OverflowError past year 9999. */
  function ShiftMinutes(t: DateTime, n: nat): (r: Option<DateTime>)
    requires ValidDateTime(t)
    ensures r.Some? ==> ValidDateTime(r.value) && TotalMinutes(r.value) == TotalMinutes(t) + n
    ensures r.Some? ==> r.value.second == t.second
    ensures r.None? ==> AddMinutes(t, n).date.year > MaxYear
  {
    var e := AddMinutes(t, n);
    if e.date.year <= MaxYear then Some(e) else None
  }

  lemma {:induction false} ModSevenShift(a: int, n: nat)
    ensures (a + n) % 7 == (a % 7 + n) % 7
    decreases n
  {
    if n > 0 {
      ModSevenShift(a, n - 1);
    }
  }

  /** The weekday formula moves n steps for an ordinal n days later. */
  lemma WeekdayStep(o: int, o': int, n: nat)
    requires o' == o + n
    ensures (o' + 6) % 7 == ((o + 6) % 7 + n) % 7
  {
    ModSevenShift(o + 6, n);
  }

  /** Moving n days forward moves the weekday n steps round the week. */
  lemma WeekdayAfter(d: Date, n: nat)
    requires WellFormed(d)
    ensures Weekday(AddDays(d, n)) == (Weekday(d) + n) % 7
  {
    AddDaysOrdinal(d, n);
    WeekdayOfLater(d, AddDays(d, n), n);
  }

  /** A day n days after another falls n steps later in the week. */
  lemma WeekdayOfLater(d: Date, e: Date, n: nat)
    requires 1 <= d.month <= 12 && 1 <= e.month <= 12
    requires Ordinal(e) == Ordinal(d) + n
    ensures Weekday(e) == (Weekday(d) + n) % 7
  {
    WeekdayStep(Ordinal(d), Ordinal(e), n);
  }

  // -----------------------------------------------------------------------
  // ISO 8601 text: `isoformat()` and `fromisoformat()`
  // -----------------------------------------------------------------------

  /** `date.isoformat()`: YYYY-MM-DD. */
  function FormatDate(d: Date): string
    requires d.year >= 0 && d.month >= 0 && d.day >= 0
  {
    ZeroPad(d.year, 4) + "-" + ZeroPad(d.month, 2) + "-" + ZeroPad(d.day, 2)
  }

  /** `datetime.isoformat()` of a naive value with no microseconds. */
  function FormatDateTime(t: DateTime): string
    requires t.date.year >= 0 && t.date.month >= 0 && t.date.day >= 0
    requires t.hour >= 0 && t.minute >= 0 && t.second >= 0
  {
    FormatDate(t.date) + "T" + ZeroPad(t.hour, 2) + ":" + ZeroPad(t.minute, 2) + ":" + ZeroPad(t.second, 2)
  }

  /** The regular expression `\d{4}-\d{2}-\d{2}` matched at the start (`re.match`). */
  predicate DatePrefix(s: string)
  {
    |s| >= 10 && AllDigits(s[0..4]) && s[4] == '-' && AllDigits(s[5..7]) && s[7] == '-' && AllDigits(s[8..10])
  }

  /** Two-digit fields `HH:MM:SS` starting at index i. */
  predicate ClockAt(s: string, i: nat)
  {
    i + 8 <= |s| && AllDigits(s[i..i + 2]) && s[i + 2] == ':' && AllDigits(s[i + 3..i + 5])
    && s[i + 5] == ':' && AllDigits(s[i + 6..i + 8])
  }

  /** Two-digit fields `HH:MM` starting at index i, with nothing after them
      but a suffix. */
  predicate MinutesAt(s: string, i: nat)
  {
    i + 5 <= |s| && AllDigits(s[i..i + 2]) && s[i + 2] == ':' && AllDigits(s[i + 3..i + 5])
  }

  /** `\d{4}-\d{2}-\d{2}T\d{2}:\d{2}:\d{2}` matched at the start. */
  predicate DateTimePrefix(s: string)
  {
    DatePrefix(s) && |s| >= 19 && s[10] == 'T' && ClockAt(s, 11)
  }

  /** `datetime.strptime(s[:10], '%Y-%m-%d')`: None stands for the ValueError
      raised on a month, day or year out of range. */
  function DateFields(s: string): Option<Date>
    requires DatePrefix(s)
  {
    var d := Date(ParseDigits(s[0..4]), ParseDigits(s[5..7]), ParseDigits(s[8..10]));
    if ValidDate(d) then Some(d) else None
  }

  /** Removes an optional fraction of 3 or 6 digits after the seconds. */
  function DropFraction(suffix: string): Option<string>
  {
    if |suffix| == 0 || suffix[0] != '.' then Some(suffix)
    else if |suffix| >= 7 && AllDigits(suffix[1..7]) && (|suffix| == 7 || !IsDigit(suffix[7])) then Some(suffix[7..])
    else if |suffix| >= 4 && AllDigits(suffix[1..4]) && (|suffix| == 4 || !IsDigit(suffix[4])) then Some(suffix[4..])
    else None
  }

  /** An empty suffix or a UTC offset `+HH:MM` / `-HH:MM`. */
  predicate OffsetOk(suffix: string)
  {
    |suffix| == 0
    || (|suffix| == 6 && (suffix[0] == '+' || suffix[0] == '-') && AllDigits(suffix[1..3]) && suffix[3] == ':'
        && AllDigits(suffix[4..6]) && ParseDigits(suffix[1..3]) < 24 && ParseDigits(suffix[4..6]) < 60)
  }

  /** `datetime.fromisoformat(s)` on these forms of the Python 3.7 to 3.10
      grammar: `YYYY-MM-DD`, or `YYYY-MM-DD?HH:MM` or `YYYY-MM-DD?HH:MM:SS` with any
      one separator character, after the seconds an optional 3- or 6-digit
      fraction, and an optional `+HH:MM` offset. A time without seconds has
      zero seconds. None stands for the ValueError. */
  function FromIsoFormat(s: string): (r: Option<DateTime>)
    ensures r.Some? ==> ValidDateTime(r.value) && r.value.second < 60
    ensures r.Some? ==> DatePrefix(s) && DateFields(s) == Some(r.value.date)
    ensures r.Some? && |s| > 10 ==>
      MinutesAt(s, 11) && r.value.hour == ParseDigits(s[11..13]) && r.value.minute == ParseDigits(s[14..16])
    ensures DatePrefix(s) && !ClockAt(s, 11) && MinutesAt(s, 11) ==>
      (r.Some? <==> DateFields(s).Some? && ValidClock(ParseDigits(s[11..13]), ParseDigits(s[14..16]), 0) && OffsetOk(s[16..]))
      && (r.Some? ==> r.value.second == 0)
  {
    if !DatePrefix(s) then None
    else if |s| == 10 then
      match DateFields(s)
      case None => None
      case Some(d) => Some(Midnight(d))
    else if ClockAt(s, 11) then
      var h := ParseDigits(s[11..13]);
      var m := ParseDigits(s[14..16]);
      var sec := ParseDigits(s[17..19]);
      match (DateFields(s), DropFraction(s[19..]))
      case (Some(d), Some(rest)) =>
        if ValidClock(h, m, sec) && OffsetOk(rest) then Some(DateTime(d, h, m, sec)) else None
      case _ => None
    else if MinutesAt(s, 11) then
      var h := ParseDigits(s[11..13]);
      var m := ParseDigits(s[14..16]);
      match DateFields(s)
      case Some(d) =>
        if ValidClock(h, m, 0) && OffsetOk(s[16..]) then Some(DateTime(d, h, m, 0)) else None
      case None => None
    else None
  }

  /** Python's `s.replace('Z', '+00:00')`. */
  function ExpandZulu(s: string): (r: string)
    decreases |s|
  {
    if |s| == 0 then ""
    else (if s[0] == 'Z' then "+00:00" else [s[0]]) + ExpandZulu(s[1..])
  }

  lemma {:induction false} ExpandZuluAbsent(s: string)
    requires 'Z' !in s
    ensures ExpandZulu(s) == s
    decreases |s|
  {
    if |s| > 0 {
      ExpandZuluAbsent(s[1..]);
      assert s == [s[0]] + s[1..];
    }
  }

  // -----------------------------------------------------------------------
  // Round trip: what `isoformat()` writes, `fromisoformat()` reads back
  // -----------------------------------------------------------------------

  lemma PadFacts(n: nat, w: nat)
    requires w >= 1 && n < Pow10(w)
    ensures |ZeroPad(n, w)| == w
    ensures AllDigits(ZeroPad(n, w))
    ensures ParseDigits(ZeroPad(n, w)) == n
  {
    ZeroPadLength(n, w);
    ParseZeroPad(n, w);
  }

  lemma {:induction false} FormatDateParts(d: Date)
    requires ValidDate(d)
    ensures var s := FormatDate(d);
      |s| == 10 && s[0..4] == ZeroPad(d.year, 4) && s[4] == '-' && s[5..7] == ZeroPad(d.month, 2)
      && s[7] == '-' && s[8..10] == ZeroPad(d.day, 2)
  {
    assert Pow10(2) == 100;
    assert Pow10(4) == 10000;
    PadFacts(d.year, 4);
    PadFacts(d.month, 2);
    PadFacts(d.day, 2);
    DateLayout(ZeroPad(d.year, 4), ZeroPad(d.month, 2), ZeroPad(d.day, 2));
  }

  /** Where the pieces of `yyyy + '-' + mm + '-' + dd` sit. */
  lemma DateLayout(yyyy: string, mm: string, dd: string)
    requires |yyyy| == 4 && |mm| == 2 && |dd| == 2
    ensures var s := yyyy + "-" + mm + "-" + dd;
      |s| == 10 && s[0..4] == yyyy && s[4] == '-' && s[5..7] == mm && s[7] == '-' && s[8..10] == dd
  {
  }

  lemma FormatDateReadsBack(d: Date)
    requires ValidDate(d)
    ensures DatePrefix(FormatDate(d))
    ensures DateFields(FormatDate(d)) == Some(d)
  {
    assert Pow10(2) == 100;
    assert Pow10(4) == 10000;
    PadFacts(d.year, 4);
    PadFacts(d.month, 2);
    PadFacts(d.day, 2);
    FormatDateParts(d);
  }

  /** `fromisoformat(d.isoformat())` is midnight of `d`. */
  lemma DateRoundTrip(d: Date)
    requires ValidDate(d)
    ensures FromIsoFormat(FormatDate(d)) == Some(Midnight(d))
  {
    FormatDateReadsBack(d);
    FormatDateParts(d);
  }

  lemma {:induction false} FormatDateTimeParts(t: DateTime)
    requires ValidDateTime(t)
    ensures var s := FormatDateTime(t);
      |s| == 19 && s[..10] == FormatDate(t.date) && s[10] == 'T'
      && s[11..13] == ZeroPad(t.hour, 2) && s[13] == ':' && s[14..16] == ZeroPad(t.minute, 2)
      && s[16] == ':' && s[17..19] == ZeroPad(t.second, 2)
  {
    assert Pow10(2) == 100;
    FormatDateParts(t.date);
    PadFacts(t.hour, 2);
    PadFacts(t.minute, 2);
    PadFacts(t.second, 2);
    ClockLayout(FormatDate(t.date), ZeroPad(t.hour, 2), ZeroPad(t.minute, 2), ZeroPad(t.second, 2));
  }

  /** Where the pieces of `date + 'T' + hh + ':' + mm + ':' + ss` sit. */
  lemma ClockLayout(date: string, hh: string, mm: string, ss: string)
    requires |date| == 10 && |hh| == 2 && |mm| == 2 && |ss| == 2
    ensures var s := date + "T" + hh + ":" + mm + ":" + ss;
      |s| == 19 && s[..10] == date && s[10] == 'T' && s[11..13] == hh && s[13] == ':'
      && s[14..16] == mm && s[16] == ':' && s[17..19] == ss
  {
    var s := date + "T" + hh + ":" + mm + ":" + ss;
    assert s == date + ("T" + hh + ":" + mm + ":" + ss);
  }

  /** `fromisoformat(t.isoformat() + offset)` gives `t` back for every valid
      naive date-time and every well-formed offset suffix. */
  lemma {:induction false} DateTimeRoundTrip(t: DateTime, offset: string)
    requires ValidDateTime(t) && OffsetOk(offset) && (|offset| == 0 || offset[0] != '.')
    ensures DateTimePrefix(FormatDateTime(t) + offset)
    ensures FromIsoFormat(FormatDateTime(t) + offset) == Some(t)
  {
    var f := FormatDateTime(t);
    var s := f + offset;
    FormatDateTimeParts(t);
    FormatDateReadsBack(t.date);
    assert Pow10(2) == 100;
    PadFacts(t.hour, 2);
    PadFacts(t.minute, 2);
    PadFacts(t.second, 2);
    assert s[..19] == f;
    assert f[..10][0..4] == s[0..4] && f[..10][5..7] == s[5..7] && f[..10][8..10] == s[8..10];
    assert s[11..13] == f[11..13] && s[14..16] == f[14..16] && s[17..19] == f[17..19];
    assert s[19..] == offset;
    ReadsBackFromFields(s, t);
  }

  /** A string whose date, separator, clock fields and suffix are those of
      `t` reads back as `t`. */
  lemma ReadsBackFromFields(s: string, t: DateTime)
    requires ValidDateTime(t) && DatePrefix(s) && DateFields(s) == Some(t.date)
    requires |s| >= 19 && ClockAt(s, 11) && s[10] == 'T'
    requires ParseDigits(s[11..13]) == t.hour && ParseDigits(s[14..16]) == t.minute && ParseDigits(s[17..19]) == t.second
    requires OffsetOk(s[19..]) && (|s| == 19 || s[19] != '.')
    ensures DateTimePrefix(s)
    ensures FromIsoFormat(s) == Some(t)
  {
    assert DropFraction(s[19..]) == Some(s[19..]);
  }

  /** `fromisoformat` of a date, a separator, two-digit hour and minute and a
      well-formed offset, without seconds, is that time with zero seconds. */
  lemma {:induction false} MinutesRoundTrip(d: Date, h: nat, m: nat, offset: string)
    requires ValidDate(d) && ValidClock(h, m, 0) && OffsetOk(offset)
    ensures FromIsoFormat(FormatDate(d) + "T" + ZeroPad(h, 2) + ":" + ZeroPad(m, 2) + offset) == Some(DateTime(d, h, m, 0))
  {
    var s := FormatDate(d) + "T" + ZeroPad(h, 2) + ":" + ZeroPad(m, 2) + offset;
    FormatDateParts(d);
    FormatDateReadsBack(d);
    assert Pow10(2) == 100;
    PadFacts(h, 2);
    PadFacts(m, 2);
    assert s == FormatDate(d) + ("T" + ZeroPad(h, 2) + ":" + ZeroPad(m, 2) + offset);
    assert s[..10] == FormatDate(d);
    assert s[0..4] == FormatDate(d)[0..4] && s[5..7] == FormatDate(d)[5..7] && s[8..10] == FormatDate(d)[8..10];
    assert s[11..13] == ZeroPad(h, 2) && s[13] == ':' && s[14..16] == ZeroPad(m, 2);
    assert s[16..] == offset;
    assert !ClockAt(s, 11) by {
      if |offset| > 0 {
        assert s[16] == offset[0];
      }
    }
  }

  /** The digit runs of the example date-times below. */
  lemma ExampleDigits()
    ensures ParseDigits("2024") == 2024 && ParseDigits("01") == 1 && ParseDigits("15") == 15
    ensures ParseDigits("10") == 10 && ParseDigits("30") == 30
    ensures OffsetOk("+05:00")
  {
    assert "2024"[..3] == "202" && "202"[..2] == "20" && "20"[..1] == "2";
    assert "01"[..1] == "0" && "15"[..1] == "1" && "10"[..1] == "1" && "30"[..1] == "3";
    assert "+05:00"[1..3] == "05" && "+05:00"[4..6] == "00";
    assert "05"[..1] == "0" && "00"[..1] == "0";
  }

  /** A time given to the minute, as every Python release from 3.7 on
      accepts it. */
  lemma MinutePrecisionAccepted()
    ensures FromIsoFormat("2024-01-15T10:30") == Some(DateTime(Date(2024, 1, 15), 10, 30, 0))
  {
    var s := "2024-01-15T10:30";
    ExampleDigits();
    assert s[0..4] == "2024" && s[5..7] == "01" && s[8..10] == "15";
    assert s[11..13] == "10" && s[14..16] == "30" && s[16..] == "";
    assert DatePrefix(s);
    assert DateFields(s) == Some(Date(2024, 1, 15));
    assert !ClockAt(s, 11);
  }

  /** The same with an offset. */
  lemma MinutePrecisionWithOffset()
    ensures FromIsoFormat("2024-01-15T10:30+05:00") == Some(DateTime(Date(2024, 1, 15), 10, 30, 0))
  {
    var t := "2024-01-15T10:30+05:00";
    ExampleDigits();
    assert t[0..4] == "2024";
    assert t[5..7] == [t[5], t[6]] == "01";
    assert t[8..10] == [t[8], t[9]] == "15";
    assert t[11..13] == "10" && t[14..16] == "30" && t[16..] == "+05:00";
    assert DatePrefix(t);
    assert DateFields(t) == Some(Date(2024, 1, 15));
    assert !ClockAt(t, 11);
  }

  /** A five-digit fraction, which only Python 3.11 and later accept, is
      outside the modelled grammar. */
  lemma FiveDigitFractionRejected()
    ensures FromIsoFormat("2024-01-15T10:30:00.12345+00:00").None?
  {
  }

  /** What `isoformat()` writes for a valid date-time reads back as it. */
  lemma IsoFormatReadsBack(t: DateTime)
    requires ValidDateTime(t)
    ensures FromIsoFormat(FormatDateTime(t)) == Some(t)
  {
    DateTimeRoundTrip(t, "");
    assert FormatDateTime(t) + "" == FormatDateTime(t);
  }
}

=== FILE: cli_main.dfy ===
/**
 * The command-line entry point (server/main.py, `main`).
 *
 * The mode is read from the command line; help is answered before any
 * check; Redis is required by the four running modes and an API key by the
 * two that process video; then the lifecycle manager is built and the mode
 * dispatched. Whether Redis answers, the two places the API key may come
 * from, what building the manager raises and how a run ends are
 * parameters; the usage text and the runs themselves are left out.
 */
module CliMain {
  import opened Common
  import opened SystemRegistry

  const DefaultMode: string := "both"
  const HelpMode: string := "help"

  /** The modes that need Redis, and the ones of those that need the key. */
  const RedisModes: set<string> := {"ingestion", "workers", "both", "monitor"}
  const KeyModes: set<string> := {"workers", "both"}

  /** The user id the entry point hard-codes for the manager. */
  const FixedUserId: string := "fab1e4f5-6e95-4729-9c0c-cd642e48a7be"

  const RedisRequiredMessage: string := "❌ Redis is required for this mode. Please start Redis server."
  const KeyRequiredMessage: string := "❌ Error: TWELVELABS_API_KEY is required for processing modes"
  const UnknownModePrefix: string := "❌ Unknown mode: "
  const FatalErrorPrefix: string := "❌ Fatal error: "

  /** The four modes a manager runs. */
  datatype Action = Ingestion | Workers | Monitor | Both

  function ActionOf(mode: string): (r: Option<Action>)
    ensures r.Some? <==> mode in RedisModes
  {
    if mode == "ingestion" then Some(Ingestion)
    else if mode == "workers" then Some(Workers)
    else if mode == "monitor" then Some(Monitor)
    else if mode == "both" then Some(Both)
    else None
  }

  /** How a started run ends: it finishes, the user interrupts it, or it
      raises an exception with the given text. */
  datatype RunEnd = Finishes | Interrupted | Fails(message: string)

  /** Why the entry point exits with status 1, each with the first line it
      prints. */
  datatype ExitReason =
    | RedisRequired
    | KeyRequired
    | UnknownMode(mode: string)
    | FatalError(error: string)
  {
    function Message(): string
    {
      match this
      case RedisRequired => RedisRequiredMessage
      case KeyRequired => KeyRequiredMessage
      case UnknownMode(mode) => UnknownModePrefix + mode
      case FatalError(error) => FatalErrorPrefix + error
    }
  }

  /** How the process ends: usage printed; an exit with a status code and
      its reason; an exception no handler catches; or a run of an action
      with the API key it was given. */
  datatype CliResult =
    | Usage
    | Exit(code: int, reason: ExitReason)
    | Uncaught(message: string)
    | Ran(action: Action, apiKey: string, interrupted: bool)

  /** The mode: the first argument after the program name, lower-cased,
      or "both" without one. */
  function ParseMode(argv: seq<string>): (r: string)
    ensures |argv| <= 1 ==> r == DefaultMode
    ensures |argv| > 1 ==> |r| == |argv[1]| && forall i :: 0 <= i < |r| ==> r[i] == LowerChar(argv[1][i])
  {
    if |argv| > 1 then Lower(argv[1]) else DefaultMode
  }

  /** The key the entry point uses: the environment's when it is set and
      non-empty, otherwise the configured one, which may be missing. */
  function ApiKey(envKey: Option<string>, configKey: Option<string>): (r: Option<string>)
    ensures envKey.Some? && envKey.value != "" ==> r == envKey
    ensures (envKey.None? || envKey.value == "") ==> r == configKey
  {
    if envKey.Some? && envKey.value != "" then envKey else configKey
  }

  predicate Missing(key: Option<string>)
  {
    key.None? || key.value == ""
  }

  /** `main()`. */
  function MainOutcome(argv: seq<string>, redisOk: bool, envKey: Option<string>, configKey: Option<string>,
                managerRaises: Option<string>, run: RunEnd): (r: CliResult)
    ensures var mode := ParseMode(argv);
            r.Usage? <==> mode == HelpMode
    ensures var mode := ParseMode(argv);
            r == Exit(1, RedisRequired) <==> mode in RedisModes && !redisOk
    ensures var mode := ParseMode(argv);
            r == Exit(1, KeyRequired) <==> mode in KeyModes && redisOk && Missing(ApiKey(envKey, configKey))
    ensures r.Uncaught? <==> ParseMode(argv) != HelpMode && managerRaises.Some?
                             && !(ParseMode(argv) in RedisModes && !redisOk)
                             && !(ParseMode(argv) in KeyModes && Missing(ApiKey(envKey, configKey)))
    ensures r.Uncaught? ==> r.message == managerRaises.value
    ensures r.Ran? ==> Some(r.action) == ActionOf(ParseMode(argv)) && managerRaises.None? && redisOk
    ensures r.Ran? ==> r.apiKey == (if ApiKey(envKey, configKey).Some? then ApiKey(envKey, configKey).value else "")
    ensures r.Ran? && r.action in {Workers, Both} ==> r.apiKey != ""
    ensures r.Ran? ==> (r.interrupted <==> run.Interrupted?)
    ensures r.Exit? ==> r.code == 1
    ensures r.Exit? && r.reason.FatalError? <==>
              (ActionOf(ParseMode(argv)).Some? && redisOk && managerRaises.None?
               && !(ParseMode(argv) in KeyModes && Missing(ApiKey(envKey, configKey))) && run.Fails?)
    ensures ParseMode(argv) !in RedisModes && ParseMode(argv) != HelpMode && managerRaises.None? ==>
      r == Exit(1, UnknownMode(ParseMode(argv)))
  {
    var mode := ParseMode(argv);
    if mode == HelpMode then Usage
    else if mode in RedisModes && !redisOk then Exit(1, RedisRequired)
    else
      var key := ApiKey(envKey, configKey);
      if Missing(key) && mode in KeyModes then Exit(1, KeyRequired)
      else
        var apiKey := if key.None? then "" else key.value;
        if managerRaises.Some? then Uncaught(managerRaises.value)
        else
          match ActionOf(mode)
          case None => Exit(1, UnknownMode(mode))
          case Some(action) =>
            match run
            case Finishes => Ran(action, apiKey, false)
            case Interrupted => Ran(action, apiKey, true)
            case Fails(message) => Exit(1, FatalError(message))
  }

  /** Help is answered whatever the state of Redis, the key or the
      manager, and the mode is compared after lower-casing. */
  lemma HelpSkipsChecks(redisOk: bool, envKey: Option<string>, configKey: Option<string>,
                        managerRaises: Option<string>, run: RunEnd)
    ensures MainOutcome(["main.py", "HELP"], redisOk, envKey, configKey, managerRaises, run) == Usage
    ensures MainOutcome(["main.py", "help"], redisOk, envKey, configKey, managerRaises, run) == Usage
  {
    assert Lower("HELP") == "help";
  }

  /** With no argument the mode is "both", which needs Redis and the key. */
  lemma DefaultModeNeedsBoth(envKey: Option<string>, configKey: Option<string>, managerRaises: Option<string>, run: RunEnd)
    ensures MainOutcome(["main.py"], false, envKey, configKey, managerRaises, run) == Exit(1, RedisRequired)
    ensures Missing(ApiKey(envKey, configKey)) ==>
      MainOutcome(["main.py"], true, envKey, configKey, managerRaises, run) == Exit(1, KeyRequired)
  {
  }

  /** Ingestion and monitoring run without a key: a missing one is handed
      on as the empty string. */
  lemma KeyOptionalForCapture(redisOk: bool, run: RunEnd)
    requires redisOk
    ensures MainOutcome(["main.py", "ingestion"], redisOk, None, None, None, run).Ran? || run.Fails?
    ensures run.Finishes? ==> MainOutcome(["main.py", "monitor"], redisOk, None, None, None, run) == Ran(Monitor, "", false)
  {
    assert Lower("ingestion") == "ingestion";
    assert Lower("monitor") == "monitor";
  }

  /** As written, building the manager always raises (its `user_id` is
      handed to a constructor without that parameter), and the call sits
      outside the handled block: no mode ever runs; every mode but help
      ends at a check or with that uncaught error. */
  lemma AsWrittenNothingRuns(argv: seq<string>, redisOk: bool, envKey: Option<string>, configKey: Option<string>, run: RunEnd)
    ensures var r := MainOutcome(argv, redisOk, envKey, configKey, Some(ManagerInitError), run);
            !r.Ran? && (r.Usage? || r == Exit(1, RedisRequired) || r == Exit(1, KeyRequired)
                        || r == Uncaught(ManagerInitError))
  {
  }
}

=== FILE: common.dfy ===
/**
 * Shared vocabulary of the model: an Option type and the handful of Python
 * string operations the server relies on (lower, upper, strip, `in`,
 * slicing, split, replace, zero-padded formatting), written out on ASCII.
 */
module Common {

  datatype Option<T> = None | Some(value: T)

  /** Python's `str.lower()` restricted to ASCII letters. */
  function LowerChar(c: char): char
  {
    if 'A' <= c <= 'Z' then (c as int + 32) as char else c
  }

  /** Python's `str.upper()` restricted to ASCII letters. */
  function UpperChar(c: char): char
  {
    if 'a' <= c <= 'z' then (c as int - 32) as char else c
  }

  function Lower(s: string): (r: string)
    ensures |r| == |s|
    ensures forall i :: 0 <= i < |s| ==> r[i] == LowerChar(s[i])
  {
    seq(|s|, i requires 0 <= i < |s| => LowerChar(s[i]))
  }

  function Upper(s: string): (r: string)
    ensures |r| == |s|
    ensures forall i :: 0 <= i < |s| ==> r[i] == UpperChar(s[i])
  {
    seq(|s|, i requires 0 <= i < |s| => UpperChar(s[i]))
  }

  /** The ASCII characters Python's `str.isspace()` and regex `\s` accept. */
  predicate IsSpace(c: char)
  {
    c == ' ' || ('\t' <= c <= '\r') || ('\U{1C}' <= c <= '\U{1F}')
  }

  predicate IsDigit(c: char)
  {
    '0' <= c <= '9'
  }

  function TrimLeft(s: string): (r: string)
    decreases |s|
  {
    if |s| > 0 && IsSpace(s[0]) then TrimLeft(s[1..]) else s
  }

  function TrimRight(s: string): (r: string)
    decreases |s|
  {
    if |s| > 0 && IsSpace(s[|s| - 1]) then TrimRight(s[..|s| - 1]) else s
  }

  /** Python's `str.strip()` with no argument. */
  function Strip(s: string): string
  {
    TrimRight(TrimLeft(s))
  }

  /** `s[:n]` for n >= 0. */
  function Take(s: string, n: nat): (r: string)
    ensures |r| <= n && |r| <= |s|
    ensures r == s[..|r|]
    ensures |s| <= n ==> r == s
  {
    if |s| <= n then s else s[..n]
  }

  predicate StartsWith(s: string, p: string)
  {
    |p| <= |s| && s[..|p|] == p
  }

  /** Python's `p in text` for strings: substring containment. */
  predicate Contains(text: string, p: string)
    decreases |text|
  {
    if |text| < |p| then false
    else StartsWith(text, p) || Contains(text[1..], p)
  }

  /** `any(k in text for k in keywords)` */
  predicate AnyIn(keywords: seq<string>, text: string)
  {
    exists k :: k in keywords && Contains(text, k)
  }

  /** The index of the first key occurring in `text`: the branch an
      `if k0 in text: … elif k1 in text: …` chain takes. */
  function FirstContained(keys: seq<string>, text: string): (r: Option<nat>)
    ensures r.Some? ==> r.value < |keys| && Contains(text, keys[r.value])
    ensures r.Some? ==> forall j :: 0 <= j < r.value ==> !Contains(text, keys[j])
    ensures r.None? ==> forall j :: 0 <= j < |keys| ==> !Contains(text, keys[j])
    decreases |keys|
  {
    if |keys| == 0 then None
    else if Contains(text, keys[0]) then Some(0)
    else match FirstContained(keys[1..], text)
      case None => None
      case Some(i) => Some(i + 1)
  }

  /** Python's `s.replace(p, "")`: removes the non-overlapping occurrences of
      `p`, scanning left to right. */
  function RemoveAll(s: string, p: string): string
    requires |p| > 0
    decreases |s|
  {
    if |s| < |p| then s
    else if s[..|p|] == p then RemoveAll(s[|p|..], p)
    else [s[0]] + RemoveAll(s[1..], p)
  }

  /** Python's `s.split(c)` for a one-character separator. */
  function Split(s: string, c: char): (r: seq<string>)
    ensures |r| >= 1
    decreases |s|
  {
    if |s| == 0 then [""]
    else if s[0] == c then [""] + Split(s[1..], c)
    else
      var rest := Split(s[1..], c);
      [[s[0]] + rest[0]] + rest[1..]
  }

  /** Python's `s.split(c, 1)`: None when the list would have one element. */
  function SplitOnce(s: string, c: char): Option<(string, string)>
    decreases |s|
  {
    if |s| == 0 then None
    else if s[0] == c then Some(("", s[1..]))
    else match SplitOnce(s[1..], c)
      case None => None
      case Some((a, b)) => Some(([s[0]] + a, b))
  }

  /** The text before the first occurrence of `sep` (all of `s` if none):
      element 0 of Python's `s.split(sep)`. */
  function FirstPiece(s: string, sep: string): (r: string)
    requires |sep| > 0
    ensures StartsWith(s, r)
    ensures !Contains(r, sep)
    ensures r == s || StartsWith(s[|r|..], sep)
    decreases |s|
  {
    if |s| < |sep| then s
    else if s[..|sep|] == sep then ""
    else [s[0]] + FirstPiece(s[1..], sep)
  }

  function DigitChar(d: nat): char
    requires d < 10
  {
    ('0' as int + d) as char
  }

  function DigitValue(c: char): nat
    requires IsDigit(c)
  {
    c as int - '0' as int
  }

  /** Decimal rendering of a natural number: `str(n)`. */
  function NatToString(n: nat): (r: string)
    ensures |r| >= 1
    ensures forall i :: 0 <= i < |r| ==> IsDigit(r[i])
    decreases n
  {
    if n < 10 then [DigitChar(n)] else NatToString(n / 10) + [DigitChar(n % 10)]
  }

  function IntToString(n: int): string
  {
    if n < 0 then "-" + NatToString(-n) else NatToString(n)
  }

  /** `f"{n:0{w}d}"` for n >= 0: left-padded with zeros to width w. */
  function ZeroPad(n: nat, w: nat): (r: string)
    ensures |r| >= w
    ensures forall i :: 0 <= i < |r| ==> IsDigit(r[i])
  {
    var s := NatToString(n);
    if |s| >= w then s else seq(w - |s|, _ => '0') + s
  }

  predicate AllDigits(s: string)
  {
    forall i :: 0 <= i < |s| ==> IsDigit(s[i])
  }

  /** `int(s)` on a non-empty run of ASCII digits. */
  function ParseDigits(s: string): nat
    requires AllDigits(s)
    decreases |s|
  {
    if |s| == 0 then 0 else 10 * ParseDigits(s[..|s| - 1]) + DigitValue(s[|s| - 1])
  }

  function Pow10(n: nat): nat
  {
    if n == 0 then 1 else 10 * Pow10(n - 1)
  }

  /** The number of hundredths Python's `round(x, 2)` keeps: the integer
      nearest to 100 x, a tie going to the even one. */
  function Hundredths(x: real): (r: int)
    ensures x * 100.0 - 0.5 <= r as real <= x * 100.0 + 0.5
    ensures r as real - x * 100.0 == 0.5 || x * 100.0 - r as real == 0.5 ==> r % 2 == 0
  {
    var y := x * 100.0;
    var f := y.Floor;
    if y - f as real < 0.5 then f
    else if y - f as real > 0.5 then f + 1
    else if f % 2 == 0 then f
    else f + 1
  }

  /** `round(x, 2)` on an exact value: within half a hundredth of x, and a
      whole number of hundredths. */
  function Round2(x: real): (r: real)
    ensures -0.005 <= r - x <= 0.005
    ensures r * 100.0 == Hundredths(x) as real
  {
    Hundredths(x) as real / 100.0
  }

  /** A value in whole hundredths is kept, so rounding twice is rounding
      once. */
  lemma Round2Keeps(k: int, x: real)
    ensures Round2(k as real / 100.0) == k as real / 100.0
    ensures Round2(Round2(x)) == Round2(x)
  {
    assert (k as real / 100.0) * 100.0 == k as real;
    var h := Hundredths(x);
    assert Round2(x) == h as real / 100.0;
    assert (h as real / 100.0) * 100.0 == h as real;
  }

  predicate NoDup<T(==)>(s: seq<T>)
  {
    forall i, j :: 0 <= i < j < |s| ==> s[i] != s[j]
  }

  /** The distinct elements of `s`, each kept at its first occurrence: the
      contents of Python's `list(set(s))`, whose order Python leaves open. */
  function Dedup<T(==,!new)>(s: seq<T>): (r: seq<T>)
    ensures NoDup(r)
    ensures forall x :: x in r <==> x in s
    ensures |r| <= |s|
    decreases |s|
  {
    if |s| == 0 then []
    else
      var rest := Dedup(s[..|s| - 1]);
      if s[|s| - 1] in rest then rest else rest + [s[|s| - 1]]
  }

  function Count<T>(s: seq<T>, p: T -> bool): (r: nat)
    ensures r <= |s|
  {
    if |s| == 0 then 0 else (if p(s[0]) then 1 else 0) + Count(s[1..], p)
  }

  /** Counting over a sequence extended at the end. */
  lemma {:induction false} CountSnoc<T>(s: seq<T>, x: T, p: T -> bool)
    ensures Count(s + [x], p) == Count(s, p) + (if p(x) then 1 else 0)
    decreases |s|
  {
    if |s| > 0 {
      assert (s + [x])[1..] == s[1..] + [x];
      CountSnoc(s[1..], x, p);
    }
  }

  /** The middle of a three-part concatenation is found at the length of
      the first part, and the last element comes from the last part. */
  lemma ConcatMiddle<T>(a: seq<T>, b: seq<T>, c: seq<T>)
    requires |c| > 0
    ensures (a + b + c)[|a|..|a| + |b|] == b
    ensures (a + b + c)[|a + b + c| - 1] == c[|c| - 1]
  {
    assert (a + b + c)[|a|..|a| + |b|] == (a + b)[|a|..];
  }

  /** Counting over a non-empty prefix: its first element, then the
      matching prefix of the tail. */
  lemma CountPrefixCons<T>(s: seq<T>, j: nat, p: T -> bool)
    requires j < |s|
    ensures Count(s[..j + 1], p) == (if p(s[0]) then 1 else 0) + Count(s[1..][..j], p)
  {
    assert s[..j + 1][1..] == s[1..][..j];
  }

  /** The elements that satisfy `p`, in their original order. */
  function Filter<T>(s: seq<T>, p: T -> bool): (r: seq<T>)
    ensures |r| == Count(s, p)
    ensures forall i :: 0 <= i < |r| ==> p(r[i])
    ensures forall x :: x in r ==> x in s
    decreases |s|
  {
    if |s| == 0 then []
    else
      var rest := Filter(s[1..], p);
      assert forall y :: y in s[1..] ==> y in s;
      if p(s[0]) then [s[0]] + rest else rest
  }

  /** An element of `s` is kept exactly when it satisfies `p`. */
  lemma {:induction false} FilterKeeps<T>(s: seq<T>, p: T -> bool, x: T)
    requires x in s
    ensures x in Filter(s, p) <==> p(x)
    decreases |s|
  {
    if s[0] != x {
      FilterKeeps(s[1..], p, x);
    }
  }

  /** Whether a conversion succeeds on an element. */
  function Converts<T, R>(f: T -> Option<R>): T -> bool
  {
    (x: T) => f(x).Some?
  }

  /** A loop that converts each element and keeps the successes, in
      order, skipping the failures. */
  function Converted<T, R>(s: seq<T>, f: T -> Option<R>): (r: seq<R>)
    ensures |r| == Count(s, Converts(f))
    decreases |s|
  {
    if |s| == 0 then []
    else match f(s[0])
      case None => Converted(s[1..], f)
      case Some(y) => [y] + Converted(s[1..], f)
  }

  /** The k-th success is the conversion of some element, and exactly k
      elements before it convert: results keep the elements' order. */
  lemma {:induction false} ConvertedProvenance<T, R>(s: seq<T>, f: T -> Option<R>, k: nat) returns (i: nat)
    requires k < |Converted(s, f)|
    ensures i < |s| && f(s[i]) == Some(Converted(s, f)[k])
    ensures Count(s[..i], Converts(f)) == k
    decreases |s|
  {
    var head := f(s[0]);
    if head.Some? && k == 0 {
      i := 0;
      assert s[..0] == [];
    } else {
      var k' := if head.Some? then k - 1 else k;
      var j := ConvertedProvenance(s[1..], f, k');
      i := j + 1;
      assert s[i] == s[1..][j];
      CountPrefixCons(s, j, Converts(f));
    }
  }

  /** When every element converts, the results are the elements converted
      one for one. */
  lemma {:induction false} AllConverted<T, R>(s: seq<T>, f: T -> Option<R>)
    requires forall i :: 0 <= i < |s| ==> f(s[i]).Some?
    ensures |Converted(s, f)| == |s|
    ensures forall i :: 0 <= i < |s| ==> Converted(s, f)[i] == f(s[i]).value
    decreases |s|
  {
    if |s| > 0 {
      AllConverted(s[1..], f);
      forall i | 1 <= i < |s|
        ensures Converted(s, f)[i] == f(s[i]).value
      {
        assert s[i] == s[1..][i - 1];
      }
    }
  }

  // ---------------------------------------------------------------------
  // Lemmas about the string operations
  // ---------------------------------------------------------------------

  /** `Contains` agrees with the positional definition of a substring. */
  lemma {:induction false} ContainsAt(text: string, p: string, i: nat)
    requires i + |p| <= |text| && text[i..i + |p|] == p
    ensures Contains(text, p)
    decreases i
  {
    if i == 0 {
      assert text[..|p|] == p;
    } else {
      assert text[1..][i - 1..i - 1 + |p|] == text[i..i + |p|];
      ContainsAt(text[1..], p, i - 1);
    }
  }

  /** `p` occurs in `text` at index i. */
  predicate MatchesAt(text: string, p: string, i: nat)
  {
    i + |p| <= |text| && text[i..i + |p|] == p
  }

  /** A pattern that matches at no position is not contained. */
  lemma {:induction false} NotContainsAt(text: string, p: string)
    requires forall i: nat :: !MatchesAt(text, p, i)
    ensures !Contains(text, p)
    decreases |text|
  {
    if |text| >= |p| {
      assert !MatchesAt(text, p, 0);
      assert text[0..|p|] == text[..|p|];
      forall i: nat
        ensures !MatchesAt(text[1..], p, i)
      {
        assert !MatchesAt(text, p, i + 1);
        if i + |p| <= |text[1..]| {
          assert text[1..][i..i + |p|] == text[i + 1..i + 1 + |p|];
        }
      }
      NotContainsAt(text[1..], p);
    }
  }

  /** Conversely, a text not containing p matches it at no position. */
  lemma MissesEverywhere(text: string, p: string, i: nat)
    requires !Contains(text, p)
    ensures !MatchesAt(text, p, i)
  {
    if MatchesAt(text, p, i) {
      ContainsAt(text, p, i);
    }
  }

  lemma {:induction false} ContainsWitness(text: string, p: string) returns (i: nat)
    requires Contains(text, p)
    ensures i + |p| <= |text| && text[i..i + |p|] == p
    decreases |text|
  {
    if StartsWith(text, p) {
      i := 0;
    } else {
      var j := ContainsWitness(text[1..], p);
      i := j + 1;
      assert text[1..][j..j + |p|] == text[i..i + |p|];
    }
  }

  /** The text that does not contain `p` is left alone by `replace(p, "")`. */
  lemma {:induction false} RemoveAllAbsent(s: string, p: string)
    requires |p| > 0 && !Contains(s, p)
    ensures RemoveAll(s, p) == s
    decreases |s|
  {
    if |s| >= |p| {
      assert !StartsWith(s, p);
      RemoveAllAbsent(s[1..], p);
      assert s == [s[0]] + s[1..];
    }
  }

  /** Splitting `a + [c] + b` on `c` when `a` has no `c`. */
  lemma {:induction false} SplitAfter(a: string, c: char, b: string)
    requires c !in a
    ensures Split(a + [c] + b, c) == [a] + Split(b, c)
    decreases |a|
  {
    if |a| == 0 {
      assert a + [c] + b == [c] + b;
      assert ([c] + b)[1..] == b;
    } else {
      var s := a + [c] + b;
      assert s[0] == a[0];
      assert s[1..] == a[1..] + [c] + b;
      SplitAfter(a[1..], c, b);
      assert [a[0]] + a[1..] == a;
    }
  }

  /** `s.split(c, 1)` of `a + [c] + b` when `a` has no `c`. */
  lemma {:induction false} SplitOnceAfter(a: string, c: char, b: string)
    requires c !in a
    ensures SplitOnce(a + [c] + b, c) == Some((a, b))
    decreases |a|
  {
    if |a| == 0 {
      assert a + [c] + b == [c] + b;
      assert ([c] + b)[1..] == b;
    } else {
      var s := a + [c] + b;
      assert s[1..] == a[1..] + [c] + b;
      SplitOnceAfter(a[1..], c, b);
      assert [a[0]] + a[1..] == a;
    }
  }

  /** A split at the first `c` cuts `s` into the text before it, which
      holds no `c`, and the text after it. */
  lemma {:induction false} SplitOnceParts(s: string, c: char)
    requires SplitOnce(s, c).Some?
    ensures var (a, b) := SplitOnce(s, c).value;
            s == a + [c] + b && c !in a
    decreases |s|
  {
    if s[0] != c {
      SplitOnceParts(s[1..], c);
      assert s == [s[0]] + s[1..];
    }
  }

  lemma {:induction false} SplitOnceNone(s: string, c: char)
    ensures SplitOnce(s, c).None? <==> c !in s
    decreases |s|
  {
    if |s| > 0 {
      SplitOnceNone(s[1..], c);
      assert s == [s[0]] + s[1..];
    }
  }

  /** Zero padding followed by parsing gives the number back. */
  lemma {:induction false} ParseNatToString(n: nat)
    ensures ParseDigits(NatToString(n)) == n
    decreases n
  {
    if n >= 10 {
      var s := NatToString(n);
      assert s[..|s| - 1] == NatToString(n / 10);
      ParseNatToString(n / 10);
    }
  }

  lemma {:induction false} ParseLeadingZeros(z: nat, s: string)
    requires AllDigits(s)
    ensures AllDigits(seq(z, _ => '0') + s)
    ensures ParseDigits(seq(z, _ => '0') + s) == ParseDigits(s)
    decreases |s|
  {
    var t := seq(z, _ => '0') + s;
    if |s| == 0 {
      assert t == seq(z, _ => '0');
      ParseAllZeros(z);
    } else {
      assert t[..|t| - 1] == seq(z, _ => '0') + s[..|s| - 1];
      ParseLeadingZeros(z, s[..|s| - 1]);
    }
  }

  lemma {:induction false} ParseAllZeros(z: nat)
    ensures AllDigits(seq(z, _ => '0'))
    ensures ParseDigits(seq(z, _ => '0')) == 0
    decreases z
  {
    if z > 0 {
      var t := seq(z, _ => '0');
      assert t[..z - 1] == seq(z - 1, _ => '0');
      ParseAllZeros(z - 1);
    }
  }

  lemma ParseZeroPad(n: nat, w: nat)
    ensures ParseDigits(ZeroPad(n, w)) == n
  {
    var s := NatToString(n);
    ParseNatToString(n);
    if |s| < w {
      ParseLeadingZeros(w - |s|, s);
    }
  }

  lemma {:induction false} NatToStringLength(n: nat, w: nat)
    requires n < Pow10(w) && w >= 1
    ensures |NatToString(n)| <= w
    decreases n
  {
    if n >= 10 {
      assert w >= 2;
      NatToStringLength(n / 10, w - 1);
    }
  }

  /** A number below 10^w pads to exactly w digits. */
  lemma ZeroPadLength(n: nat, w: nat)
    requires n < Pow10(w) && w >= 1
    ensures |ZeroPad(n, w)| == w
  {
    NatToStringLength(n, w);
  }

  lemma {:induction false} StripHasNoOuterSpace(s: string)
    ensures var r := Strip(s); |r| == 0 || (!IsSpace(r[0]) && !IsSpace(r[|r| - 1]))
  {
    TrimLeftNoLeadingSpace(s);
    var l := TrimLeft(s);
    TrimRightKeepsHead(l);
    TrimRightNoTrailingSpace(l);
  }

  lemma {:induction false} TrimLeftNoLeadingSpace(s: string)
    ensures |TrimLeft(s)| == 0 || !IsSpace(TrimLeft(s)[0])
    decreases |s|
  {
    if |s| > 0 && IsSpace(s[0]) {
      TrimLeftNoLeadingSpace(s[1..]);
    }
  }

  lemma {:induction false} TrimRightNoTrailingSpace(s: string)
    ensures var r := TrimRight(s); |r| == 0 || !IsSpace(r[|r| - 1])
    decreases |s|
  {
    if |s| > 0 && IsSpace(s[|s| - 1]) {
      TrimRightNoTrailingSpace(s[..|s| - 1]);
    }
  }

  /** TrimRight only removes a suffix: it keeps the first character if any remains. */
  lemma {:induction false} TrimRightKeepsHead(s: string)
    ensures |TrimRight(s)| <= |s| && TrimRight(s) == s[..|TrimRight(s)|]
    decreases |s|
  {
    if |s| > 0 && IsSpace(s[|s| - 1]) {
      TrimRightKeepsHead(s[..|s| - 1]);
    }
  }
}

=== FILE: exceptions.dfy ===
/**
 * The application's exception hierarchy and its HTTP form
 * (server/app/core/exceptions.py).
 *
 * Every exception is a `LifeOSException` carrying a message, an optional
 * error code and a details map; the subclasses fix the code and, for
 * external services, build the message and code from the service name.
 * Detail values are modelled as strings.
 */
module Exceptions {
  import opened Common

  type Details = map<string, string>

  /** Which class raised: the base class or one of its five subclasses. */
  datatype ErrorKind =
    | Base | Authentication | Authorization | VideoProcessing | VectorStore | ExternalService

  datatype LifeOSException = LifeOSException(kind: ErrorKind, message: string, errorCode: Option<string>, details: Details)

  /** `details or {}`: a missing details map becomes the empty one. */
  function OrEmpty(details: Option<Details>): (r: Details)
    ensures details.Some? ==> r == details.value
    ensures details.None? ==> r == map[]
  {
    if details.Some? then details.value else map[]
  }

  /** `LifeOSException(message, error_code, details)`; its string form is
      the message. */
  function NewLifeOSException(message: string, errorCode: Option<string>, details: Option<Details>): (r: LifeOSException)
    ensures r.message == message && r.errorCode == errorCode && r.details == OrEmpty(details)
    ensures r.kind == Base
  {
    LifeOSException(Base, message, errorCode, OrEmpty(details))
  }

  const AuthErrorCode: string := "AUTH_ERROR"
  const AuthorizationErrorCode: string := "AUTHORIZATION_ERROR"
  const VideoProcessingErrorCode: string := "VIDEO_PROCESSING_ERROR"
  const VectorStoreErrorCode: string := "VECTOR_STORE_ERROR"
  const DefaultAuthenticationMessage: string := "Authentication failed"
  const DefaultAuthorizationMessage: string := "Insufficient permissions"
  const ServiceErrorInfix: string := " service error: "
  const ServiceCodeSuffix: string := "_ERROR"

  /** `AuthenticationError(message)`: the default message when none is
      given, code AUTH_ERROR, no details. */
  function AuthenticationError(message: Option<string>): (r: LifeOSException)
    ensures r.kind == Authentication && r.errorCode == Some(AuthErrorCode) && r.details == map[]
    ensures r.message == (if message.Some? then message.value else DefaultAuthenticationMessage)
  {
    var e := NewLifeOSException(if message.Some? then message.value else DefaultAuthenticationMessage, Some(AuthErrorCode), None);
    e.(kind := Authentication)
  }

  /** `AuthorizationError(message)`: as above with its own default and
      code. */
  function AuthorizationError(message: Option<string>): (r: LifeOSException)
    ensures r.kind == Authorization && r.errorCode == Some(AuthorizationErrorCode) && r.details == map[]
    ensures r.message == (if message.Some? then message.value else DefaultAuthorizationMessage)
  {
    var e := NewLifeOSException(if message.Some? then message.value else DefaultAuthorizationMessage, Some(AuthorizationErrorCode), None);
    e.(kind := Authorization)
  }

  /** `VideoProcessingError(message, details)`: a fixed code; the message
      and details are passed through. */
  function VideoProcessingError(message: string, details: Option<Details>): (r: LifeOSException)
    ensures r.kind == VideoProcessing && r.errorCode == Some(VideoProcessingErrorCode)
    ensures r.message == message && r.details == OrEmpty(details)
  {
    NewLifeOSException(message, Some(VideoProcessingErrorCode), details).(kind := VideoProcessing)
  }

  /** `VectorStoreError(message, details)`. */
  function VectorStoreError(message: string, details: Option<Details>): (r: LifeOSException)
    ensures r.kind == VectorStore && r.errorCode == Some(VectorStoreErrorCode)
    ensures r.message == message && r.details == OrEmpty(details)
  {
    NewLifeOSException(message, Some(VectorStoreErrorCode), details).(kind := VectorStore)
  }

  /** `ExternalServiceError(service, message, details)`: the message names
      the service before the given text, and the code is the upper-cased
      service name with `_ERROR` after it. */
  function ExternalServiceError(service: string, message: string, details: Option<Details>): (r: LifeOSException)
    ensures r.kind == ExternalService && r.details == OrEmpty(details)
    ensures r.errorCode.Some? && |r.errorCode.value| == |service| + |ServiceCodeSuffix|
    ensures forall i :: 0 <= i < |service| ==> r.errorCode.value[i] == UpperChar(service[i])
    ensures r.errorCode.value[|service|..] == ServiceCodeSuffix
    ensures |r.message| == |service| + |ServiceErrorInfix| + |message|
    ensures StartsWith(r.message, service) && r.message[|service|..|service| + |ServiceErrorInfix|] == ServiceErrorInfix
  {
    NewLifeOSException(service + ServiceErrorInfix + message, Some(Upper(service) + ServiceCodeSuffix), details)
      .(kind := ExternalService)
  }

  /** The `detail` body of the HTTP exception. */
  datatype ErrorDetail = ErrorDetail(message: string, errorCode: Option<string>, details: Details)

  datatype HttpException = HttpException(statusCode: int, detail: ErrorDetail)

  /** `create_http_exception`: the status code, and a detail of the message,
      the error code (null when none) and the details or {}. */
  function CreateHttpException(statusCode: int, message: string, errorCode: Option<string>, details: Option<Details>): (r: HttpException)
    ensures r.statusCode == statusCode
    ensures r.detail.message == message && r.detail.errorCode == errorCode && r.detail.details == OrEmpty(details)
  {
    HttpException(statusCode, ErrorDetail(message, errorCode, OrEmpty(details)))
  }

  /** The text given to an external service error is recovered from its
      message after the service name and the infix. */
  lemma ExternalServiceMessageRecovered(service: string, message: string, details: Option<Details>)
    ensures ExternalServiceError(service, message, details).message[|service| + |ServiceErrorInfix|..] == message
  {
  }

  /** Every subclass carries an error code; only the base class may lack
      one. */
  lemma SubclassesHaveCodes(message: string, details: Option<Details>, service: string, given: Option<string>)
    ensures AuthenticationError(given).errorCode.Some? && AuthorizationError(given).errorCode.Some?
    ensures VideoProcessingError(message, details).errorCode.Some? && VectorStoreError(message, details).errorCode.Some?
    ensures ExternalServiceError(service, message, details).errorCode.Some?
    ensures NewLifeOSException(message, None, details).errorCode.None?
  {
  }

  /** An exception rendered as an HTTP error keeps its message, code and
      details: the detail is the exception's own fields. */
  lemma HttpDetailOfException(e: LifeOSException, statusCode: int)
    ensures CreateHttpException(statusCode, e.message, e.errorCode, Some(e.details)).detail
            == ErrorDetail(e.message, e.errorCode, e.details)
  {
  }
}

=== FILE: highlights.dfy ===
/**
 * Highlight titles and tags (server/automations/highlights_integration.py).
 *
 * A highlight's title comes from the first key moment, else the first
 * category, else the first sentence of the summary; its tags are the
 * categories plus fixed tags chosen by keywords in the lower-cased summary,
 * without duplicates.
 */
module Highlights {
  import opened Common

  const TitleLimit: nat := 50

  const Ellipsis: string := "..."

  const HighlightPrefix: string := "Highlight: "

  function Min(a: nat, b: nat): nat
  {
    if a <= b then a else b
  }

  /** `_generate_highlight_title` */
  function HighlightTitle(summary: string, keyMoments: seq<string>, categories: seq<string>): (r: string)
    ensures |keyMoments| > 0 ==>
      var n := Min(TitleLimit, |keyMoments[0]|);
      |r| == |HighlightPrefix| + n + 3
      && r[..|HighlightPrefix|] == HighlightPrefix
      && r[|HighlightPrefix|..|HighlightPrefix| + n] == keyMoments[0][..n]
      && r[|r| - 3..] == Ellipsis
    ensures |keyMoments| == 0 && |categories| > 0 ==> r == categories[0] + " Moment"
    ensures |keyMoments| == 0 && |categories| == 0 ==>
      var first := FirstPiece(summary, ". ");
      var n := Min(TitleLimit, |first|);
      StartsWith(summary, first) && !Contains(first, ". ")
      && |r| >= n && r[..n] == first[..n]
      && (|first| > TitleLimit ==> |r| == TitleLimit + 3 && r[TitleLimit..] == Ellipsis)
      && (|first| <= TitleLimit ==> r == first)
  {
    if |keyMoments| > 0 then HighlightPrefix + Take(keyMoments[0], TitleLimit) + Ellipsis
    else if |categories| > 0 then categories[0] + " Moment"
    else
      var first := FirstPiece(summary, ". ");
      Take(first, TitleLimit) + (if |first| > TitleLimit then Ellipsis else "")
  }

  /** With key moments, "..." is appended even to a short moment. */
  lemma ShortMomentStillElided(summary: string, moment: string, rest: seq<string>, categories: seq<string>)
    requires |moment| <= TitleLimit
    ensures HighlightTitle(summary, [moment] + rest, categories) == HighlightPrefix + moment + Ellipsis
  {
  }

  /** A tag and the words that earn it. */
  datatype TagRule = TagRule(tag: string, words: seq<string>)

  /** The keyword tags, in the order they are checked. */
  const TagRules: seq<TagRule> := [
    TagRule("meeting", ["meeting", "call", "conversation"]),
    TagRule("location", ["office", "home", "restaurant", "travel"]),
    TagRule("work", ["working", "coding", "presentation"]),
    TagRule("fitness", ["exercise", "gym", "running", "walking"]),
    TagRule("food", ["cooking", "eating", "food"])]

  /** The tags whose rule fires on `text`, in rule order. */
  function KeywordTags(rules: seq<TagRule>, text: string): (r: seq<string>)
    ensures forall t :: t in r <==> exists i :: 0 <= i < |rules| && rules[i].tag == t && AnyIn(rules[i].words, text)
    decreases |rules|
  {
    if |rules| == 0 then []
    else
      var rest := KeywordTags(rules[1..], text);
      assert forall i :: 1 <= i < |rules| ==> rules[i] == rules[1..][i - 1];
      (if AnyIn(rules[0].words, text) then [rules[0].tag] else []) + rest
  }

  /** `_extract_tags`: the categories and the keyword tags, de-duplicated. */
  function ExtractTags(summary: string, categories: seq<string>): (r: seq<string>)
    ensures NoDup(r)
    ensures forall t :: t in r <==>
      t in categories
      || exists i :: 0 <= i < |TagRules| && TagRules[i].tag == t && AnyIn(TagRules[i].words, Lower(summary))
  {
    Dedup(categories + KeywordTags(TagRules, Lower(summary)))
  }

  /** A summary mentioning "gym" is tagged "fitness", whatever its case. */
  lemma GymIsFitness(summary: string, i: nat)
    requires i + 3 <= |summary| && Lower(summary)[i..i + 3] == "gym"
    ensures "fitness" in ExtractTags(summary, [])
  {
    var low := Lower(summary);
    ContainsAt(low, "gym", i);
    var fitness := TagRules[3];
    assert fitness.words[1] == "gym" && fitness.tag == "fitness";
    assert AnyIn(fitness.words, low);
    RuleFires(summary, 3);
  }

  /** A rule whose keyword occurs in the lower-cased summary contributes
      its tag. */
  lemma RuleFires(summary: string, j: nat)
    requires j < |TagRules| && AnyIn(TagRules[j].words, Lower(summary))
    ensures TagRules[j].tag in ExtractTags(summary, [])
  {
  }

  /** The result of `add_to_highlights`. */
  datatype HighlightsResult = HighlightsResult(triggered: bool, processedAt: string, message: string)

  /** `add_to_highlights`: the placeholder always reports success; its
      except branch cannot be reached. */
  function AddToHighlights(now: string): (r: HighlightsResult)
    ensures r.triggered
    ensures r.processedAt == now
  {
    HighlightsResult(true, now, "Highlights automation would run here")
  }
}

=== FILE: ingestion.dfy ===
/**
 * Camera ingestion (server/video_injestion/ingestion.py).
 *
 * A capture thread puts frames into a bounded buffer, dropping the oldest
 * frame when it is full; the segment loop takes the frames of each
 * `segment_duration` window, saves them as one numbered file, and queues
 * the file with its metadata. The camera and the encoder are left out: a
 * frame is an abstract value, and whether a write succeeds is a parameter.
 */
module Ingestion {
  import opened Common
  import opened Chrono
  import opened QueueManager

  /** `queue.Queue(maxsize=100)` */
  const FrameCapacity: nat := 100

  const DefaultFps: int := 30

  const DefaultResolution: (int, int) := (1280, 720)

  const DefaultSegmentDuration: int := 10

  const OutputDir: string := "video_segments"

  /** A captured frame: an abstract image and its capture time. */
  datatype Frame = Frame(image: nat, timestamp: real)

  // ---------------------------------------------------------------------
  // The frame buffer
  // ---------------------------------------------------------------------

  /** The newest `FrameCapacity` frames of `s`. */
  function Newest(s: seq<Frame>): (r: seq<Frame>)
    ensures |r| <= FrameCapacity
  {
    if |s| <= FrameCapacity then s else s[|s| - FrameCapacity..]
  }

  /** The put in `capture_frames`: append when there is room, otherwise
      drop the oldest frame first. */
  function Put(buf: seq<Frame>, f: Frame): (r: seq<Frame>)
    requires |buf| <= FrameCapacity
    ensures |r| <= FrameCapacity && |r| > 0 && r[|r| - 1] == f
    ensures |buf| < FrameCapacity ==> r == buf + [f]
    ensures |buf| == FrameCapacity ==> r == buf[1..] + [f]
  {
    if |buf| < FrameCapacity then buf + [f] else buf[1..] + [f]
  }

  /** The frames the capture thread reads, put one after another. (A failed
      read puts nothing, so only the frames read count.) */
  function PutAll(buf: seq<Frame>, frames: seq<Frame>): (r: seq<Frame>)
    requires |buf| <= FrameCapacity
    ensures |r| <= FrameCapacity
    ensures |frames| > 0 ==> |r| > 0 && r[|r| - 1] == frames[|frames| - 1]
    decreases |frames|
  {
    if |frames| == 0 then buf else Put(PutAll(buf, frames[..|frames| - 1]), frames[|frames| - 1])
  }

  /** A put keeps the newest frames of the buffer extended by the frame. */
  lemma PutKeepsNewest(buf: seq<Frame>, f: Frame)
    requires |buf| <= FrameCapacity
    ensures Put(buf, f) == Newest(buf + [f])
  {
    if |buf| == FrameCapacity {
      assert (buf + [f])[|buf + [f]| - FrameCapacity..] == buf[1..] + [f];
    }
  }

  /** Whatever the capture thread reads, the buffer holds exactly the
      newest (at most 100) frames ever put into it, oldest first. */
  lemma {:induction false} BufferHoldsNewest(buf: seq<Frame>, frames: seq<Frame>)
    requires |buf| <= FrameCapacity
    ensures PutAll(buf, frames) == Newest(buf + frames)
    decreases |frames|
  {
    if |frames| == 0 {
      assert buf + frames == buf;
    } else {
      var n := |frames| - 1;
      var init, f := frames[..n], frames[n];
      var prev := PutAll(buf, init);
      assert PutAll(buf, frames) == Put(prev, f);
      BufferHoldsNewest(buf, init);
      PutKeepsNewest(prev, f);
      NewestOfTail(buf + init, [f]);
      assert init + [f] == frames;
      assert (buf + init) + [f] == buf + frames;
    }
  }

  /** Trimming before appending more does not change the newest frames. */
  lemma NewestOfTail(s: seq<Frame>, t: seq<Frame>)
    ensures Newest(Newest(s) + t) == Newest(s + t)
  {
    if |s| > FrameCapacity {
      var n := s[|s| - FrameCapacity..];
      if |n + t| > FrameCapacity {
        assert (n + t)[|n + t| - FrameCapacity..] == (s + t)[|s + t| - FrameCapacity..];
      }
    }
  }

  // ---------------------------------------------------------------------
  // Segment files
  // ---------------------------------------------------------------------

  /** `strftime("%Y%m%d_%H%M%S")` */
  function Stamp(t: DateTime): string
    requires ValidDateTime(t)
  {
    ZeroPad(t.date.year, 4) + ZeroPad(t.date.month, 2) + ZeroPad(t.date.day, 2) + "_"
    + ZeroPad(t.hour, 2) + ZeroPad(t.minute, 2) + ZeroPad(t.second, 2)
  }

  const SegmentPrefixName: string := "segment_"

  const SegmentSuffix: string := ".mp4"

  /** `f"segment_{timestamp}_{segment_id:04d}.mp4"` */
  function SegmentFilename(t: DateTime, id: nat): string
    requires ValidDateTime(t)
  {
    SegmentPrefixName + Stamp(t) + "_" + ZeroPad(id, 4) + SegmentSuffix
  }

  lemma StampLength(t: DateTime)
    requires ValidDateTime(t)
    ensures |Stamp(t)| == 15
  {
    PadFacts(t.date.year, 4);
    PadFacts(t.date.month, 2);
    PadFacts(t.date.day, 2);
    PadFacts(t.hour, 2);
    PadFacts(t.minute, 2);
    PadFacts(t.second, 2);
  }

  /** The file name reads back: it starts with "segment_", ends with
      ".mp4", and the four digits before the suffix are the segment id. */
  lemma FilenameReadsBack(t: DateTime, id: nat)
    requires ValidDateTime(t) && id < 10000
    ensures var name := SegmentFilename(t, id);
      |name| == 32 && name[..8] == SegmentPrefixName && name[28..] == SegmentSuffix
      && AllDigits(name[24..28]) && ParseDigits(name[24..28]) == id
  {
    StampLength(t);
    PadFacts(id, 4);
    var name := SegmentFilename(t, id);
    assert name[24..28] == ZeroPad(id, 4);
  }

  /** `save_video_segment`: the saved path and the images the writer
      received, or no path for an empty frame list or a failed write.
      `fit` is `cv2.resize` to the configured resolution, which leaves an
      image of that size as it is. */
  method SaveVideoSegment(frames: seq<Frame>, id: nat, now: DateTime, writeOk: bool, fit: nat -> nat)
    returns (path: Option<string>, written: seq<nat>)
    requires ValidDateTime(now)
    ensures |frames| == 0 || !writeOk ==> path.None?
    ensures |frames| > 0 && writeOk ==> path == Some(OutputDir + "/" + SegmentFilename(now, id))
    ensures path.Some? ==> |written| == |frames| && forall k :: 0 <= k < |frames| ==> written[k] == fit(frames[k].image)
  {
    written := [];
    if |frames| == 0 || !writeOk {
      return None, [];
    }
    var i := 0;
    while i < |frames|
      invariant 0 <= i <= |frames| && |written| == i
      invariant forall k :: 0 <= k < i ==> written[k] == fit(frames[k].image)
    {
      written := written + [fit(frames[i].image)];
      i := i + 1;
    }
    path := Some(OutputDir + "/" + SegmentFilename(now, id));
  }

  // ---------------------------------------------------------------------
  // The segment loop
  // ---------------------------------------------------------------------

  /** The metadata queued with a segment. */
  datatype SegmentMeta = SegmentMeta(segmentId: nat, fps: int, resolution: (int, int), frameCount: nat)

  /** The same metadata as the queue stores it. */
  function AsMetadata(m: SegmentMeta): (r: Metadata)
    ensures r.Keys == {"segment_id", "fps", "resolution", "frame_count"}
    ensures r["segment_id"] == MInt(m.segmentId) && r["frame_count"] == MInt(m.frameCount)
  {
    map["segment_id" := MInt(m.segmentId), "fps" := MInt(m.fps),
        "resolution" := MPair(m.resolution.0, m.resolution.1), "frame_count" := MInt(m.frameCount)]
  }

  /** A queued segment: the time its file was named at, and its metadata.
      The path it is queued under follows from the two (`RequestPath`). */
  datatype Request = Request(time: DateTime, meta: SegmentMeta)

  /** The saved file a request names: the segment's file in the output
      directory. */
  function RequestPath(r: Request): string
    requires ValidDateTime(r.time)
  {
    OutputDir + "/" + SegmentFilename(r.time, r.meta.segmentId)
  }

  predicate NonEmpty(w: seq<Frame>)
  {
    |w| > 0
  }

  /** The request queued for segment `id` of `frameCount` frames. */
  function Queued(t: DateTime, id: nat, fps: int, resolution: (int, int), frameCount: nat): (r: Request)
    requires ValidDateTime(t)
    ensures r.meta == SegmentMeta(id, fps, resolution, frameCount)
    ensures r.time == t && RequestPath(r) == OutputDir + "/" + SegmentFilename(t, id)
  {
    Request(t, SegmentMeta(id, fps, resolution, frameCount))
  }

  /** `process_segments` over the frame windows it collects: the segments it
      queues and the next segment id. The id advances for every non-empty
      window, even when saving it fails; empty windows are skipped. */
  function ProcessSegments(windows: seq<seq<Frame>>, saveOk: nat -> bool, stamp: nat -> DateTime, fps: int, resolution: (int, int)): (r: (seq<Request>, nat))
    requires forall i :: 0 <= i < |windows| ==> ValidDateTime(stamp(i))
    ensures |r.0| <= r.1
    decreases |windows|
  {
    if |windows| == 0 then ([], 0)
    else
      var n := |windows| - 1;
      var (reqs, id) := ProcessSegments(windows[..n], saveOk, stamp, fps, resolution);
      var w := windows[n];
      if |w| == 0 then (reqs, id)
      else if saveOk(n) then
        (reqs + [Queued(stamp(n), id, fps, resolution, |w|)], id + 1)
      else (reqs, id + 1)
  }

  /** Each queued segment comes from a non-empty window whose save
      succeeded; its id is the number of non-empty windows before it, its
      frame count is that window's size, and its path is that id's file. */
  lemma {:induction false} RequestProvenance(windows: seq<seq<Frame>>, saveOk: nat -> bool, stamp: nat -> DateTime, fps: int, resolution: (int, int), k: nat)
    returns (i: nat)
    requires forall j :: 0 <= j < |windows| ==> ValidDateTime(stamp(j))
    requires k < |ProcessSegments(windows, saveOk, stamp, fps, resolution).0|
    ensures i < |windows| && |windows[i]| > 0 && saveOk(i)
    ensures var req := ProcessSegments(windows, saveOk, stamp, fps, resolution).0[k];
      req.meta.segmentId == Count(windows[..i], NonEmpty) && req.meta.frameCount == |windows[i]|
      && req.time == stamp(i)
      && RequestPath(req) == OutputDir + "/" + SegmentFilename(stamp(i), Count(windows[..i], NonEmpty))
    decreases |windows|
  {
    var n := |windows| - 1;
    var prefix := windows[..n];
    var reqs := ProcessSegments(prefix, saveOk, stamp, fps, resolution).0;
    ProcessSegmentsStep(windows, saveOk, stamp, fps, resolution);
    if k < |reqs| {
      i := RequestProvenance(prefix, saveOk, stamp, fps, resolution, k);
      assert windows[..i] == prefix[..i];
    } else {
      i := n;
      NextIdCountsWindows(prefix, saveOk, stamp, fps, resolution);
    }
  }

  /** One more window: the segments of the earlier windows, then this
      window's request when it is non-empty and saved; the id advances for
      every non-empty window. */
  lemma ProcessSegmentsStep(windows: seq<seq<Frame>>, saveOk: nat -> bool, stamp: nat -> DateTime, fps: int, resolution: (int, int))
    requires forall i :: 0 <= i < |windows| ==> ValidDateTime(stamp(i))
    requires |windows| > 0
    ensures var n := |windows| - 1;
      var before := ProcessSegments(windows[..n], saveOk, stamp, fps, resolution);
      ProcessSegments(windows, saveOk, stamp, fps, resolution)
        == if |windows[n]| == 0 then before
           else if saveOk(n) then (before.0 + [Queued(stamp(n), before.1, fps, resolution, |windows[n]|)], before.1 + 1)
           else (before.0, before.1 + 1)
  {
  }

  /** The next segment id is the number of non-empty windows: it advances
      for every one, saved or not. */
  lemma {:induction false} NextIdCountsWindows(windows: seq<seq<Frame>>, saveOk: nat -> bool, stamp: nat -> DateTime, fps: int, resolution: (int, int))
    requires forall i :: 0 <= i < |windows| ==> ValidDateTime(stamp(i))
    ensures ProcessSegments(windows, saveOk, stamp, fps, resolution).1 == Count(windows, NonEmpty)
    decreases |windows|
  {
    if |windows| > 0 {
      var n := |windows| - 1;
      NextIdCountsWindows(windows[..n], saveOk, stamp, fps, resolution);
      ProcessSegmentsStep(windows, saveOk, stamp, fps, resolution);
      assert windows == windows[..n] + [windows[n]];
      CountSnoc(windows[..n], windows[n], NonEmpty);
    }
  }

  /** The queued segments are in id order: strictly increasing ids below
      the next id, positive frame counts, and the configured fps and
      resolution. */
  lemma {:induction false} QueuedInOrder(windows: seq<seq<Frame>>, saveOk: nat -> bool, stamp: nat -> DateTime, fps: int, resolution: (int, int))
    requires forall i :: 0 <= i < |windows| ==> ValidDateTime(stamp(i))
    ensures var r := ProcessSegments(windows, saveOk, stamp, fps, resolution);
      InOrderBelow(r.0, r.1, fps, resolution)
    decreases |windows|
  {
    if |windows| > 0 {
      var n := |windows| - 1;
      QueuedInOrder(windows[..n], saveOk, stamp, fps, resolution);
      ProcessSegmentsStep(windows, saveOk, stamp, fps, resolution);
      var before := ProcessSegments(windows[..n], saveOk, stamp, fps, resolution);
      if |windows[n]| > 0 && saveOk(n) {
        AppendKeepsOrder(before.0, Queued(stamp(n), before.1, fps, resolution, |windows[n]|), before.1, fps, resolution);
      }
    }
  }

  /** Requests with the given fps and resolution, positive frame counts,
      ids below `bound`, and ids increasing along the queue. */
  predicate InOrderBelow(rs: seq<Request>, bound: nat, fps: int, resolution: (int, int))
  {
    (forall k :: 0 <= k < |rs| ==>
       rs[k].meta.segmentId < bound && rs[k].meta.frameCount > 0
       && rs[k].meta.fps == fps && rs[k].meta.resolution == resolution)
    && (forall k :: 0 < k < |rs| ==> rs[k - 1].meta.segmentId < rs[k].meta.segmentId)
  }

  /** Queueing a request numbered `bound` after requests numbered below it
      keeps the queue in order, now below `bound + 1`. */
  lemma AppendKeepsOrder(rs: seq<Request>, last: Request, bound: nat, fps: int, resolution: (int, int))
    requires InOrderBelow(rs, bound, fps, resolution)
    requires last.meta.segmentId == bound && last.meta.frameCount > 0
    requires last.meta.fps == fps && last.meta.resolution == resolution
    ensures InOrderBelow(rs + [last], bound + 1, fps, resolution)
  {
    var r := rs + [last];
    forall k | 0 < k < |r|
      ensures r[k - 1].meta.segmentId < r[k].meta.segmentId
    {
      assert r[k - 1] == rs[k - 1];
    }
  }

  /** Every window whose frames were saved is queued, so with every save
      succeeding there is one request per non-empty window, numbered
      0, 1, 2, .... */
  lemma {:induction false} AllSavedAllQueued(windows: seq<seq<Frame>>, saveOk: nat -> bool, stamp: nat -> DateTime, fps: int, resolution: (int, int))
    requires forall i :: 0 <= i < |windows| ==> ValidDateTime(stamp(i))
    requires forall i :: 0 <= i < |windows| ==> saveOk(i)
    ensures var r := ProcessSegments(windows, saveOk, stamp, fps, resolution);
      |r.0| == r.1 && forall k :: 0 <= k < |r.0| ==> r.0[k].meta.segmentId == k
    decreases |windows|
  {
    if |windows| > 0 {
      var n := |windows| - 1;
      AllSavedAllQueued(windows[..n], saveOk, stamp, fps, resolution);
      ProcessSegmentsStep(windows, saveOk, stamp, fps, resolution);
    }
  }

  /** The job a queued segment becomes: its metadata carries the segment's
      frame count. */
  lemma QueuedJobCarriesFrameCount(q: RedisList, req: Request, now: real)
    requires ValidDateTime(req.time)
    ensures var job := AddVideoSegment(q, RequestPath(req), Some(AsMetadata(req.meta)), now, true).0[0];
      job.videoPath == RequestPath(req) && job.metadata["frame_count"] == MInt(req.meta.frameCount)
  {
  }
}

=== FILE: insights.dfy ===
/**
 * The insight endpoints (server/app/api/v1/endpoints/insights.py): a
 * summary of the most recent videos, and a recap of today's videos with a
 * timeline sorted by time and a one-line classification of the day.
 *
 * A video is a row of the `videos` table. The list of the user's videos is
 * a parameter; the date "today" is a parameter too.
 */
module Insights {
  import opened Common
  import opened Chrono
  import opened SupabaseClient

  const SummaryWidth: nat := 100
  const RecentErrorPrefix: string := "Error retrieving recent events: "
  const RecapErrorPrefix: string := "Error generating daily recap: "
  const BusyThreshold: nat := 10
  const ModerateThreshold: nat := 5

  /** What fetching the user's videos raises, as written: the client has no
      `get_user_videos` method. */
  const MissingMethodError: string := "'SupabaseManager' object has no attribute 'get_user_videos'"

  /** The message of the TypeError `sorted` raises on keys it cannot
      compare (the type names are left out). */
  const UnorderableKeys: string := "'<' not supported between instances"

  /** The result of fetching the user's videos. */
  datatype Fetch = Fetched(videos: seq<Row>) | FetchRaised(message: string)

  /** Python truthiness of a column value. */
  predicate Truthy(v: Value)
  {
    match v
    case VText(s) => s != ""
    case VInt(n) => n != 0
    case VNull => false
  }

  /** `str(v)` */
  function ValueText(v: Value): string
  {
    match v
    case VText(s) => s
    case VInt(n) => IntToString(n)
    case VNull => "None"
  }

  /** `"\n".join(lines)` */
  function JoinLines(lines: seq<string>): string
    decreases |lines|
  {
    if |lines| == 0 then "" else if |lines| == 1 then lines[0] else lines[0] + "\n" + JoinLines(lines[1..])
  }

  // -----------------------------------------------------------------------
  // Recent events
  // -----------------------------------------------------------------------

  /** `video.get('timestamp', video.get('datetime', 'Unknown time'))` */
  function DisplayStamp(v: Row): Value
  {
    if "timestamp" in v then v["timestamp"] else if "datetime" in v then v["datetime"] else VText("Unknown time")
  }

  predicate HasSummary(v: Row)
  {
    "detailed_summary" in v && Truthy(v["detailed_summary"])
  }

  /** Slicing a non-text summary raises. */
  predicate SummaryIsText(v: Row)
  {
    HasSummary(v) ==> v["detailed_summary"].VText?
  }

  /** One line of the recent summary, for the video at 1-based position
      `i`: its time and the first 100 characters of its summary. */
  function RecentLine(i: nat, v: Row): string
    requires HasSummary(v) && SummaryIsText(v)
  {
    NatToString(i) + ". " + ValueText(DisplayStamp(v)) + ": " + Take(v["detailed_summary"].text, SummaryWidth) + "..."
  }

  /** The lines for `videos`, the first of which sits at position `start`;
      videos without a summary get no line but keep their number. */
  function RecentLines(videos: seq<Row>, start: nat): (r: seq<string>)
    requires forall i :: 0 <= i < |videos| ==> SummaryIsText(videos[i])
    ensures |r| == Count(videos, HasSummary)
    decreases |videos|
  {
    if |videos| == 0 then []
    else
      var rest := RecentLines(videos[1..], start + 1);
      if HasSummary(videos[0]) then [RecentLine(start, videos[0])] + rest else rest
  }

  datatype RecentResult =
    | RecentEvents(message: string, events: seq<Row>, summary: string)
    | RecentError(detail: string)

  /** `get_recent_events`, given what the fetch of the user's five most
      recent videos returned. */
  function GetRecentEvents(fetch: Fetch): (r: RecentResult)
    ensures fetch.FetchRaised? ==> r == RecentError(RecentErrorPrefix + fetch.message)
    ensures fetch.Fetched? && fetch.videos == [] ==>
      r == RecentEvents("No recent events found", [], "No activities recorded recently.")
    ensures fetch.Fetched? && fetch.videos != [] && (forall i :: 0 <= i < |fetch.videos| ==> SummaryIsText(fetch.videos[i])) ==>
      r.RecentEvents? && r.events == fetch.videos
      && r.message == "Found " + NatToString(|fetch.videos|) + " recent events"
    ensures r.RecentError? ==> StartsWith(r.detail, RecentErrorPrefix)
  {
    match fetch
    case FetchRaised(e) => RecentError(RecentErrorPrefix + e)
    case Fetched(videos) =>
      if videos == [] then RecentEvents("No recent events found", [], "No activities recorded recently.")
      else if exists i :: 0 <= i < |videos| && !SummaryIsText(videos[i]) then
        RecentError(RecentErrorPrefix + "'int' object is not subscriptable")
      else
        var header := "Recent activity summary (" + NatToString(|videos|) + " events):\n";
        RecentEvents("Found " + NatToString(|videos|) + " recent events", videos, header + JoinLines(RecentLines(videos, 1)))
  }

  /** The summary numbers videos by their position in the whole list: when
      every video has a summary, the k-th line is the line for video k,
      numbered k + 1. */
  lemma {:induction false} RecentLinesNumbered(videos: seq<Row>, start: nat)
    requires forall i :: 0 <= i < |videos| ==> HasSummary(videos[i]) && SummaryIsText(videos[i])
    ensures |RecentLines(videos, start)| == |videos|
    ensures forall k :: 0 <= k < |videos| ==> RecentLines(videos, start)[k] == RecentLine(start + k, videos[k])
    decreases |videos|
  {
    if |videos| > 0 {
      RecentLinesNumbered(videos[1..], start + 1);
    }
  }

  // -----------------------------------------------------------------------
  // Daily recap: which videos are today's
  // -----------------------------------------------------------------------

  /** The date one field yields, when it is truthy and parses. */
  function FieldDate(v: Row, field: string): Option<Date>
  {
    if field in v && Truthy(v[field]) && v[field].VText? then
      match FromIsoFormat(ExpandZulu(v[field].text))
      case Some(t) => Some(t.date)
      case None => None
    else None
  }

  /** A video's date: from the first of timestamp, datetime and
      processed_at that is truthy and parses. */
  function VideoDate(v: Row): (r: Option<Date>)
    ensures FieldDate(v, "timestamp").Some? ==> r == FieldDate(v, "timestamp")
    ensures FieldDate(v, "timestamp").None? && FieldDate(v, "datetime").Some? ==> r == FieldDate(v, "datetime")
    ensures FieldDate(v, "timestamp").None? && FieldDate(v, "datetime").None? ==> r == FieldDate(v, "processed_at")
  {
    if FieldDate(v, "timestamp").Some? then FieldDate(v, "timestamp")
    else if FieldDate(v, "datetime").Some? then FieldDate(v, "datetime")
    else FieldDate(v, "processed_at")
  }

  /** Whether a video is dated `day`. */
  predicate DatedOn(v: Row, day: Date)
  {
    VideoDate(v) == Some(day)
  }

  function IsOn(today: Date): Row -> bool
  {
    (v: Row) => DatedOn(v, today)
  }

  /** The videos dated `today`, in their original order. */
  function TodayVideos(videos: seq<Row>, today: Date): (r: seq<Row>)
    ensures |r| == Count(videos, IsOn(today))
    ensures forall i :: 0 <= i < |r| ==> DatedOn(r[i], today)
    ensures forall x :: x in r ==> x in videos
  {
    Filter(videos, IsOn(today))
  }

  /** A video is kept exactly when it is dated today. */
  lemma TodayVideosKeeps(videos: seq<Row>, today: Date, v: Row)
    requires v in videos
    ensures v in TodayVideos(videos, today) <==> DatedOn(v, today)
  {
    FilterKeeps(videos, IsOn(today), v);
  }

  // -----------------------------------------------------------------------
  // Daily recap: the timeline order
  // -----------------------------------------------------------------------

  /** `x.get('timestamp', x.get('datetime', ''))` */
  function SortKey(v: Row): Value
  {
    if "timestamp" in v then v["timestamp"] else if "datetime" in v then v["datetime"] else VText("")
  }

  /** Python's `<=` on strings: lexicographic by code point. */
  predicate StrLe(a: string, b: string)
    decreases |a|
  {
    |a| == 0 || (|b| > 0 && (a[0] < b[0] || (a[0] == b[0] && StrLe(a[1..], b[1..]))))
  }

  lemma {:induction false} StrLeTotal(a: string, b: string)
    ensures StrLe(a, b) || StrLe(b, a)
    decreases |a|
  {
    if |a| > 0 && |b| > 0 && a[0] == b[0] {
      StrLeTotal(a[1..], b[1..]);
    }
  }

  lemma {:induction false} StrLeTrans(a: string, b: string, c: string)
    requires StrLe(a, b) && StrLe(b, c)
    ensures StrLe(a, c)
    decreases |a|
  {
    if |a| > 0 && a[0] == b[0] && b[0] == c[0] {
      StrLeTrans(a[1..], b[1..], c[1..]);
    }
  }

  /** `<=` on sort keys of one kind; keys of different kinds, and nulls,
      do not compare. */
  predicate KeyLe(a: Value, b: Value)
  {
    match (a, b)
    case (VText(s), VText(t)) => StrLe(s, t)
    case (VInt(m), VInt(n)) => m <= n
    case _ => false
  }

  /** All sort keys are text, or all are numbers: then `sorted` can compare
      them. */
  predicate OneKind(s: seq<Row>)
  {
    (forall i :: 0 <= i < |s| ==> SortKey(s[i]).VText?) || (forall i :: 0 <= i < |s| ==> SortKey(s[i]).VInt?)
  }

  /** Whether `sorted` succeeds: a list of at most one element needs no
      comparison. */
  predicate Orderable(s: seq<Row>)
  {
    |s| <= 1 || OneKind(s)
  }

  lemma KeyLeTotal(a: Value, b: Value)
    requires (a.VText? && b.VText?) || (a.VInt? && b.VInt?)
    ensures KeyLe(a, b) || KeyLe(b, a)
  {
    if a.VText? {
      StrLeTotal(a.text, b.text);
    }
  }

  lemma KeyLeTrans(a: Value, b: Value, c: Value)
    requires KeyLe(a, b) && KeyLe(b, c)
    ensures KeyLe(a, c)
  {
    if a.VText? {
      StrLeTrans(a.text, b.text, c.text);
    }
  }

  predicate SortedByKey(s: seq<Row>)
  {
    forall i, j :: 0 <= i < j < |s| ==> KeyLe(SortKey(s[i]), SortKey(s[j]))
  }

  predicate SameKindAs(v: Row, s: seq<Row>)
  {
    forall i :: 0 <= i < |s| ==> (SortKey(v).VText? <==> SortKey(s[i]).VText?) && (SortKey(v).VInt? <==> SortKey(s[i]).VInt?)
  }

  /** Inserts `x` into a sorted list after every element whose key is not
      greater, which keeps equal keys in arrival order. */
  function InsertByKey(x: Row, s: seq<Row>): (r: seq<Row>)
    ensures multiset(r) == multiset(s) + multiset{x}
    ensures |r| == |s| + 1
    decreases |s|
  {
    if |s| == 0 then [x]
    else if KeyLe(SortKey(s[0]), SortKey(x)) then
      assert s == [s[0]] + s[1..];
      [s[0]] + InsertByKey(x, s[1..])
    else [x] + s
  }

  lemma {:induction false} InsertKeepsSorted(x: Row, s: seq<Row>)
    requires SortedByKey(s) && SameKindAs(x, s) && (SortKey(x).VText? || SortKey(x).VInt?)
    ensures SortedByKey(InsertByKey(x, s))
    decreases |s|
  {
    if |s| > 0 {
      if KeyLe(SortKey(s[0]), SortKey(x)) {
        InsertKeepsSorted(x, s[1..]);
        InsertLowerBound(SortKey(s[0]), x, s[1..]);
        var tail := InsertByKey(x, s[1..]);
        assert InsertByKey(x, s) == [s[0]] + tail;
        ConsKeepsSorted(s[0], tail);
      } else {
        KeyLeTotal(SortKey(s[0]), SortKey(x));
        forall j | 0 <= j < |s|
          ensures KeyLe(SortKey(x), SortKey(s[j]))
        {
          if j > 0 {
            KeyLeTrans(SortKey(x), SortKey(s[0]), SortKey(s[j]));
          }
        }
        ConsKeepsSorted(x, s);
      }
    }
  }

  /** A sorted list stays sorted with a head whose key is below every key
      in it. */
  lemma ConsKeepsSorted(x: Row, s: seq<Row>)
    requires SortedByKey(s) && forall j :: 0 <= j < |s| ==> KeyLe(SortKey(x), SortKey(s[j]))
    ensures SortedByKey([x] + s)
  {
    var r := [x] + s;
    forall i, j | 0 <= i < j < |r|
      ensures KeyLe(SortKey(r[i]), SortKey(r[j]))
    {
      assert r[j] == s[j - 1];
      if i > 0 {
        assert r[i] == s[i - 1];
      }
    }
  }

  /** A key below `x` and below every element stays below every element
      after `x` is inserted. */
  lemma {:induction false} InsertLowerBound(b: Value, x: Row, s: seq<Row>)
    requires KeyLe(b, SortKey(x)) && forall i :: 0 <= i < |s| ==> KeyLe(b, SortKey(s[i]))
    ensures forall j :: 0 <= j < |InsertByKey(x, s)| ==> KeyLe(b, SortKey(InsertByKey(x, s)[j]))
    decreases |s|
  {
    if |s| > 0 && KeyLe(SortKey(s[0]), SortKey(x)) {
      InsertLowerBound(b, x, s[1..]);
      assert InsertByKey(x, s) == [s[0]] + InsertByKey(x, s[1..]);
    }
  }

  /** Python's stable `sorted` by `SortKey`, on a list it can order. */
  function SortByKey(s: seq<Row>): (r: seq<Row>)
    ensures multiset(r) == multiset(s) && |r| == |s|
    decreases |s|
  {
    if |s| == 0 then []
    else
      assert s == s[..|s| - 1] + [s[|s| - 1]];
      InsertByKey(s[|s| - 1], SortByKey(s[..|s| - 1]))
  }

  /** The timeline is ordered: sorting a list whose keys are all of one
      kind yields a permutation of it in key order. */
  lemma {:induction false} SortByKeySorts(s: seq<Row>)
    requires OneKind(s)
    ensures SortedByKey(SortByKey(s))
    ensures multiset(SortByKey(s)) == multiset(s)
    decreases |s|
  {
    if |s| > 0 {
      var init := s[..|s| - 1];
      var x := s[|s| - 1];
      assert OneKind(init);
      SortByKeySorts(init);
      var sorted := SortByKey(init);
      forall i | 0 <= i < |sorted|
        ensures (SortKey(x).VText? <==> SortKey(sorted[i]).VText?) && (SortKey(x).VInt? <==> SortKey(sorted[i]).VInt?)
      {
        assert sorted[i] in multiset(init);
        var k :| 0 <= k < |init| && init[k] == sorted[i];
        assert s[k] == sorted[i];
      }
      InsertKeepsSorted(x, sorted);
    }
  }

  // -----------------------------------------------------------------------
  // Daily recap: the text
  // -----------------------------------------------------------------------

  const MonthNames: seq<string> := ["January", "February", "March", "April", "May", "June", "July",
                                    "August", "September", "October", "November", "December"]

  /** `date.strftime('%B %d, %Y')` */
  function LongDate(d: Date): string
    requires ValidDate(d)
  {
    MonthNames[d.month - 1] + " " + ZeroPad(d.day, 2) + ", " + NatToString(d.year)
  }

  /** `dt.strftime('%I:%M %p')` */
  function Clock12(t: DateTime): (r: string)
    requires ValidDateTime(t)
    ensures |r| == 8 && r[2] == ':' && r[5] == ' '
    ensures IsDigit(r[0]) && IsDigit(r[1]) && IsDigit(r[3]) && IsDigit(r[4])
    ensures r[6..] == "AM" <==> t.hour < 12
  {
    ZeroPadLength(if t.hour % 12 == 0 then 12 else t.hour % 12, 2);
    ZeroPadLength(t.minute, 2);
    ZeroPad(if t.hour % 12 == 0 then 12 else t.hour % 12, 2) + ":" + ZeroPad(t.minute, 2) + " "
    + (if t.hour < 12 then "AM" else "PM")
  }

  /** The time shown for a timeline entry. */
  function TimeText(v: Row): string
  {
    match DisplayStamp(v)
    case VText(s) =>
      (match FromIsoFormat(ExpandZulu(s))
       case Some(t) => Clock12(t)
       case None => s)
    case other => ValueText(other)
  }

  /** `video.get('detailed_summary', 'No summary available')` */
  function SummaryText(v: Row): string
  {
    if "detailed_summary" in v then ValueText(v["detailed_summary"]) else "No summary available"
  }

  function TimelineLines(s: seq<Row>): (r: seq<string>)
    ensures |r| == |s|
    ensures forall i :: 0 <= i < |s| ==> r[i] == TimeText(s[i]) + ": " + SummaryText(s[i])
  {
    seq(|s|, i requires 0 <= i < |s| => TimeText(s[i]) + ": " + SummaryText(s[i]))
  }

  datatype Activity = Busy | Moderate | Quiet

  /** The day's classification by its number of events. */
  function Classify(n: nat): (r: Activity)
    ensures r == Busy <==> n >= BusyThreshold
    ensures r == Moderate <==> ModerateThreshold <= n < BusyThreshold
    ensures r == Quiet <==> n < ModerateThreshold
  {
    if n >= BusyThreshold then Busy else if n >= ModerateThreshold then Moderate else Quiet
  }

  function ActivityLine(a: Activity): string
  {
    match a
    case Busy => "It was quite a busy day with lots of activities!"
    case Moderate => "You had a moderately active day."
    case Quiet => "It was a relatively quiet day."
  }

  datatype RecapResult =
    | Recap(date: string, message: string, eventsCount: nat, events: seq<Row>, lines: seq<string>)
    | RecapError(detail: string)

  /** The recap text: `lines` joined with newlines. */
  function DailyRecapText(r: RecapResult): string
    requires r.Recap?
  {
    JoinLines(r.lines)
  }

  /** The recap lines for a non-empty day: a four-line heading, one
      timeline line per event in time order, and a four-line day summary
      ending in the classification. */
  function RecapLines(events: seq<Row>, today: Date): (r: seq<string>)
    requires ValidDate(today) && |events| > 0
    ensures |r| == |events| + 8
    ensures r[4..4 + |events|] == TimelineLines(SortByKey(events))
    ensures r[|r| - 1] == ActivityLine(Classify(|events|))
  {
    var n := |events|;
    var head := ["Daily Recap for " + LongDate(today) + ":", "Total events recorded: " + NatToString(n), "", "Event Timeline:"];
    var tail := ["", "Day Summary:", "You had " + NatToString(n) + " recorded activities today. ", ActivityLine(Classify(n))];
    var timeline := TimelineLines(SortByKey(events));
    ConcatMiddle(head, timeline, tail);
    head + timeline + tail
  }

  /** The recap of a day without events. */
  function QuietRecap(today: Date): RecapResult
    requires ValidDate(today)
  {
    Recap(FormatDate(today), "No events recorded today", 0, [],
          ["No activities were recorded for " + LongDate(today) + ". It was a quiet day!"])
  }

  /** `get_daily_recap` for the date `today`. */
  function GetDailyRecap(fetch: Fetch, today: Date): (r: RecapResult)
    requires ValidDate(today)
    ensures fetch.FetchRaised? ==> r == RecapError(RecapErrorPrefix + fetch.message)
    ensures r.RecapError? ==> StartsWith(r.detail, RecapErrorPrefix)
    ensures fetch.Fetched? ==> (r.Recap? <==> Orderable(TodayVideos(fetch.videos, today)))
    ensures r.Recap? ==> r.date == FormatDate(today) && r.events == TodayVideos(fetch.videos, today)
                         && r.eventsCount == |r.events| == Count(fetch.videos, IsOn(today))
    ensures r.Recap? && r.eventsCount == 0 ==> r.events == [] && r.message == "No events recorded today"
    ensures r.Recap? && r.eventsCount > 0 ==> r.lines == RecapLines(r.events, today)
  {
    match fetch
    case FetchRaised(e) => ErrorStartsWithPrefix(e); RecapError(RecapErrorPrefix + e)
    case Fetched(videos) => RecapOf(TodayVideos(videos, today), today)
  }

  /** The recap of the given day's events: an error when their keys cannot
      be ordered, the quiet recap without events, and otherwise the count,
      the events and their lines. */
  function RecapOf(events: seq<Row>, today: Date): (r: RecapResult)
    requires ValidDate(today)
    ensures r.RecapError? <==> !Orderable(events)
    ensures r.RecapError? ==> StartsWith(r.detail, RecapErrorPrefix)
    ensures r.Recap? ==> r.date == FormatDate(today) && r.events == events && r.eventsCount == |events|
    ensures r.Recap? && |events| == 0 ==> r.message == "No events recorded today"
    ensures r.Recap? && |events| > 0 ==> r.lines == RecapLines(events, today)
  {
    var n := |events|;
    if !Orderable(events) then ErrorStartsWithPrefix(UnorderableKeys); RecapError(RecapErrorPrefix + UnorderableKeys)
    else if n == 0 then QuietRecap(today)
    else Recap(FormatDate(today), "Found " + NatToString(n) + " events for today", n, events, RecapLines(events, today))
  }

  lemma ErrorStartsWithPrefix(e: string)
    ensures StartsWith(RecapErrorPrefix + e, RecapErrorPrefix)
  {
    assert (RecapErrorPrefix + e)[..|RecapErrorPrefix|] == RecapErrorPrefix;
  }

  /** The timeline of a recap lists exactly today's videos, in time order. */
  lemma RecapTimelineOrdered(fetch: Fetch, today: Date)
    requires ValidDate(today) && fetch.Fetched?
    requires GetDailyRecap(fetch, today).Recap?
    ensures var events := GetDailyRecap(fetch, today).events;
      multiset(SortByKey(events)) == multiset(TodayVideos(fetch.videos, today))
      && (|events| > 1 ==> SortedByKey(SortByKey(events)))
  {
    var events := GetDailyRecap(fetch, today).events;
    if |events| > 1 {
      SortByKeySorts(events);
    }
  }

  /** As written the video list cannot be fetched, so both endpoints answer
      500. */
  lemma AsWrittenBothFail(today: Date)
    requires ValidDate(today)
    ensures GetRecentEvents(FetchRaised(MissingMethodError)).RecentError?
    ensures GetDailyRecap(FetchRaised(MissingMethodError), today).RecapError?
  {
  }
}

=== FILE: memory_models.dfy ===
/**
 * The records of the memory store (server/app/models/memory.py).
 *
 * A `MemoryPoint` is built from the fields a caller gives: the required
 * ones must be there, the others take their defaults. UUIDs are their
 * canonical text, timestamps naive date-times, metadata a map of strings,
 * and the fresh UUID the `id` default draws is a parameter.
 */
module MemoryModels {
  import opened Common
  import opened Chrono

  type Uuid = string

  /** The content types the field documents. */
  const DocumentedContentTypes: seq<string> := ["video", "audio", "text", "interaction"]

  type Metadata = map<string, string>

  datatype MemoryPoint = MemoryPoint(
    id: Uuid, userId: Uuid, content: string, contentType: string, timestamp: DateTime,
    metadata: Metadata, tags: seq<string>, sourceId: Option<string>, embedding: Option<seq<real>>)

  datatype MemorySearchResult = MemorySearchResult(id: Uuid, videoId: string, timestamp: DateTime, score: real)

  /** The keyword arguments of a `MemoryPoint(...)` call: None is a field
      left out. */
  datatype MemoryPointFields = MemoryPointFields(
    id: Option<Uuid>, userId: Option<Uuid>, content: Option<string>, contentType: Option<string>,
    timestamp: Option<DateTime>, metadata: Option<Metadata>, tags: Option<seq<string>>,
    sourceId: Option<string>, embedding: Option<seq<real>>)

  /** The required fields: user, content, content type and timestamp. */
  predicate HasRequired(f: MemoryPointFields)
  {
    f.userId.Some? && f.content.Some? && f.contentType.Some? && f.timestamp.Some?
  }

  /** Validation of a `MemoryPoint`: None when a required field is missing;
      otherwise the given values, with a missing id replaced by
      `freshId`, missing metadata by {}, missing tags by [], and a missing
      source or embedding left None. */
  function BuildMemoryPoint(f: MemoryPointFields, freshId: Uuid): (r: Option<MemoryPoint>)
    ensures r.Some? <==> HasRequired(f)
    ensures r.Some? ==> r.value.userId == f.userId.value && r.value.content == f.content.value
                        && r.value.contentType == f.contentType.value && r.value.timestamp == f.timestamp.value
    ensures r.Some? ==> r.value.id == (if f.id.Some? then f.id.value else freshId)
    ensures r.Some? ==> r.value.metadata == (if f.metadata.Some? then f.metadata.value else map[])
    ensures r.Some? ==> r.value.tags == (if f.tags.Some? then f.tags.value else [])
    ensures r.Some? ==> r.value.sourceId == f.sourceId && r.value.embedding == f.embedding
  {
    if !HasRequired(f) then None
    else Some(MemoryPoint(
      if f.id.Some? then f.id.value else freshId,
      f.userId.value, f.content.value, f.contentType.value, f.timestamp.value,
      if f.metadata.Some? then f.metadata.value else map[],
      if f.tags.Some? then f.tags.value else [],
      f.sourceId, f.embedding))
  }

  /** The fields of a point, all given. */
  function FieldsOf(m: MemoryPoint): MemoryPointFields
  {
    MemoryPointFields(Some(m.id), Some(m.userId), Some(m.content), Some(m.contentType), Some(m.timestamp),
                      Some(m.metadata), Some(m.tags), m.sourceId, m.embedding)
  }

  /** Round trip: a point rebuilt from its own fields is itself, whatever
      fresh id is on offer. */
  lemma RebuildIsIdentity(m: MemoryPoint, freshId: Uuid)
    ensures BuildMemoryPoint(FieldsOf(m), freshId) == Some(m)
  {
  }

  /** With only the required fields given, a point takes every default:
      the fresh id, no metadata, no tags, no source and no embedding. */
  lemma DefaultsOnly(userId: Uuid, content: string, contentType: string, timestamp: DateTime, freshId: Uuid)
    ensures BuildMemoryPoint(MemoryPointFields(None, Some(userId), Some(content), Some(contentType), Some(timestamp),
                                               None, None, None, None), freshId)
            == Some(MemoryPoint(freshId, userId, content, contentType, timestamp, map[], [], None, None))
  {
  }
}

=== FILE: memory_schemas.dfy ===
/**
 * Request and response bodies of the memory API
 * (server/app/schemas/memory.py), with the validation each request
 * applies: required fields, minimum lengths, numeric bounds and defaults.
 * A request field is absent, JSON null, or given; validation yields the
 * request or None for a validation error.
 */
module MemorySchemas {
  import opened Common
  import opened Chrono
  import opened MemoryModels

  /** How a field appears in a request body. */
  datatype Field<T> = Absent | Null | Given(value: T)

  const DefaultLimit: int := 10
  const MaxLimit: int := 100
  const DefaultThreshold: real := 0.01

  datatype MemoryCreateRequest = MemoryCreateRequest(
    content: string, contentType: string, metadata: Metadata, tags: seq<string>, sourceId: Option<string>)

  datatype MemorySearchRequest = MemorySearchRequest(
    query: string, limit: int, contentTypes: Option<seq<string>>, tags: Option<seq<string>>,
    dateFrom: Option<DateTime>, dateTo: Option<DateTime>, scoreThreshold: Option<real>)

  datatype ChatbotQueryRequest = ChatbotQueryRequest(userInput: string, confidenceThreshold: Option<real>)

  datatype MemorySearchResponse = MemorySearchResponse(results: seq<Metadata>, totalFound: int, query: string, searchTimeMs: real)

  datatype ChatbotQueryResponse = ChatbotQueryResponse(
    originalInput: string, refinedQuery: string, videoFound: bool, aiResponse: Option<string>,
    videoId: Option<string>, timestamp: Option<string>, summary: Option<string>, confidenceScore: Option<real>,
    processingTimeMs: real)

  datatype MemoryResponse = MemoryResponse(
    id: Uuid, content: string, contentType: string, timestamp: DateTime, metadata: Metadata, tags: seq<string>,
    sourceId: Option<string>)

  datatype MemoryDeleteRequest = MemoryDeleteRequest(memoryIds: seq<Uuid>)

  datatype MemoryDeleteResponse = MemoryDeleteResponse(deletedCount: int, failedCount: int, errors: seq<string>)

  /** A required string of at least one character. */
  function NonEmptyText(f: Field<string>): (r: Option<string>)
    ensures r.Some? <==> f.Given? && |f.value| >= 1
    ensures r.Some? ==> r.value == f.value
  {
    if f.Given? && |f.value| >= 1 then Some(f.value) else None
  }

  /** An optional field whose default is None. */
  function OrNone<T>(f: Field<T>): (r: Option<T>)
    ensures f.Given? <==> r.Some?
    ensures r.Some? ==> r.value == f.value
  {
    if f.Given? then Some(f.value) else None
  }

  /** A threshold: 0.01 when absent, None when null, and a given value
      only within [0, 1]. The outer None is a validation error. */
  function Threshold(f: Field<real>): (r: Option<Option<real>>)
    ensures f.Absent? ==> r == Some(Some(DefaultThreshold))
    ensures f.Null? ==> r == Some(None)
    ensures f.Given? ==> (r.Some? <==> 0.0 <= f.value <= 1.0)
    ensures r.Some? && r.value.Some? ==> 0.0 <= r.value.value <= 1.0
  {
    match f
    case Absent => Some(Some(DefaultThreshold))
    case Null => Some(None)
    case Given(x) => if 0.0 <= x <= 1.0 then Some(Some(x)) else None
  }

  /** `MemoryCreateRequest`: the content must have at least one character
      and the content type must be given; metadata defaults to {}, tags to
      [], the source to None. */
  function ValidateCreate(content: Field<string>, contentType: Field<string>, metadata: Field<Metadata>,
                          tags: Field<seq<string>>, sourceId: Field<string>): (r: Option<MemoryCreateRequest>)
    ensures r.Some? <==> NonEmptyText(content).Some? && contentType.Given? && !metadata.Null? && !tags.Null?
    ensures r.Some? ==> |r.value.content| >= 1 && r.value.content == content.value && r.value.contentType == contentType.value
    ensures r.Some? ==> r.value.metadata == (if metadata.Given? then metadata.value else map[])
    ensures r.Some? ==> r.value.tags == (if tags.Given? then tags.value else [])
    ensures r.Some? ==> r.value.sourceId == OrNone(sourceId)
  {
    if NonEmptyText(content).None? || !contentType.Given? || metadata.Null? || tags.Null? then None
    else Some(MemoryCreateRequest(content.value, contentType.value,
                                  if metadata.Given? then metadata.value else map[],
                                  if tags.Given? then tags.value else [],
                                  OrNone(sourceId)))
  }

  /** `MemorySearchRequest`: a non-empty query, a limit of 10 by default and
      within [1, 100] when given, a threshold as `Threshold`, and the four
      filters None by default. */
  function ValidateSearch(query: Field<string>, limit: Field<int>, contentTypes: Field<seq<string>>, tags: Field<seq<string>>,
                          dateFrom: Field<DateTime>, dateTo: Field<DateTime>, scoreThreshold: Field<real>): (r: Option<MemorySearchRequest>)
    ensures r.Some? <==> NonEmptyText(query).Some? && !limit.Null? && (limit.Given? ==> 1 <= limit.value <= MaxLimit)
                         && Threshold(scoreThreshold).Some?
    ensures r.Some? ==> |r.value.query| >= 1 && 1 <= r.value.limit <= MaxLimit
    ensures r.Some? ==> r.value.limit == (if limit.Given? then limit.value else DefaultLimit)
    ensures r.Some? ==> r.value.scoreThreshold == Threshold(scoreThreshold).value
    ensures r.Some? ==> r.value.contentTypes == OrNone(contentTypes) && r.value.tags == OrNone(tags)
                        && r.value.dateFrom == OrNone(dateFrom) && r.value.dateTo == OrNone(dateTo)
  {
    if NonEmptyText(query).None? || limit.Null? || (limit.Given? && !(1 <= limit.value <= MaxLimit))
       || Threshold(scoreThreshold).None? then None
    else Some(MemorySearchRequest(query.value, if limit.Given? then limit.value else DefaultLimit,
                                  OrNone(contentTypes), OrNone(tags), OrNone(dateFrom), OrNone(dateTo),
                                  Threshold(scoreThreshold).value))
  }

  /** `ChatbotQueryRequest`: a non-empty input and a threshold as
      `Threshold`. */
  function ValidateChatbot(userInput: Field<string>, confidenceThreshold: Field<real>): (r: Option<ChatbotQueryRequest>)
    ensures r.Some? <==> NonEmptyText(userInput).Some? && Threshold(confidenceThreshold).Some?
    ensures r.Some? ==> |r.value.userInput| >= 1 && r.value.userInput == userInput.value
    ensures r.Some? ==> r.value.confidenceThreshold == Threshold(confidenceThreshold).value
  {
    if NonEmptyText(userInput).None? || Threshold(confidenceThreshold).None? then None
    else Some(ChatbotQueryRequest(userInput.value, Threshold(confidenceThreshold).value))
  }

  /** `MemoryDeleteResponse` with `errors` left to its default. */
  function DeleteResponse(deleted: int, failed: int, errors: Field<seq<string>>): (r: Option<MemoryDeleteResponse>)
    ensures r.Some? <==> !errors.Null?
    ensures errors.Absent? ==> r == Some(MemoryDeleteResponse(deleted, failed, []))
    ensures errors.Given? ==> r == Some(MemoryDeleteResponse(deleted, failed, errors.value))
  {
    match errors
    case Absent => Some(MemoryDeleteResponse(deleted, failed, []))
    case Null => None
    case Given(e) => Some(MemoryDeleteResponse(deleted, failed, e))
  }

  /** A search with only a query takes every default: limit 10, threshold
      0.01, no filters. The query is checked for length only, so a query of
      one space passes. */
  lemma SearchDefaults(q: string)
    requires |q| >= 1
    ensures ValidateSearch(Given(q), Absent, Absent, Absent, Absent, Absent, Absent)
            == Some(MemorySearchRequest(q, DefaultLimit, None, None, None, None, Some(DefaultThreshold)))
    ensures ValidateSearch(Given(" "), Absent, Absent, Absent, Absent, Absent, Absent).Some?
  {
  }

  /** The limit bounds are inclusive: 1 and 100 pass, 0 and 101 fail. */
  lemma LimitBounds(q: string)
    requires |q| >= 1
    ensures ValidateSearch(Given(q), Given(1), Absent, Absent, Absent, Absent, Absent).Some?
    ensures ValidateSearch(Given(q), Given(100), Absent, Absent, Absent, Absent, Absent).Some?
    ensures ValidateSearch(Given(q), Given(0), Absent, Absent, Absent, Absent, Absent).None?
    ensures ValidateSearch(Given(q), Given(101), Absent, Absent, Absent, Absent, Absent).None?
    ensures ValidateSearch(Given(""), Absent, Absent, Absent, Absent, Absent, Absent).None?
  {
  }
}

=== FILE: performance_optimizer.dfy ===
/**
 * The pipeline performance monitor (server/performance_optimizer.py).
 *
 * The monitor keeps four metric histories, each trimmed to its newest 100
 * entries; every cycle it appends a queue sample and a utilisation sample,
 * then checks three rules over the newest samples. The report averages the
 * newest samples and turns them into recommendations. The clock, the queue
 * size and the worker statistics are parameters; the log lines are left
 * out.
 */
module PerformanceOptimizer {
  import opened Common
  import opened WorkerManager

  /** How many entries each history keeps. */
  const HistoryLimit: nat := 100

  /** The windows the three rules look at. */
  const QueueWindow: nat := 5
  const UtilizationWindow: nat := 3
  const ProcessingWindow: nat := 10

  /** The window the report averages over. */
  const ReportWindow: nat := 10

  /** The issues the analysis can report, each with the name it is
      reported and looked up under. */
  datatype Issue = QueueBuildup | LowUtilization | SlowProcessing
  {
    function Name(): string
    {
      match this
      case QueueBuildup => "queue_buildup"
      case LowUtilization => "low_utilization"
      case SlowProcessing => "slow_processing"
    }
  }

  const NoMetricsError: string := "No metrics collected yet"

  datatype QueueSample = QueueSample(timestamp: real, size: int)

  datatype UtilizationSample = UtilizationSample(timestamp: real, activeWorkers: int, totalWorkers: int, utilization: real)

  /** The four histories of `self.metrics`. */
  datatype Metrics = Metrics(
    queueSizeHistory: seq<QueueSample>, processingTimes: seq<real>,
    workerUtilization: seq<UtilizationSample>, throughputHistory: seq<real>)

  const EmptyMetrics: Metrics := Metrics([], [], [], [])

  /** Every history is within its limit. */
  predicate Bounded(m: Metrics)
  {
    |m.queueSizeHistory| <= HistoryLimit && |m.processingTimes| <= HistoryLimit
    && |m.workerUtilization| <= HistoryLimit && |m.throughputHistory| <= HistoryLimit
  }

  function Min(a: nat, b: nat): nat
  {
    if a <= b then a else b
  }

  /** Python's `s[-n:]`: the newest `n` entries, or all of them. */
  function Newest<T>(s: seq<T>, n: nat): (r: seq<T>)
    ensures |r| == Min(n, |s|)
    ensures forall i :: 0 <= i < |r| ==> r[i] == s[|s| - |r| + i]
  {
    if |s| <= n then s else s[|s| - n..]
  }

  /** The trimming step: a history longer than the limit keeps its newest
      100 entries; a shorter one is kept as it is. */
  function Trim<T>(s: seq<T>): (r: seq<T>)
    ensures |r| == Min(HistoryLimit, |s|)
    ensures |s| <= HistoryLimit ==> r == s
    ensures forall i :: 0 <= i < |r| ==> r[i] == s[|s| - |r| + i]
  {
    if |s| > HistoryLimit then Newest(s, HistoryLimit) else s
  }

  function TrimAll(m: Metrics): (r: Metrics)
    ensures Bounded(r)
  {
    Metrics(Trim(m.queueSizeHistory), Trim(m.processingTimes), Trim(m.workerUtilization), Trim(m.throughputHistory))
  }

  /** `_collect_metrics`: the queue sample is appended first; then the
      worker statistics are read (None when that call raises) and the
      utilisation sample appended, which divides by the worker total. If
      either step raises, the error is logged and the histories are left
      untrimmed, the queue sample already in place. */
  function CollectMetrics(m: Metrics, now: real, queueSize: int, stats: Option<WorkerStats>): (r: Metrics)
    ensures r.queueSizeHistory != [] && r.queueSizeHistory[|r.queueSizeHistory| - 1] == QueueSample(now, queueSize)
    ensures r.processingTimes == Trim(m.processingTimes) || r.processingTimes == m.processingTimes
    ensures stats.Some? && stats.value.totalWorkers != 0 ==>
      Bounded(r) && r.workerUtilization != [] && r.workerUtilization[|r.workerUtilization| - 1]
        == UtilizationSample(now, stats.value.activeWorkers, stats.value.totalWorkers,
                             stats.value.activeWorkers as real / stats.value.totalWorkers as real)
    ensures stats.None? || stats.value.totalWorkers == 0 ==>
      r == m.(queueSizeHistory := m.queueSizeHistory + [QueueSample(now, queueSize)])
  {
    var withQueue := m.(queueSizeHistory := m.queueSizeHistory + [QueueSample(now, queueSize)]);
    if stats.None? || stats.value.totalWorkers == 0 then withQueue
    else
      var s := stats.value;
      var sample := UtilizationSample(now, s.activeWorkers, s.totalWorkers, s.activeWorkers as real / s.totalWorkers as real);
      TrimAll(withQueue.(workerUtilization := withQueue.workerUtilization + [sample]))
  }

  function SumReal(s: seq<real>): real
  {
    if |s| == 0 then 0.0 else SumReal(s[..|s| - 1]) + s[|s| - 1]
  }

  function SizesOf(s: seq<QueueSample>): (r: seq<int>)
    ensures |r| == |s| && forall i :: 0 <= i < |s| ==> r[i] == s[i].size
  {
    seq(|s|, i requires 0 <= i < |s| => s[i].size)
  }

  function UtilizationsOf(s: seq<UtilizationSample>): (r: seq<real>)
    ensures |r| == |s| && forall i :: 0 <= i < |s| ==> r[i] == s[i].utilization
  {
    seq(|s|, i requires 0 <= i < |s| => s[i].utilization)
  }

  predicate AllAbove(s: seq<int>, bound: int)
  {
    forall i :: 0 <= i < |s| ==> s[i] > bound
  }

  predicate AllBelow(s: seq<real>, bound: real)
  {
    forall i :: 0 <= i < |s| ==> s[i] < bound
  }

  /** The queue-buildup rule, stated over the whole history: there is a
      sample, and each of the newest five is above 10. */
  predicate QueueBuildsUp(h: seq<QueueSample>)
  {
    |h| > 0 && forall j :: |h| - QueueWindow <= j < |h| && 0 <= j ==> h[j].size > 10
  }

  /** The low-utilisation rule: there is a sample, and each of the newest
      three is below one half. */
  predicate UnderUtilized(h: seq<UtilizationSample>)
  {
    |h| > 0 && forall j :: |h| - UtilizationWindow <= j < |h| && 0 <= j ==> h[j].utilization < 0.5
  }

  /** The slow-processing rule: more than ten samples, and the newest ten
      add up to more than ten minutes, so their mean exceeds 60 s. */
  predicate ProcessesSlowly(p: seq<real>)
  {
    |p| > ProcessingWindow && SumReal(p[|p| - ProcessingWindow..]) > 600.0
  }

  /** `_analyze_and_optimize`: the issues whose rules fire, in the order
      they are checked; each is handed to `_suggest_optimizations`. */
  function AnalyzeAndOptimize(m: Metrics): (r: seq<Issue>)
    ensures QueueBuildup in r <==> QueueBuildsUp(m.queueSizeHistory)
    ensures LowUtilization in r <==> UnderUtilized(m.workerUtilization)
    ensures SlowProcessing in r <==> ProcessesSlowly(m.processingTimes)
    ensures NoDup(r)
  {
    (if QueueRule(m.queueSizeHistory) then [QueueBuildup] else [])
    + (if UtilizationRule(m.workerUtilization) then [LowUtilization] else [])
    + (if ProcessingRule(m.processingTimes) then [SlowProcessing] else [])
  }

  /** The queue check as written: the newest five sizes, all above 10. */
  function QueueRule(h: seq<QueueSample>): (r: bool)
    ensures r <==> QueueBuildsUp(h)
  {
    var sizes := SizesOf(Newest(h, QueueWindow));
    |sizes| > 0 && AllAbove(sizes, 10)
  }

  /** The utilisation check as written: the newest three, all below 0.5. */
  function UtilizationRule(h: seq<UtilizationSample>): (r: bool)
    ensures r <==> UnderUtilized(h)
  {
    var utils := UtilizationsOf(Newest(h, UtilizationWindow));
    |utils| > 0 && AllBelow(utils, 0.5)
  }

  /** The processing check as written: the mean of the newest ten above
      60 s, once there are more than ten. */
  function ProcessingRule(p: seq<real>): (r: bool)
    ensures r <==> ProcessesSlowly(p)
  {
    |p| > ProcessingWindow && SumReal(Newest(p, ProcessingWindow)) / 10.0 > 60.0
  }

  /** `_suggest_optimizations`: the suggestions logged for an issue; none
      for an issue it does not know. */
  function Suggestions(issueType: string): (r: seq<string>)
    ensures r != [] <==> issueType in {QueueBuildup.Name(), LowUtilization.Name(), SlowProcessing.Name()}
  {
    if issueType == QueueBuildup.Name() then QueueBuildupSuggestions
    else if issueType == LowUtilization.Name() then LowUtilizationSuggestions
    else if issueType == SlowProcessing.Name() then SlowProcessingSuggestions
    else []
  }

  const QueueBuildupSuggestions: seq<string> := [
    "Consider increasing NUM_WORKERS in config",
    "Check if TwelveLabs API is responding slowly",
    "Verify S3 upload performance",
    "Consider reducing video quality/resolution temporarily"]

  const LowUtilizationSuggestions: seq<string> := [
    "Consider reducing NUM_WORKERS to save resources",
    "Check if input video generation is bottleneck",
    "Verify Redis queue is receiving videos"]

  const SlowProcessingSuggestions: seq<string> := [
    "Check TwelveLabs API response times",
    "Verify network connectivity",
    "Consider optimizing video encoding settings",
    "Check system resources (CPU/Memory/Disk)"]

  /** The recommendation lines, each with the text the report carries. */
  datatype Advice =
    | HighQueue | LowQueue | HighWorkerUtilization | LowWorkerUtilization
    | LowThroughput | ExcellentThroughput | RunningOptimally
  {
    function Text(): string
    {
      match this
      case HighQueue => "High queue size - consider increasing workers or optimizing processing"
      case LowQueue => "Low queue size and utilization - consider reducing workers"
      case HighWorkerUtilization => "High worker utilization - consider adding more workers"
      case LowWorkerUtilization => "Low worker utilization - check input generation or reduce workers"
      case LowThroughput => "Low throughput - investigate processing bottlenecks"
      case ExcellentThroughput => "Excellent throughput - system is performing well"
      case RunningOptimally => "System appears to be running optimally"
    }
  }

  /** Whether any of the six recommendation rules fires. */
  predicate AnyRuleFires(queueSize: real, utilization: real, throughput: real)
  {
    queueSize > 20.0 || (queueSize < 2.0 && utilization < 0.3) || utilization > 0.9 || utilization < 0.2
    || throughput < 1.0 || throughput > 10.0
  }

  /** `_get_recommendations`: one line per rule that fires, in rule order,
      and the "running optimally" line alone when none does. */
  function Recommendations(queueSize: real, utilization: real, throughput: real): (r: seq<Advice>)
    ensures 1 <= |r| <= 3 && NoDup(r)
    ensures HighQueue in r <==> queueSize > 20.0
    ensures LowQueue in r <==> queueSize < 2.0 && utilization < 0.3
    ensures HighWorkerUtilization in r <==> utilization > 0.9
    ensures LowWorkerUtilization in r <==> utilization < 0.2
    ensures LowThroughput in r <==> throughput < 1.0
    ensures ExcellentThroughput in r <==> throughput > 10.0
    ensures RunningOptimally in r <==> !AnyRuleFires(queueSize, utilization, throughput)
    ensures RunningOptimally in r ==> r == [RunningOptimally]
  {
    var queue := if queueSize > 20.0 then [HighQueue]
                 else if queueSize < 2.0 && utilization < 0.3 then [LowQueue]
                 else [];
    var util := if utilization > 0.9 then [HighWorkerUtilization]
                else if utilization < 0.2 then [LowWorkerUtilization]
                else [];
    var through := if throughput < 1.0 then [LowThroughput]
                   else if throughput > 10.0 then [ExcellentThroughput]
                   else [];
    var found := queue + util + through;
    ThreeGroups(queue, util, through);
    if found == [] then [RunningOptimally] else found
  }

  predicate QueueGroup(a: Advice) { a == HighQueue || a == LowQueue }
  predicate UtilizationGroup(a: Advice) { a == HighWorkerUtilization || a == LowWorkerUtilization }
  predicate ThroughputGroup(a: Advice) { a == LowThroughput || a == ExcellentThroughput }

  /** At most one line from each rule group, joined in group order, gives
      no repeats and exactly the lines of the three parts. */
  lemma ThreeGroups(queue: seq<Advice>, util: seq<Advice>, through: seq<Advice>)
    requires |queue| <= 1 && |util| <= 1 && |through| <= 1
    requires forall a :: a in queue ==> QueueGroup(a)
    requires forall a :: a in util ==> UtilizationGroup(a)
    requires forall a :: a in through ==> ThroughputGroup(a)
    ensures NoDup(queue + util + through) && |queue + util + through| <= 3
    ensures forall a :: a in queue + util + through <==> a in queue || a in util || a in through
    ensures RunningOptimally !in queue + util + through
  {
    var all := queue + util + through;
    var q := |queue|;
    var u := |util|;
    forall i, j | 0 <= i < j < |all|
      ensures all[i] != all[j]
    {
      if i < q {
        assert QueueGroup(all[i]) by { assert all[i] == queue[i]; }
        if j < q + u {
          assert UtilizationGroup(all[j]) by { assert all[j] == util[j - q]; }
        } else {
          assert ThroughputGroup(all[j]) by { assert all[j] == through[j - q - u]; }
        }
      } else {
        assert UtilizationGroup(all[i]) by { assert all[i] == util[i - q]; }
        assert ThroughputGroup(all[j]) by { assert all[j] == through[j - q - u]; }
      }
    }
  }

  function Mean(s: seq<real>): real
  {
    if |s| == 0 then 0.0 else SumReal(s) / |s| as real
  }

  function IntsAsReals(s: seq<int>): (r: seq<real>)
    ensures |r| == |s| && forall i :: 0 <= i < |s| ==> r[i] == s[i] as real
  {
    seq(|s|, i requires 0 <= i < |s| => s[i] as real)
  }

  /** The throughput in videos per minute: the workers' processed total
      over the minutes between the first and newest utilisation samples,
      and 0 with fewer than two samples or no elapsed time. */
  function Throughput(h: seq<UtilizationSample>, workers: seq<WorkerState>): (r: real)
    ensures |h| < 2 ==> r == 0.0
    ensures |h| >= 2 && h[|h| - 1].timestamp <= h[0].timestamp ==> r == 0.0
    ensures r >= 0.0
  {
    if |h| < 2 then 0.0
    else
      var span := (h[|h| - 1].timestamp - h[0].timestamp) / 60.0;
      if span > 0.0 then TotalProcessed(workers) as real / span else 0.0
  }

  datatype Report =
    | ReportError(error: string)
    | Report(avgQueueSize: real, avgWorkerUtilization: real, throughputPerMinute: real,
             totalMetricsCollected: nat, monitoringActive: bool, recommendations: seq<Advice>)

  /** The report's averages: the mean of the newest ten queue sizes, and
      of the newest ten utilisation samples (0 without any). */
  function AvgQueueSize(m: Metrics): real
  {
    Mean(IntsAsReals(SizesOf(Newest(m.queueSizeHistory, ReportWindow))))
  }

  function AvgUtilization(m: Metrics): real
  {
    Mean(UtilizationsOf(Newest(m.workerUtilization, ReportWindow)))
  }

  /** `get_performance_report`: the error report without any queue sample;
      otherwise the averages and the throughput, each rounded to two
      places, and the recommendations for those three numbers as they were
      before rounding. */
  function GetPerformanceReport(m: Metrics, isMonitoring: bool, workers: seq<WorkerState>): (r: Report)
    ensures r.ReportError? <==> m.queueSizeHistory == []
    ensures r.ReportError? ==> r.error == NoMetricsError
    ensures r.Report? ==> r.totalMetricsCollected == |m.queueSizeHistory| && r.monitoringActive == isMonitoring
    ensures r.Report? ==> r.recommendations != []
    ensures r.Report? ==> r.avgQueueSize == Round2(AvgQueueSize(m)) && r.avgWorkerUtilization == Round2(AvgUtilization(m))
    ensures r.Report? ==> r.throughputPerMinute == Round2(Throughput(m.workerUtilization, workers))
    ensures r.Report? ==>
      r.recommendations == Recommendations(AvgQueueSize(m), AvgUtilization(m), Throughput(m.workerUtilization, workers))
  {
    if m.queueSizeHistory == [] then ReportError(NoMetricsError)
    else
      var q := AvgQueueSize(m);
      var u := AvgUtilization(m);
      var t := Throughput(m.workerUtilization, workers);
      Report(Round2(q), Round2(u), Round2(t), |m.queueSizeHistory|, isMonitoring, Recommendations(q, u, t))
  }

  /** The advice is drawn from the numbers before rounding: a report can
      show an average queue size of exactly 20 and still advise on a queue
      above 20. */
  lemma AdviceBeforeRounding(utilization: real, throughput: real)
    ensures Round2(20.004) == 20.0
    ensures HighQueue in Recommendations(20.004, utilization, throughput)
  {
    assert Hundredths(20.004) == 2000 by {
      assert (20.004 * 100.0).Floor == 2000;
    }
  }

  /** The monitor: its worker pool, metrics and monitoring flag. */
  datatype Optimizer = Optimizer(workerManager: Manager, metrics: Metrics, isMonitoring: bool)

  /** `get_performance_optimizer`: the module-level instance afterwards and
      the one returned. An instance is created only when there is none and
      a worker manager is given; an existing one is returned unchanged. */
  function GetPerformanceOptimizer(instance: Option<Optimizer>, workerManager: Option<Manager>): (r: (Option<Optimizer>, Option<Optimizer>))
    ensures r.1 == r.0
    ensures instance.Some? ==> r.0 == instance
    ensures instance.None? ==> (r.0.Some? <==> workerManager.Some?)
    ensures r.0.Some? && instance.None? ==> r.0.value == Optimizer(workerManager.value, EmptyMetrics, false)
  {
    if instance.None? && workerManager.Some? then
      var o := Some(Optimizer(workerManager.value, EmptyMetrics, false));
      (o, o)
    else (instance, instance)
  }

  /** Collection keeps the histories bounded whenever the statistics are
      read; a failed read leaves the queue history one entry longer and
      untrimmed, so repeated failures let it pass the limit. */
  lemma CollectKeepsBounded(m: Metrics, now: real, queueSize: int, stats: Option<WorkerStats>)
    requires Bounded(m)
    ensures stats.Some? && stats.value.totalWorkers != 0 ==> Bounded(CollectMetrics(m, now, queueSize, stats))
    ensures |m.queueSizeHistory| == HistoryLimit && stats.None? ==>
      |CollectMetrics(m, now, queueSize, stats).queueSizeHistory| == HistoryLimit + 1
  {
  }

  /** Trimming keeps the newest entry and is idempotent. */
  lemma TrimKeepsNewest<T>(s: seq<T>)
    ensures |s| > 0 ==> Trim(s) != [] && Trim(s)[|Trim(s)| - 1] == s[|s| - 1]
    ensures Trim(Trim(s)) == Trim(s)
  {
  }

  /** Nothing ever appends a processing time, so from the empty metrics
      collection keeps that history empty and the slow-processing rule
      never fires. */
  lemma {:induction false} SlowProcessingNeverFires(m: Metrics, cycles: seq<(real, int, Option<WorkerStats>)>)
    requires m.processingTimes == []
    ensures SlowProcessing !in AnalyzeAndOptimize(Collected(m, cycles))
    ensures Collected(m, cycles).processingTimes == []
    decreases |cycles|
  {
    if |cycles| > 0 {
      var c := cycles[0];
      SlowProcessingNeverFires(CollectMetrics(m, c.0, c.1, c.2), cycles[1..]);
    }
  }

  /** The metrics after a run of collection cycles. */
  function Collected(m: Metrics, cycles: seq<(real, int, Option<WorkerStats>)>): Metrics
    decreases |cycles|
  {
    if |cycles| == 0 then m
    else Collected(CollectMetrics(m, cycles[0].0, cycles[0].1, cycles[0].2), cycles[1..])
  }

  /** Every issue the analysis reports has suggestions. */
  lemma IssuesHaveSuggestions(m: Metrics)
    ensures forall issue :: issue in AnalyzeAndOptimize(m) ==> Suggestions(issue.Name()) != []
  {
  }

  /** With fewer than two utilisation samples the throughput is 0, so every
      report then advises investigating low throughput and never reports
      running optimally. */
  lemma EarlyReportsAdviseLowThroughput(m: Metrics, isMonitoring: bool, workers: seq<WorkerState>)
    requires m.queueSizeHistory != [] && |m.workerUtilization| < 2
    ensures LowThroughput in GetPerformanceReport(m, isMonitoring, workers).recommendations
    ensures RunningOptimally !in GetPerformanceReport(m, isMonitoring, workers).recommendations
  {
  }

  /** The singleton is created once: after a call given a manager, a
      second call returns that instance whatever manager it is given. A
      call without a manager creates nothing. */
  lemma SingletonStable(w1: Option<Manager>, w2: Option<Manager>)
    ensures GetPerformanceOptimizer(None, None) == (None, None)
    ensures w1.Some? ==> var first := GetPerformanceOptimizer(None, w1);
            GetPerformanceOptimizer(first.0, w2) == first
  {
  }
}

=== FILE: pipeline_optimizer.dfy ===
/**
 * The pipeline timing validator (server/pipeline_optimizer.py).
 *
 * Each consistency check records one (time, queue size) sample; the
 * report flags a high average or peak queue size, and the recommendations
 * are chosen from the peak and the average of all samples. The clock and
 * the queue size are parameters; printing is left out, so the report is
 * the list of flags and the numbered recommendation lines it prints.
 */
module PipelineOptimizer {
  import opened Common
  import opened Chrono

  datatype Sample = Sample(timestamp: DateTime, queueSize: int)

  /** `_check_timing_consistency`: one sample appended, the rest kept. */
  function CheckTimingConsistency(data: seq<Sample>, queueSize: int, now: DateTime): (r: seq<Sample>)
    ensures |r| == |data| + 1 && r[..|data|] == data
    ensures r[|data|].queueSize == queueSize && r[|data|].timestamp == now
  {
    data + [Sample(now, queueSize)]
  }

  /** A run of checks, one per (time, size) reading, in order. */
  function Validate(data: seq<Sample>, readings: seq<(DateTime, int)>): seq<Sample>
    decreases |readings|
  {
    if |readings| == 0 then data
    else Validate(CheckTimingConsistency(data, readings[0].1, readings[0].0), readings[1..])
  }

  function QueueSizes(data: seq<Sample>): (r: seq<int>)
    ensures |r| == |data| && forall i :: 0 <= i < |data| ==> r[i] == data[i].queueSize
  {
    seq(|data|, i requires 0 <= i < |data| => data[i].queueSize)
  }

  function Sum(s: seq<int>): int
  {
    if |s| == 0 then 0 else Sum(s[..|s| - 1]) + s[|s| - 1]
  }

  /** Python's `max` of a non-empty list. */
  function MaxOf(s: seq<int>): (r: int)
    requires |s| > 0
    ensures r in s
    ensures forall i :: 0 <= i < |s| ==> s[i] <= r
  {
    if |s| == 1 then s[0]
    else
      var m := MaxOf(s[..|s| - 1]);
      assert forall x :: x in s[..|s| - 1] ==> x in s;
      if s[|s| - 1] > m then s[|s| - 1] else m
  }

  /** The average exceeds 5, compared without division. */
  predicate AverageAbove5(s: seq<int>)
    requires |s| > 0
  {
    Sum(s) > 5 * |s|
  }

  /** Python's true division of the sum by the count, as the source
      computes the average. */
  function Average(s: seq<int>): real
    requires |s| > 0
  {
    Sum(s) as real / |s| as real
  }

  lemma AverageAbove5Iff(s: seq<int>)
    requires |s| > 0
    ensures Average(s) > 5.0 <==> AverageAbove5(s)
  {
    var a := Sum(s) as real;
    var n := |s| as real;
    var d := Average(s) - 5.0;
    assert d * n == a - 5.0 * n;
    if d > 0.0 {
      assert d * n > 0.0;
    } else {
      assert d * n <= 0.0;
    }
  }

  const IncreaseWorkers: string := "Increase number of workers from 3 to 5"
  const PriorityHandling: string := "Implement queue priority handling"
  const MonitorBacklog: string := "Monitor for queue backlog and optimize processing speed"
  const DefaultRecommendations: seq<string> := [
    "✅ Pipeline is performing well",
    "Monitor for any degradation over time",
    "Consider stress testing with higher video volumes"]

  /** Some sample exceeds 20. */
  predicate SomePeakAbove20(s: seq<int>)
  {
    exists i :: 0 <= i < |s| && s[i] > 20
  }

  /** `_generate_recommendations`: the two scaling recommendations when the
      peak exceeds 20; otherwise the backlog one when the average exceeds 5;
      otherwise the three defaults, including when there are no samples. */
  function Recommendations(sizes: seq<int>): (r: seq<string>)
    ensures SomePeakAbove20(sizes) <==> r == [IncreaseWorkers, PriorityHandling]
    ensures r == [MonitorBacklog] <==> !SomePeakAbove20(sizes) && |sizes| > 0 && AverageAbove5(sizes)
    ensures r == DefaultRecommendations <==> sizes == [] || (!SomePeakAbove20(sizes) && !AverageAbove5(sizes))
    ensures r != []
  {
    if |sizes| > 0 && MaxOf(sizes) > 20 then [IncreaseWorkers, PriorityHandling]
    else if |sizes| > 0 && Average(sizes) > 5.0 then AverageAbove5Iff(sizes); [MonitorBacklog]
    else (if |sizes| > 0 then AverageAbove5Iff(sizes); DefaultRecommendations else DefaultRecommendations)
  }

  /** The printed lines: each recommendation after its 1-based number. */
  function NumberedLines(recs: seq<string>): (r: seq<string>)
    ensures |r| == |recs|
    ensures forall i :: 0 <= i < |recs| ==> r[i] == "   " + NatToString(i + 1) + ". " + recs[i]
  {
    seq(|recs|, i requires 0 <= i < |recs| => "   " + NatToString(i + 1) + ". " + recs[i])
  }

  /** The queue analysis of the report: None without samples; otherwise
      whether the average exceeds 5 and whether the peak exceeds 20. */
  datatype QueueFlags = QueueFlags(highAverage: bool, highPeak: bool)

  function QueueAnalysis(sizes: seq<int>): (r: Option<QueueFlags>)
    ensures r.None? <==> sizes == []
    ensures r.Some? ==> (r.value.highPeak <==> SomePeakAbove20(sizes))
    ensures r.Some? ==> (r.value.highAverage <==> AverageAbove5(sizes))
  {
    if |sizes| == 0 then None
    else AverageAbove5Iff(sizes); Some(QueueFlags(Average(sizes) > 5.0, MaxOf(sizes) > 20))
  }

  /** A run of checks records one sample per reading, after the earlier
      ones and in reading order. */
  lemma {:induction false} ValidateRecordsEach(data: seq<Sample>, readings: seq<(DateTime, int)>)
    ensures |Validate(data, readings)| == |data| + |readings|
    ensures Validate(data, readings)[..|data|] == data
    ensures forall i :: 0 <= i < |readings| ==>
      Validate(data, readings)[|data| + i] == Sample(readings[i].0, readings[i].1)
    decreases |readings|
  {
    if |readings| > 0 {
      var next := CheckTimingConsistency(data, readings[0].1, readings[0].0);
      ValidateRecordsEach(next, readings[1..]);
      var v := Validate(data, readings);
      assert v == Validate(next, readings[1..]);
      assert v[..|data|] == next[..|next|][..|data|];
      forall i | 0 <= i < |readings|
        ensures v[|data| + i] == Sample(readings[i].0, readings[i].1)
      {
        if i > 0 {
          assert readings[1..][i - 1] == readings[i];
          assert v[|next| + (i - 1)] == Sample(readings[1..][i - 1].0, readings[1..][i - 1].1);
        } else {
          assert v[..|next|] == next;
        }
      }
    }
  }

  /** The report's flags agree with the recommendations: a high peak gives
      the scaling pair; a high average without one gives the backlog line;
      with neither flag the defaults are given. */
  lemma FlagsMatchRecommendations(sizes: seq<int>)
    requires sizes != []
    ensures QueueAnalysis(sizes).value.highPeak ==> |Recommendations(sizes)| == 2
    ensures !QueueAnalysis(sizes).value.highPeak && QueueAnalysis(sizes).value.highAverage ==> |Recommendations(sizes)| == 1
    ensures !QueueAnalysis(sizes).value.highPeak && !QueueAnalysis(sizes).value.highAverage ==> |Recommendations(sizes)| == 3
  {
  }

  /** Numbering starts at 1: the first printed line is "   1. " followed by
      the first recommendation. */
  lemma NumberingStartsAtOne(recs: seq<string>)
    requires recs != []
    ensures NumberedLines(recs)[0] == "   1. " + recs[0]
  {
    assert NatToString(1) == [DigitChar(1)] == "1";
  }
}

=== FILE: queue_manager.dfy ===
/**
 * The Redis job queue (server/video_queue/queue_manager.py).
 *
 * The queue is one Redis list. Producers LPUSH a JSON job onto its head and
 * workers BRPOP from its tail, so jobs leave in the order they arrived. The
 * list is a sequence whose index 0 is the head; whether each Redis call
 * succeeds is a parameter (`ok`), and a failed call leaves the list alone.
 * JSON encoding is taken to round-trip, so jobs are stored as values.
 */
module QueueManager {
  import opened Common

  /** `Config.REDIS_QUEUE_NAME` */
  const QueueName: string := "video_processing_queue"

  /** The timeout `get_video_segment` uses when none (or 0) is given. */
  const DefaultTimeout: real := 0.5

  /** A metadata value as the producers fill it in: text, a number, or a
      pair such as a resolution. */
  datatype MetaValue = MText(text: string) | MInt(n: int) | MPair(first: int, second: int)

  type Metadata = map<string, MetaValue>

  /** A queued job: a segment on disk, or segment data handed over directly. */
  datatype Job =
    | SegmentJob(videoPath: string, metadata: Metadata, timestamp: real, status: string)
    | DataJob(segmentData: Metadata, timestamp: real, status: string)

  type RedisList = seq<Job>

  /** The job `add_video_segment` builds: missing or empty metadata becomes
      the empty map, and every new job is "pending". */
  function NewJob(videoPath: string, metadata: Option<Metadata>, now: real): (r: Job)
    ensures r.SegmentJob? && r.videoPath == videoPath && r.timestamp == now
    ensures r.status == "pending"
    ensures metadata.Some? ==> r.metadata == metadata.value
    ensures metadata.None? ==> r.metadata == map[]
  {
    SegmentJob(videoPath, if metadata.Some? then metadata.value else map[], now, "pending")
  }

  /** LPUSH of one job. */
  function Push(q: RedisList, j: Job): RedisList
  {
    [j] + q
  }

  /** LPUSH of several jobs in one command: each lands on the head in turn,
      so the last one ends up first. */
  function PushAll(q: RedisList, js: seq<Job>): (r: RedisList)
    ensures |r| == |q| + |js|
    decreases |js|
  {
    if |js| == 0 then q else PushAll(Push(q, js[0]), js[1..])
  }

  /** The order in which repeated BRPOPs hand the jobs out: tail first. */
  function Drain(q: RedisList): (r: seq<Job>)
    ensures |r| == |q|
    decreases |q|
  {
    if |q| == 0 then [] else [q[|q| - 1]] + Drain(q[..|q| - 1])
  }

  /** `add_video_segment`: the new queue and the returned flag. */
  function AddVideoSegment(q: RedisList, videoPath: string, metadata: Option<Metadata>, now: real, ok: bool): (r: (RedisList, bool))
    ensures r.1 == ok
    ensures ok ==> |r.0| == |q| + 1 && r.0[0] == NewJob(videoPath, metadata, now) && r.0[1..] == q
    ensures !ok ==> r.0 == q
  {
    if ok then (Push(q, NewJob(videoPath, metadata, now)), true) else (q, false)
  }

  /** `add_video_segment_data` */
  function AddVideoSegmentData(q: RedisList, data: Metadata, now: real, ok: bool): (r: (RedisList, bool))
    ensures r.1 == ok
    ensures ok ==> r.0 == [DataJob(data, now, "pending")] + q
    ensures !ok ==> r.0 == q
  {
    if ok then (Push(q, DataJob(data, now, "pending")), true) else (q, false)
  }

  /** `timeout or 0.5` */
  function ActualTimeout(timeout: Option<real>): (r: real)
    ensures timeout.None? || timeout.value == 0.0 ==> r == DefaultTimeout
    ensures timeout.Some? && timeout.value != 0.0 ==> r == timeout.value
  {
    if timeout.Some? && timeout.value != 0.0 then timeout.value else DefaultTimeout
  }

  /** `get_video_segment`: the oldest job and the queue without it, or None
      and the queue untouched when the list is empty (the wait times out)
      or the call fails. */
  function GetVideoSegment(q: RedisList, ok: bool): (r: (Option<Job>, RedisList))
    ensures r.0.Some? <==> ok && |q| > 0
    ensures r.0.Some? ==> r.0.value == Drain(q)[0] && Drain(r.1) == Drain(q)[1..]
    ensures r.0.None? ==> r.1 == q
  {
    if ok && |q| > 0 then (Some(q[|q| - 1]), q[..|q| - 1]) else (None, q)
  }

  /** `get_queue_size` */
  function GetQueueSize(q: RedisList, ok: bool): (r: nat)
    ensures ok ==> r == |Drain(q)|
    ensures !ok ==> r == 0
  {
    if ok then |q| else 0
  }

  /** `clear_queue`: the list is deleted. */
  function ClearQueue(q: RedisList, ok: bool): (r: (RedisList, bool))
    ensures r.1 == ok
    ensures ok ==> GetQueueSize(r.0, true) == 0
    ensures !ok ==> r.0 == q
  {
    if ok then ([], true) else (q, false)
  }

  /** The jobs `add_batch_segments` builds: one per path, all with the same
      timestamp. */
  function BatchJobs(paths: seq<string>, metadata: Option<Metadata>, now: real): (r: seq<Job>)
    ensures |r| == |paths|
    ensures forall i :: 0 <= i < |paths| ==> r[i] == NewJob(paths[i], metadata, now)
  {
    seq(|paths|, i requires 0 <= i < |paths| => NewJob(paths[i], metadata, now))
  }

  /** `add_batch_segments`: the new queue and the count returned. An LPUSH
      with no values is a Redis error, so an empty batch returns 0 too. */
  function AddBatchSegments(q: RedisList, paths: seq<string>, metadata: Option<Metadata>, now: real, ok: bool): (r: (RedisList, nat))
    ensures ok && |paths| > 0 ==> r.1 == |paths| && Drain(r.0) == Drain(q) + BatchJobs(paths, metadata, now)
    ensures !ok || |paths| == 0 ==> r == (q, 0)
  {
    var jobs := BatchJobs(paths, metadata, now);
    if ok && |paths| > 0 then
      FifoOrder(q, jobs);
      (PushAll(q, jobs), |jobs|)
    else (q, 0)
  }

  /** Pushing onto the head puts the job last in line. */
  lemma {:induction false} DrainPush(q: RedisList, j: Job)
    ensures Drain(Push(q, j)) == Drain(q) + [j]
    decreases |q|
  {
    var p := Push(q, j);
    if |q| > 0 {
      assert p[|p| - 1] == q[|q| - 1];
      assert p[..|p| - 1] == Push(q[..|q| - 1], j);
      DrainPush(q[..|q| - 1], j);
    } else {
      assert p[..|p| - 1] == [];
    }
  }

  /** FIFO: everything already queued leaves first, then the new jobs in
      the order they were pushed. */
  lemma {:induction false} FifoOrder(q: RedisList, js: seq<Job>)
    ensures Drain(PushAll(q, js)) == Drain(q) + js
    decreases |js|
  {
    if |js| > 0 {
      DrainPush(q, js[0]);
      FifoOrder(Push(q, js[0]), js[1..]);
      assert [js[0]] + js[1..] == js;
    }
  }

  /** A batch push is the same as pushing the jobs one by one with the same
      timestamp. */
  lemma {:induction false} BatchIsSequential(q: RedisList, paths: seq<string>, metadata: Option<Metadata>, now: real)
    requires |paths| > 0
    ensures AddBatchSegments(q, paths, metadata, now, true).0 == AddEach(q, paths, metadata, now)
    decreases |paths|
  {
    BatchAsPushAll(q, paths, metadata, now);
  }

  /** Adding each path with `add_video_segment` in turn. */
  function AddEach(q: RedisList, paths: seq<string>, metadata: Option<Metadata>, now: real): RedisList
    decreases |paths|
  {
    if |paths| == 0 then q else AddEach(AddVideoSegment(q, paths[0], metadata, now, true).0, paths[1..], metadata, now)
  }

  lemma {:induction false} BatchAsPushAll(q: RedisList, paths: seq<string>, metadata: Option<Metadata>, now: real)
    ensures PushAll(q, BatchJobs(paths, metadata, now)) == AddEach(q, paths, metadata, now)
    decreases |paths|
  {
    if |paths| > 0 {
      var jobs := BatchJobs(paths, metadata, now);
      assert jobs[1..] == BatchJobs(paths[1..], metadata, now);
      BatchAsPushAll(Push(q, jobs[0]), paths[1..], metadata, now);
    }
  }

  /** Adding a job and then taking one from a previously empty queue yields
      that job. */
  lemma AddThenGet(path: string, metadata: Option<Metadata>, now: real)
    ensures var q := AddVideoSegment([], path, metadata, now, true).0;
      GetVideoSegment(q, true) == (Some(NewJob(path, metadata, now)), [])
  {
  }
}

=== FILE: s3_service.dfy ===
/**
 * Presigned URLs for stored segments (server/app/services/s3_service.py).
 *
 * The service takes the URL the uploader stored, recovers bucket and key
 * from it, and asks boto3 to presign a GET; whenever a step fails it hands
 * back the URL it was given. The presigning call is a function parameter
 * (None stands for an exception).
 */
module S3Service {
  import opened Common
  import opened S3Storage

  const Scheme: string := "https://"

  /** The parse in `generate_presigned_url`: the bucket (first host label,
      when the second is "s3" and there are at least three) and the key
      (everything after the first '/'), or None where the code gives up. */
  function ParseObjectUrl(url: string): (r: Option<(string, string)>)
    ensures !StartsWith(url, Scheme) ==> r.None?
    ensures '/' !in RemoveAll(url, Scheme) ==> r.None?
    ensures r.Some? ==> '.' !in r.value.0
    ensures r.Some? ==>
      var rest := RemoveAll(url, Scheme);
      var h := |rest| - |r.value.1| - 1;
      0 <= h && rest[h] == '/' && rest[h + 1..] == r.value.1 && '/' !in rest[..h]
      && |Split(rest[..h], '.')| >= 3 && Split(rest[..h], '.')[1] == "s3" && Split(rest[..h], '.')[0] == r.value.0
  {
    if !StartsWith(url, Scheme) then None
    else
      var rest := RemoveAll(url, Scheme);
      SplitOnceNone(rest, '/');
      match SplitOnce(rest, '/')
      case None => None
      case Some((host, key)) =>
        SplitOnceParts(rest, '/');
        assert rest[..|host|] == host && rest[|host| + 1..] == key;
        var labels := Split(host, '.');
        if |labels| >= 3 && labels[1] == "s3" then
          SplitLabelsHaveNoDot(host, '.');
          Some((labels[0], key))
        else None
  }

  lemma {:induction false} SplitLabelsHaveNoDot(s: string, c: char)
    ensures forall i :: 0 <= i < |Split(s, c)| ==> c !in Split(s, c)[i]
    decreases |s|
  {
    if |s| > 0 {
      SplitLabelsHaveNoDot(s[1..], c);
    }
  }

  /** `generate_presigned_url`: the presigned URL, or the input unchanged
      when there is no client, the URL does not parse, or presigning raises. */
  function GeneratePresignedUrl(url: string, hasClient: bool, presign: (string, string) -> Option<string>): (r: string)
    ensures !hasClient ==> r == url
    ensures ParseObjectUrl(url).None? ==> r == url
    ensures hasClient && ParseObjectUrl(url).Some? ==>
      var (bucket, key) := ParseObjectUrl(url).value;
      r == (if presign(bucket, key).Some? then presign(bucket, key).value else url)
  {
    if !hasClient then url
    else match ParseObjectUrl(url)
      case None => url
      case Some((bucket, key)) =>
        match presign(bucket, key)
        case None => url
        case Some(signed) => signed
  }

  /** The host of an object URL ends in "m" and holds no '/'. */
  lemma HostShape(bucket: string, region: string)
    requires '/' !in bucket && '/' !in region
    ensures var h := bucket + ".s3." + region + ".amazonaws.com";
      '/' !in h && |h| > 0 && h[|h| - 1] == 'm'
  {
  }

  /** The scheme cannot occur inside `host + "/" + key` when the host has no
      '/' and ends in a letter and the key does not contain it. */
  lemma SchemeAbsent(h: string, key: string)
    requires '/' !in h && |h| > 0 && h[|h| - 1] == 'm'
    requires !Contains(key, Scheme)
    ensures !Contains(h + "/" + key, Scheme)
  {
    var rest := h + "/" + key;
    forall i: nat
      ensures !MatchesAt(rest, Scheme, i)
    {
      SchemeMissesAt(h, key, i);
    }
    NotContainsAt(rest, Scheme);
  }

  /** One position of `host + "/" + key`: the scheme does not start there. */
  lemma SchemeMissesAt(h: string, key: string, i: nat)
    requires '/' !in h && |h| > 0 && h[|h| - 1] == 'm'
    requires !Contains(key, Scheme)
    ensures !MatchesAt(h + "/" + key, Scheme, i)
  {
    var rest := h + "/" + key;
    if i + 8 <= |rest| {
      var w := rest[i..i + 8];
      assert Scheme == "https://";
      if i > |h| {
        MissesEverywhere(key, Scheme, i - |h| - 1);
        assert w == key[i - |h| - 1..i - |h| - 1 + 8];
      } else if i + 7 < |h| {
        assert w[6] == h[i + 6];
        assert w[6] != Scheme[6];
      } else if i + 7 == |h| {
        assert w[6] == 'm';
        assert w != Scheme;
      } else if i + 6 == |h| {
        assert w[5] == 'm';
        assert w != Scheme;
      } else {
        assert w[|h| - i] == '/';
        assert Scheme[|h| - i] != '/';
      }
    }
  }

  lemma StripScheme(rest: string)
    requires !Contains(rest, Scheme)
    ensures RemoveAll(Scheme + rest, Scheme) == rest
  {
    var url := Scheme + rest;
    assert url[..|Scheme|] == Scheme && url[|Scheme|..] == rest;
    RemoveAllAbsent(rest, Scheme);
  }

  lemma HostLabels(bucket: string, tail: string)
    requires '.' !in bucket
    ensures var labels := Split(bucket + ".s3." + tail, '.');
      |labels| >= 3 && labels[0] == bucket && labels[1] == "s3"
  {
    assert bucket + ".s3." + tail == bucket + "." + ("s3." + tail);
    SplitAfter(bucket, '.', "s3." + tail);
    assert "s3." + tail == "s3" + "." + tail;
    SplitAfter("s3", '.', tail);
  }

  /** Round trip: the URL the uploader builds parses back to its bucket and
      key, for a bucket without '.' or '/', a region without '/', and a key
      not containing "https://". */
  lemma ObjectUrlRoundTrip(bucket: string, region: string, key: string)
    requires '.' !in bucket && '/' !in bucket && '/' !in region
    requires !Contains(key, Scheme)
    ensures ParseObjectUrl(ObjectUrl(bucket, region, key)) == Some((bucket, key))
  {
    var tail := region + ".amazonaws.com";
    var h := bucket + ".s3." + tail;
    var rest := h + "/" + key;
    assert ObjectUrl(bucket, region, key) == Scheme + rest;
    HostShape(bucket, region);
    SchemeAbsent(h, key);
    StripScheme(rest);
    SplitOnceAfter(h, '/', key);
    HostLabels(bucket, tail);
  }

  /** Presigning an uploaded object asks for exactly that bucket and key. */
  lemma PresignsUploadedObject(st: Storage, path: string, key: Option<string>, presign: (string, string) -> Option<string>)
    requires '.' !in st.bucket && '/' !in st.bucket && '/' !in st.region
    requires !Contains(EffectiveKey(path, key), Scheme)
    requires st.hasClient
    ensures var url := ObjectUrl(st.bucket, st.region, EffectiveKey(path, key));
      var signed := presign(st.bucket, EffectiveKey(path, key));
      GeneratePresignedUrl(url, true, presign) == (if signed.Some? then signed.value else url)
  {
    ObjectUrlRoundTrip(st.bucket, st.region, EffectiveKey(path, key));
  }
}

=== FILE: s3_storage.dfy ===
/**
 * Uploading video segments to S3 (server/video_injestion/s3_storage.py).
 *
 * The manager builds an object key (by default from the file's base name)
 * and a virtual-hosted-style URL `https://{bucket}.s3.{region}.amazonaws.com/{key}`,
 * and creates the bucket on first use. The boto3 client's calls are outcome
 * parameters.
 */
module S3Storage {
  import opened Common

  /** `Config.S3_BUCKET_NAME` */
  const ConfigBucket: string := "lifeos-video-segments"

  /** The constructor's default region, the one that takes no location
      constraint. */
  const DefaultRegion: string := "us-east-1"

  const SegmentPrefix: string := "video_segments/"

  /** The manager: bucket, region, and whether the client was created. */
  datatype Storage = Storage(bucket: string, region: string, hasClient: bool)

  /** `S3StorageManager(bucket_name, region)`: an empty or missing bucket
      name falls back to the configured one. */
  function NewStorage(bucket: Option<string>, region: string, clientCreated: bool): (r: Storage)
    ensures bucket.Some? && |bucket.value| > 0 ==> r.bucket == bucket.value
    ensures bucket.None? || |bucket.value| == 0 ==> r.bucket == ConfigBucket
    ensures r.region == region && r.hasClient == clientCreated
  {
    Storage(if bucket.Some? && |bucket.value| > 0 then bucket.value else ConfigBucket, region, clientCreated)
  }

  /** The text after the last '/' once trailing slashes are dropped:
      `Path(p).name` for a path without "." components. */
  function Basename(path: string): (r: string)
    ensures '/' !in r
    decreases |path|
  {
    if |path| == 0 then ""
    else if path[|path| - 1] == '/' then Basename(path[..|path| - 1])
    else LastSegment(path)
  }

  /** The text after the last '/' of `s` (all of `s` when it has none). */
  function LastSegment(s: string): (r: string)
    ensures '/' !in r
    ensures |r| <= |s| && s[|s| - |r|..] == r
    ensures |r| < |s| ==> s[|s| - |r| - 1] == '/'
    decreases |s|
  {
    if |s| == 0 || s[|s| - 1] == '/' then "" else LastSegment(s[..|s| - 1]) + [s[|s| - 1]]
  }

  /** The key an upload uses: the given one unless it is empty or missing. */
  function EffectiveKey(path: string, key: Option<string>): (r: string)
    ensures key.Some? && |key.value| > 0 ==> r == key.value
    ensures key.None? || |key.value| == 0 ==> StartsWith(r, SegmentPrefix) && r[|SegmentPrefix|..] == Basename(path)
  {
    if key.Some? && |key.value| > 0 then key.value else SegmentPrefix + Basename(path)
  }

  /** The object's public URL. */
  function ObjectUrl(bucket: string, region: string, key: string): string
  {
    "https://" + bucket + ".s3." + region + ".amazonaws.com/" + key
  }

  /** How `upload_file` ended. */
  datatype UploadOutcome = Uploaded | ClientError(code: string) | OtherError

  /** `upload_video_segment`: the URL, or None when there is no client, the
      file is missing or the upload raises. */
  function UploadVideoSegment(st: Storage, path: string, key: Option<string>, fileExists: bool, outcome: UploadOutcome): (r: Option<string>)
    ensures r.Some? <==> st.hasClient && fileExists && outcome.Uploaded?
    ensures r.Some? ==> r.value == ObjectUrl(st.bucket, st.region, EffectiveKey(path, key))
  {
    if !st.hasClient || !fileExists then None
    else if outcome.Uploaded? then Some(ObjectUrl(st.bucket, st.region, EffectiveKey(path, key)))
    else None
  }

  /** How `head_bucket` ended: success, a client error with its code, or
      another exception (no credentials, no connection), which no handler
      of the bucket operations catches. */
  datatype HeadOutcome = HeadOk | HeadError(code: string) | HeadRaises(message: string)

  /** How `create_bucket` ended, in the same three ways. */
  datatype CreateOutcome = Created | CreateError(code: string) | CreateRaises(message: string)

  /** The `create_bucket` call made: its bucket and `LocationConstraint`. */
  datatype CreateCall = CreateCall(bucket: string, locationConstraint: Option<string>)

  /** What `create_bucket_if_not_exists` does: report success or failure,
      or let an exception escape to its caller; either way, the create call
      it made, if any. */
  datatype CreateResult =
    | Reports(ok: bool, call: Option<CreateCall>)
    | CreateEscapes(message: string, call: Option<CreateCall>)

  /** `create_bucket_if_not_exists`. Only client errors are handled; a
      failing bucket policy is only reported and does not matter. */
  function CreateBucketIfNotExists(st: Storage, head: HeadOutcome, create: CreateOutcome): (r: CreateResult)
    ensures !st.hasClient ==> r == Reports(false, None)
    ensures st.hasClient && head.HeadOk? ==> r == Reports(true, None)
    ensures st.hasClient && head.HeadError? && head.code != "404" ==> r == Reports(false, None)
    ensures st.hasClient && head.HeadRaises? ==> r == CreateEscapes(head.message, None)
    ensures st.hasClient && head == HeadError("404") ==>
      r.call.Some? && r.call.value.bucket == st.bucket
      && (r.call.value.locationConstraint.None? <==> st.region == DefaultRegion)
      && (r.call.value.locationConstraint.Some? ==> r.call.value.locationConstraint.value == st.region)
      && (r.Reports? <==> !create.CreateRaises?)
      && (r.Reports? ==> (r.ok <==> create.Created?))
      && (r.CreateEscapes? ==> r.message == create.message)
    ensures r.Reports? && r.ok ==> st.hasClient
    ensures r.CreateEscapes? <==> st.hasClient && (head.HeadRaises? || (head == HeadError("404") && create.CreateRaises?))
  {
    if !st.hasClient then Reports(false, None)
    else match head
      case HeadOk => Reports(true, None)
      case HeadRaises(e) => CreateEscapes(e, None)
      case HeadError(code) =>
        if code != "404" then Reports(false, None)
        else
          var call := CreateCall(st.bucket, if st.region == DefaultRegion then None else Some(st.region));
          match create
          case Created => Reports(true, Some(call))
          case CreateError(_) => Reports(false, Some(call))
          case CreateRaises(e) => CreateEscapes(e, Some(call))
  }

  datatype BucketInfo =
    | NoClient
    | Info(bucket: string, region: string, found: bool, bucketUrl: Option<string>)
    | InfoEscapes(message: string)

  /** `get_bucket_info`: only a client error from `head_bucket` is handled. */
  function GetBucketInfo(st: Storage, head: HeadOutcome): (r: BucketInfo)
    ensures r.NoClient? <==> !st.hasClient
    ensures r.InfoEscapes? <==> st.hasClient && head.HeadRaises?
    ensures r.InfoEscapes? ==> r.message == head.message
    ensures r.Info? ==> r.bucket == st.bucket && r.region == st.region && (r.found <==> head.HeadOk?)
    ensures r.Info? ==> (r.bucketUrl.Some? <==> r.found)
    ensures r.Info? && r.found ==> r.bucketUrl.value == ObjectUrl(st.bucket, st.region, "")
  {
    if !st.hasClient then NoClient
    else match head
      case HeadOk => Info(st.bucket, st.region, true, Some(ObjectUrl(st.bucket, st.region, "")))
      case HeadError(_) => Info(st.bucket, st.region, false, None)
      case HeadRaises(e) => InfoEscapes(e)
  }

  /** The two bucket operations read the same `head_bucket` answer alike:
      the info finds the bucket exactly when the create reports success
      without creating, a missing bucket (404) is the one case that creates,
      and an unhandled exception escapes both with the same text. */
  lemma BucketOpsAgree(st: Storage, head: HeadOutcome, create: CreateOutcome)
    requires st.hasClient
    ensures GetBucketInfo(st, head).Info? && GetBucketInfo(st, head).found
            <==> CreateBucketIfNotExists(st, head, create) == Reports(true, None)
    ensures CreateBucketIfNotExists(st, head, create).call.Some? <==> head == HeadError("404")
    ensures head == HeadError("404") ==> !GetBucketInfo(st, head).found
    ensures GetBucketInfo(st, head).InfoEscapes? <==>
            CreateBucketIfNotExists(st, head, create).CreateEscapes? && CreateBucketIfNotExists(st, head, create).call.None?
    ensures head.HeadRaises? ==>
      GetBucketInfo(st, head) == InfoEscapes(head.message)
      && CreateBucketIfNotExists(st, head, create) == CreateEscapes(head.message, None)
  {
  }
}

=== FILE: summary_analyzer.dfy ===
/**
 * Which automations a video summary triggers
 * (server/automations/summary_analyzer.py).
 *
 * The analyzer asks a language model for a JSON verdict; when the call fails
 * or the reply is not JSON it falls back to a keyword classifier: lower-case
 * the summary and test for substrings from two fixed keyword lists. The
 * model's reply is a parameter.
 */
module SummaryAnalyzer {
  import opened Common

  const CalendarKeywords: seq<string> := [
    "meeting", "appointment", "schedule", "call", "conference",
    "deadline", "due date", "reminder", "event", "presentation"]

  const HighlightsKeywords: seq<string> := [
    "important", "significant", "breakthrough", "achievement", "milestone",
    "success", "discovery", "insight", "memorable"]

  /** The analysis dictionary: the automations to run, one confidence score
      per automation, the reasoning text and a classification. */
  datatype Analysis = Analysis(
    triggered: seq<string>,
    calendarConfidence: real, highlightsConfidence: real,
    reasoning: string, classification: string)

  /** `any(k in text for k in keywords)`, evaluated as the generator does:
      the first keyword that occurs ends the scan. */
  predicate Mentions(keywords: seq<string>, text: string)
  {
    FirstContained(keywords, text).Some?
  }

  lemma MentionsIsAny(keywords: seq<string>, text: string)
    ensures Mentions(keywords, text) <==> AnyIn(keywords, text)
  {
    if AnyIn(keywords, text) {
      var k :| k in keywords && Contains(text, k);
      var j :| 0 <= j < |keywords| && keywords[j] == k;
      assert Contains(text, keywords[j]);
    }
  }

  /** The list built by appending "calendar" and then "highlights" when
      their tests pass. */
  function Verdict(calendar: bool, highlights: bool): (r: seq<string>)
    ensures "calendar" in r <==> calendar
    ensures "highlights" in r <==> highlights
    ensures NoDup(r) && |r| <= 2
    ensures forall a :: a in r ==> a == "calendar" || a == "highlights"
    ensures |r| == 2 ==> r == ["calendar", "highlights"]
  {
    var c: seq<string> := if calendar then ["calendar"] else [];
    var h: seq<string> := if highlights then ["highlights"] else [];
    assert "calendar" != "highlights";
    assert "calendar" in c + h <==> "calendar" in c;
    assert "highlights" in c + h <==> "highlights" in h;
    c + h
  }

  /** `_determine_triggered_automations` */
  function TriggeredAutomations(summary: string): (r: seq<string>)
    ensures "calendar" in r <==> AnyIn(CalendarKeywords, Lower(summary))
    ensures "highlights" in r <==> AnyIn(HighlightsKeywords, Lower(summary))
    ensures NoDup(r) && forall a :: a in r ==> a == "calendar" || a == "highlights"
    ensures |r| == 2 ==> r == ["calendar", "highlights"]
  {
    var text := Lower(summary);
    MentionsIsAny(CalendarKeywords, text);
    MentionsIsAny(HighlightsKeywords, text);
    Verdict(Mentions(CalendarKeywords, text), Mentions(HighlightsKeywords, text))
  }

  lemma LowerOfUpper(s: string)
    ensures Lower(Upper(s)) == Lower(s)
  {
    assert forall i :: 0 <= i < |s| ==> LowerChar(UpperChar(s[i])) == LowerChar(s[i]);
  }

  /** Matching ignores case: a summary and its upper-cased form trigger the
      same automations. */
  lemma CaseInsensitive(summary: string)
    ensures TriggeredAutomations(Upper(summary)) == TriggeredAutomations(summary)
  {
    LowerOfUpper(summary);
  }

  /** Matching is by substring, not by word: a keyword inside a longer word
      ("recall", "eventually") still triggers. */
  lemma SubstringTriggers(summary: string, i: nat, k: nat)
    requires k < |CalendarKeywords|
    requires i + |CalendarKeywords[k]| <= |summary|
    requires Lower(summary)[i..i + |CalendarKeywords[k]|] == CalendarKeywords[k]
    ensures "calendar" in TriggeredAutomations(summary)
  {
    ContainsAt(Lower(summary), CalendarKeywords[k], i);
    assert CalendarKeywords[k] in CalendarKeywords;
  }

  const FallbackReasoning: string := "Fallback analysis used due to API error"

  /** `_fallback_analysis`: the keyword verdict with zero confidences. */
  function FallbackAnalysis(summary: string): (r: Analysis)
    ensures r.triggered == TriggeredAutomations(summary)
    ensures r.calendarConfidence == 0.0 && r.highlightsConfidence == 0.0
    ensures r.classification == "general" && r.reasoning == FallbackReasoning
  {
    Analysis(TriggeredAutomations(summary), 0.0, 0.0, FallbackReasoning, "general")
  }

  /** What the language model call produced: an exception, or a reply that
      either parsed as JSON or did not. */
  datatype LlmReply = ApiError | Reply(parsed: Option<Analysis>)

  /** `analyze_summary` */
  function AnalyzeSummary(summary: string, reply: LlmReply): (r: Analysis)
    ensures reply.ApiError? || reply.parsed.None? ==> r == FallbackAnalysis(summary)
    ensures reply.Reply? && reply.parsed.Some? ==> r == reply.parsed.value
  {
    match reply
    case ApiError => FallbackAnalysis(summary)
    case Reply(None) => FallbackAnalysis(summary)
    case Reply(Some(a)) => a
  }
}

=== FILE: supabase.dfy ===
/**
 * The `videos` table client (server/database/supabase_client.py).
 *
 * The table is a sequence of rows and a row a map from column to value; a
 * query returns the matching rows in table order. Whether a call raises
 * or returns no rows is a parameter, as is the clock reading the status
 * update writes.
 */
module SupabaseClient {
  import opened Common

  const TableName: string := "videos"

  /** A column value: text, a number, or SQL/JSON null. */
  datatype Value = VText(text: string) | VInt(n: int) | VNull

  type Row = map<string, Value>

  type Table = seq<Row>

  /** `d.get(key)`: null when the key is missing. */
  function Get(d: map<string, Value>, key: string): Value
  {
    if key in d then d[key] else VNull
  }

  /** The row `insert_video_analysis` writes for an analysis. */
  function VideoRecord(a: map<string, Value>): (r: Row)
    ensures r.Keys == {"video_id", "timestamp", "datetime", "detailed_summary", "s3_link", "file_size", "processed_at"}
    ensures r["video_id"] == Get(a, "linking_uuid") && r["s3_link"] == Get(a, "s3_url")
    ensures r["timestamp"] == Get(a, "datetime") && r["datetime"] == Get(a, "datetime")
    ensures r["detailed_summary"] == Get(a, "detailed_summary") && r["file_size"] == Get(a, "file_size")
    ensures r["processed_at"] == Get(a, "processed_at")
    ensures "linking_uuid" !in r
  {
    map["video_id" := Get(a, "linking_uuid"),
        "timestamp" := Get(a, "datetime"),
        "datetime" := Get(a, "datetime"),
        "detailed_summary" := Get(a, "detailed_summary"),
        "s3_link" := Get(a, "s3_url"),
        "file_size" := Get(a, "file_size"),
        "processed_at" := Get(a, "processed_at")]
  }

  /** What the insert call does: returns the row, returns no rows, or
      raises. */
  datatype InsertResult = InsertReturnsRow | InsertReturnsNothing | InsertRaises

  /** `insert_video_analysis`: the table afterwards and the linking id
      returned (None for Python's None). */
  function InsertVideoAnalysis(t: Table, a: map<string, Value>, result: InsertResult): (r: (Table, Option<Value>))
    ensures result.InsertReturnsRow? ==> r.0 == t + [VideoRecord(a)]
    ensures !result.InsertReturnsRow? ==> r == (t, None)
    ensures r.1.Some? <==> result.InsertReturnsRow? && Get(a, "linking_uuid") != VNull
    ensures r.1.Some? ==> r.1.value == Get(a, "linking_uuid") && r.0[|t|]["video_id"] == r.1.value
  {
    if !result.InsertReturnsRow? then (t, None)
    else (t + [VideoRecord(a)], if Get(a, "linking_uuid") == VNull then None else Some(Get(a, "linking_uuid")))
  }

  predicate HasVideoId(row: Row, videoId: string)
  {
    Get(row, "video_id") == VText(videoId)
  }

  /** `get_video_analysis`: the first row whose `video_id` is the given id,
      or None when there is none or the query raises. */
  function GetVideoAnalysis(t: Table, videoId: string, raises: bool): (r: Option<Row>)
    ensures raises ==> r.None?
    ensures !raises ==> (r.None? <==> forall i :: 0 <= i < |t| ==> !HasVideoId(t[i], videoId))
    ensures r.Some? ==> r.value in t && HasVideoId(r.value, videoId)
    decreases |t|
  {
    if raises || |t| == 0 then None
    else if HasVideoId(t[0], videoId) then Some(t[0])
    else GetVideoAnalysis(t[1..], videoId, false)
  }

  /** Every row written by `insert_video_analysis` has exactly the columns
      of `VideoRecord`. */
  predicate Inserted(t: Table)
  {
    forall i :: 0 <= i < |t| ==> "linking_uuid" !in t[i] && "video_id" in t[i]
  }

  /** The columns `update_vector_status` sets: the status, the time, and
      the vector id only when a non-empty one is given. */
  function UpdateData(vectorStatus: string, vectorId: Option<string>, now: string): (r: Row)
    ensures "vector_status" in r && "vector_updated_at" in r
    ensures r["vector_status"] == VText(vectorStatus) && r["vector_updated_at"] == VText(now)
    ensures "vector_id" in r <==> vectorId.Some? && vectorId.value != ""
    ensures "vector_id" in r ==> r["vector_id"] == VText(vectorId.value)
    ensures r.Keys <= {"vector_status", "vector_updated_at", "vector_id"}
  {
    var base := map["vector_status" := VText(vectorStatus), "vector_updated_at" := VText(now)];
    if vectorId.Some? && vectorId.value != "" then base["vector_id" := VText(vectorId.value)] else base
  }

  /** The filter `update_vector_status` applies: the `linking_uuid` column. */
  predicate LinkedTo(row: Row, linkingUuid: string)
  {
    Get(row, "linking_uuid") == VText(linkingUuid)
  }

  /** `update_vector_status`: every row whose `linking_uuid` matches gets
      the update columns; the result says whether any row matched. */
  function UpdateVectorStatus(t: Table, linkingUuid: string, vectorStatus: string, vectorId: Option<string>, now: string,
                              raises: bool): (r: (Table, bool))
    ensures raises ==> r == (t, false)
    ensures !raises ==> (r.1 <==> exists i :: 0 <= i < |t| && LinkedTo(t[i], linkingUuid))
    ensures |r.0| == |t|
    ensures forall i :: 0 <= i < |t| ==>
      r.0[i] == (if !raises && LinkedTo(t[i], linkingUuid) then t[i] + UpdateData(vectorStatus, vectorId, now) else t[i])
  {
    if raises then (t, false)
    else
      var upd := UpdateData(vectorStatus, vectorId, now);
      (seq(|t|, i requires 0 <= i < |t| => if LinkedTo(t[i], linkingUuid) then t[i] + upd else t[i]),
       exists i :: 0 <= i < |t| && LinkedTo(t[i], linkingUuid))
  }

  /** Insert then get: a stored analysis is found again by its linking id
      when no earlier row carries that id. */
  lemma {:induction false} InsertThenGet(t: Table, a: map<string, Value>, linking: string)
    requires Get(a, "linking_uuid") == VText(linking)
    requires forall i :: 0 <= i < |t| ==> !HasVideoId(t[i], linking)
    ensures GetVideoAnalysis(InsertVideoAnalysis(t, a, InsertReturnsRow).0, linking, false) == Some(VideoRecord(a))
    decreases |t|
  {
    if |t| > 0 {
      assert (t + [VideoRecord(a)])[1..] == t[1..] + [VideoRecord(a)];
      InsertThenGet(t[1..], a, linking);
    }
  }

  /** Inserts keep the table made of inserted records. */
  lemma InsertKeepsShape(t: Table, a: map<string, Value>, result: InsertResult)
    requires Inserted(t)
    ensures Inserted(InsertVideoAnalysis(t, a, result).0)
  {
  }

  /** As written, the status update filters on a column the insert never
      writes, so on a table of inserted records it matches no row, reports
      failure and changes nothing. */
  lemma UpdateMissesInsertedRows(t: Table, linkingUuid: string, vectorStatus: string, vectorId: Option<string>, now: string)
    requires Inserted(t)
    ensures UpdateVectorStatus(t, linkingUuid, vectorStatus, vectorId, now, false) == (t, false)
  {
    var r := UpdateVectorStatus(t, linkingUuid, vectorStatus, vectorId, now, false);
    assert forall i :: 0 <= i < |t| ==> !LinkedTo(t[i], linkingUuid);
    assert r.0 == t;
  }
}

=== FILE: system.dfy ===
/**
 * The per-user video-system registry (server/app/api/v1/endpoints/system.py).
 *
 * The endpoints keep a process-wide map from user id to the running system
 * of that user. `start` checks the map and schedules a background task;
 * the task inserts the user when it runs and removes it again if the
 * system fails. `stop` and `end` remove the user, `status` and `health`
 * read the map. The map is a Dafny `map`; the clock reading, whether the
 * API key is configured, whether Redis answers and whether building or
 * running the lifecycle manager raises are parameters.
 */
module SystemRegistry {
  import opened Common

  /** The values of `Config` the start response reports. */
  const Fps: nat := 10
  const Width: nat := 1280
  const Height: nat := 720
  const SegmentDuration: nat := 10
  const NumWorkers: nat := 3

  /** The `detail` of the HTTP 500 a failing start produces: the handler's
      own `except Exception` wraps every failure, its own HTTPException
      included, whose text is "<code>: <detail>". */
  const StartFailurePrefix: string := "Failed to start video system: "
  const MissingKeyText: string := "500: TWELVELABS_API_KEY is not configured"

  /** What building `VideoLifecycleManager(api_key, user_id)` raises: the
      manager hands `user_id` on to `VideoIngestionSystem`, whose
      constructor has no such parameter (server/main.py:22-27,
      server/video_injestion/ingestion.py:14-18). */
  const ManagerInitError: string := "VideoIngestionSystem.__init__() got an unexpected keyword argument 'user_id'"

  /** One entry of `_running_systems` (the manager object itself is left
      out). */
  datatype SystemInfo = SystemInfo(status: string, startedAt: real)

  type Registry = map<string, SystemInfo>

  datatype StartConfig = StartConfig(resolution: string, fps: nat, segmentDuration: nat, numWorkers: nat)

  /** The JSON bodies the endpoints answer with, and the HTTP error they
      raise. */
  datatype Reply =
    | AlreadyRunning(userId: string)
    | Starting(userId: string, config: StartConfig)
    | NotRunning(userId: string)
    | Status(userId: string, status: string, uptime: real)
    | Stopped(userId: string)
    | Ended(userId: string, uptime: real)
    | HttpError(code: nat, detail: string)

  /** The "status" field of a reply. */
  function StatusField(r: Reply): string
  {
    match r
    case AlreadyRunning(_) => "already_running"
    case Starting(_, _) => "starting"
    case NotRunning(_) => "not_running"
    case Status(_, s, _) => s
    case Stopped(_) => "stopped"
    case Ended(_, _) => "ended"
    case HttpError(_, _) => ""
  }

  /** The start response's `config` block. */
  function DefaultConfig(): (r: StartConfig)
    ensures r.resolution == NatToString(Width) + "x" + NatToString(Height)
    ensures r.fps == Fps && r.segmentDuration == SegmentDuration && r.numWorkers == NumWorkers
  {
    StartConfig(NatToString(Width) + "x" + NatToString(Height), Fps, SegmentDuration, NumWorkers)
  }

  /** Every entry was written by the background task, so it says "running". */
  predicate AllRunning(reg: Registry)
  {
    forall u :: u in reg ==> reg[u].status == "running"
  }

  /** What `start_video_system` hands back: the registry (which it never
      changes itself), the reply, and whether it scheduled `run_system`. */
  datatype StartOutcome = StartOutcome(registry: Registry, reply: Reply, scheduled: bool)

  /** `start_video_system`. `apiKey` is the configured key ("" when unset);
      `managerRaises` is what constructing the lifecycle manager raises, if
      anything. */
  function StartVideoSystem(reg: Registry, userId: string, apiKey: string, managerRaises: Option<string>): (r: StartOutcome)
    ensures r.registry == reg
    ensures r.scheduled <==> r.reply.Starting?
    ensures r.reply.Starting? <==> userId !in reg && apiKey != "" && managerRaises.None?
    ensures userId in reg ==> r.reply == AlreadyRunning(userId)
    ensures r.reply.Starting? ==> r.reply == Starting(userId, DefaultConfig())
    ensures userId !in reg && apiKey == "" ==> r.reply == HttpError(500, StartFailurePrefix + MissingKeyText)
    ensures userId !in reg && apiKey != "" && managerRaises.Some? ==>
      r.reply == HttpError(500, StartFailurePrefix + managerRaises.value)
  {
    if userId in reg then StartOutcome(reg, AlreadyRunning(userId), false)
    else if apiKey == "" then StartOutcome(reg, HttpError(500, StartFailurePrefix + MissingKeyText), false)
    else match managerRaises
      case Some(e) => StartOutcome(reg, HttpError(500, StartFailurePrefix + e), false)
      case None => StartOutcome(reg, Starting(userId, DefaultConfig()), true)
  }

  /** The first step of `run_system`: the user is (re)registered as running
      from `now`. Nothing else changes. */
  function RegisterRun(reg: Registry, userId: string, now: real): (r: Registry)
    ensures userId in r && r[userId] == SystemInfo("running", now)
    ensures r.Keys == reg.Keys + {userId}
    ensures forall u :: u in reg && u != userId ==> r[u] == reg[u]
  {
    reg[userId := SystemInfo("running", now)]
  }

  /** The failure path of `run_system`: the user's entry, if any, is popped.
      Nothing else changes. */
  function RunFailed(reg: Registry, userId: string): (r: Registry)
    ensures userId !in r
    ensures r.Keys == reg.Keys - {userId}
    ensures forall u :: u in r ==> r[u] == reg[u]
  {
    reg - {userId}
  }

  /** `get_system_status` at clock reading `now`: the uptime is rounded
      to two places. */
  function GetSystemStatus(reg: Registry, userId: string, now: real): (r: Reply)
    ensures r.NotRunning? <==> userId !in reg
    ensures userId in reg ==> r.Status? && r.userId == userId && r.status == reg[userId].status
    ensures userId in reg ==> -0.005 <= r.uptime - (now - reg[userId].startedAt) <= 0.005
    ensures userId in reg ==> r.uptime == Round2(now - reg[userId].startedAt)
  {
    if userId !in reg then NotRunning(userId)
    else Status(userId, reg[userId].status, Round2(now - reg[userId].startedAt))
  }

  /** `stop_video_system`: the new registry and the reply. */
  function StopVideoSystem(reg: Registry, userId: string): (r: (Registry, Reply))
    ensures userId !in reg ==> r == (reg, NotRunning(userId))
    ensures userId in reg ==> r.1 == Stopped(userId)
    ensures userId !in r.0 && r.0.Keys == reg.Keys - {userId}
    ensures forall u :: u in r.0 ==> r.0[u] == reg[u]
  {
    if userId !in reg then (reg, NotRunning(userId)) else (reg - {userId}, Stopped(userId))
  }

  /** `end_video_system`: as stop, but the reply is "ended" and carries the
      uptime of the removed entry, rounded to two places. */
  function EndVideoSystem(reg: Registry, userId: string, now: real): (r: (Registry, Reply))
    ensures userId !in reg ==> r == (reg, NotRunning(userId))
    ensures userId in reg ==> r.1.Ended? && r.1.userId == userId
    ensures userId in reg ==> -0.005 <= r.1.uptime - (now - reg[userId].startedAt) <= 0.005
    ensures userId in reg ==> r.1.uptime == Round2(now - reg[userId].startedAt)
    ensures userId !in r.0 && r.0.Keys == reg.Keys - {userId}
    ensures forall u :: u in r.0 ==> r.0[u] == reg[u]
  {
    if userId !in reg then (reg, NotRunning(userId))
    else (reg - {userId}, Ended(userId, Round2(now - reg[userId].startedAt)))
  }

  datatype HealthReport = HealthReport(
    status: string, redisConnected: bool, apiKeyConfigured: bool, runningSystems: nat, activeUsers: set<string>)

  /** `system_health`. The order of `active_users` is left out: it is the
      set of keys. */
  function SystemHealth(reg: Registry, redisConnected: bool, apiKey: string): (r: HealthReport)
    ensures r.status == "healthy" <==> redisConnected && apiKey != ""
    ensures r.status != "healthy" ==> r.status == "unhealthy"
    ensures r.redisConnected == redisConnected && r.apiKeyConfigured == (apiKey != "")
    ensures r.runningSystems == |reg| && r.activeUsers == reg.Keys
  {
    HealthReport(if redisConnected && apiKey != "" then "healthy" else "unhealthy",
                 redisConnected, apiKey != "", |reg|, reg.Keys)
  }

  /** Stop and end are idempotent: a second call finds the user gone,
      answers "not_running" and changes nothing. */
  lemma StopEndIdempotent(reg: Registry, userId: string, now: real)
    ensures var (reg1, _) := StopVideoSystem(reg, userId);
      StopVideoSystem(reg1, userId) == (reg1, NotRunning(userId))
      && EndVideoSystem(reg1, userId, now) == (reg1, NotRunning(userId))
    ensures var (reg1, _) := EndVideoSystem(reg, userId, now);
      StopVideoSystem(reg1, userId) == (reg1, NotRunning(userId))
      && EndVideoSystem(reg1, userId, now) == (reg1, NotRunning(userId))
  {
  }

  /** Stop and end touch only the caller's entry: every other user keeps
      their entry and sees the same status. */
  lemma StopLeavesOthers(reg: Registry, userId: string, other: string, now: real)
    requires other != userId
    ensures GetSystemStatus(StopVideoSystem(reg, userId).0, other, now) == GetSystemStatus(reg, other, now)
    ensures GetSystemStatus(EndVideoSystem(reg, userId, now).0, other, now) == GetSystemStatus(reg, other, now)
  {
  }

  /** Every operation keeps the registry's entries at "running", so on a
      registry built by them the status endpoint says "not_running"
      exactly when the user is absent. */
  lemma OperationsKeepRunning(reg: Registry, userId: string, now: real)
    requires AllRunning(reg)
    ensures AllRunning(RegisterRun(reg, userId, now))
    ensures AllRunning(RunFailed(reg, userId))
    ensures AllRunning(StopVideoSystem(reg, userId).0)
    ensures AllRunning(EndVideoSystem(reg, userId, now).0)
    ensures StatusField(GetSystemStatus(reg, userId, now)) == "not_running" <==> userId !in reg
  {
  }

  /** The check-then-insert race: the user is registered only when the
      background task runs, so two starts issued before it runs both pass
      the check and schedule a task each. When both tasks run the user has
      one entry, the later one's. */
  lemma StartRace(reg: Registry, userId: string, apiKey: string, t1: real, t2: real)
    requires userId !in reg && apiKey != ""
    ensures var first := StartVideoSystem(reg, userId, apiKey, None);
      var second := StartVideoSystem(first.registry, userId, apiKey, None);
      first.reply.Starting? && first.scheduled && second.reply.Starting? && second.scheduled
    ensures var both := RegisterRun(RegisterRun(reg, userId, t1), userId, t2);
      both[userId].startedAt == t2 && |both| == |reg| + 1
  {
    var once := RegisterRun(reg, userId, t1);
    assert once.Keys == reg.Keys + {userId};
    assert RegisterRun(once, userId, t2).Keys == once.Keys;
  }

  /** The lifecycle: after a start and its task have run, a second start
      answers "already_running"; after a stop, or a failed run, the user is
      "not_running" again and the rest of the registry is as before. */
  lemma Lifecycle(reg: Registry, userId: string, apiKey: string, now: real, later: real)
    requires userId !in reg && apiKey != ""
    ensures var running := RegisterRun(reg, userId, now);
      StartVideoSystem(running, userId, apiKey, None).reply == AlreadyRunning(userId)
      && GetSystemStatus(running, userId, later) == Status(userId, "running", Round2(later - now))
      && StopVideoSystem(running, userId).0 == reg
      && RunFailed(running, userId) == reg
  {
    var running := RegisterRun(reg, userId, now);
    assert StopVideoSystem(running, userId).0 == reg;
  }

  /** As written, constructing the lifecycle manager always raises, so a
      start for a user who is not running never reaches "starting": it
      answers 500, with or without an API key, and schedules nothing. */
  lemma StartAsWrittenFails(reg: Registry, userId: string, apiKey: string)
    requires userId !in reg
    ensures var r := StartVideoSystem(reg, userId, apiKey, Some(ManagerInitError));
      r.reply.HttpError? && r.reply.code == 500 && !r.scheduled && r.registry == reg
  {
  }

  /** Health reports one running system per active user. */
  lemma HealthCountsUsers(reg: Registry, redisConnected: bool, apiKey: string)
    ensures var h := SystemHealth(reg, redisConnected, apiKey);
      h.runningSystems == |h.activeUsers|
  {
  }
}

=== FILE: vector_store.dfy ===
/**
 * The memory store on Qdrant (server/app/services/vector_store.py).
 *
 * The collection is a map from point id to point. The service writes
 * points, builds the filter of a similarity search and turns the hits back
 * into records; the similarity search itself, the retrieval by id and the
 * UUID parser are parameters, and a None from one of them stands for an
 * exception.
 */
module VectorStore {
  import opened Common
  import opened Chrono
  import opened MemoryModels

  const CollectionName: string := "lifeos_memories"

  /** The embedding size of the Marengo retrieval model. */
  const VectorSize: nat := 1024

  const DeleteErrorPrefix: string := "Failed to delete memories: "

  /** A payload: the string fields the service writes. */
  type Payload = map<string, string>

  datatype PointStruct = PointStruct(id: string, vector: seq<real>, payload: Payload)

  type Collection = map<string, PointStruct>

  /** `initialize_collection`: whether the collection is there afterwards.
      `names` is what listing the collections returns (None when it
      raises); `createOk` whether creating the collection and its two
      payload indexes succeeds. */
  function InitializeCollection(names: Option<seq<string>>, createOk: bool): (r: bool)
    ensures names.None? ==> !r
    ensures names.Some? && CollectionName in names.value ==> r
    ensures names.Some? && CollectionName !in names.value ==> r == createOk
  {
    match names
    case None => false
    case Some(ns) => CollectionName in ns || createOk
  }

  /** The payload `add_memory` stores: the user, the point's own id as
      `video_id`, and the timestamp in ISO format. */
  function StoredPayload(m: MemoryPoint): (r: Payload)
    requires ValidDateTime(m.timestamp)
    ensures r.Keys == {"user_id", "video_id", "timestamp"}
    ensures r["user_id"] == m.userId && r["video_id"] == m.id
    ensures FromIsoFormat(r["timestamp"]) == Some(m.timestamp)
  {
    IsoFormatReadsBack(m.timestamp);
    map["user_id" := m.userId, "video_id" := m.id, "timestamp" := FormatDateTime(m.timestamp)]
  }

  /** `add_memory`: the collection afterwards and the flag returned. A point
      without an embedding, or with an empty one, is refused; a failing
      upsert changes nothing. */
  function AddMemory(coll: Collection, m: MemoryPoint, upsertOk: bool): (r: (Collection, bool))
    requires ValidDateTime(m.timestamp)
    ensures r.1 <==> m.embedding.Some? && |m.embedding.value| > 0 && upsertOk
    ensures r.1 ==> r.0 == coll[m.id := PointStruct(m.id, m.embedding.value, StoredPayload(m))]
    ensures !r.1 ==> r.0 == coll
  {
    if m.embedding.None? || |m.embedding.value| == 0 || !upsertOk then (coll, false)
    else (coll[m.id := PointStruct(m.id, m.embedding.value, StoredPayload(m))], true)
  }

  /** A condition of the search filter. */
  datatype Condition = MatchUser(userId: Uuid) | TimestampRange(gte: Option<string>, lte: Option<string>)

  /** An optional date-time that Python could hold. */
  predicate ValidBound(d: Option<DateTime>)
  {
    d.Some? ==> ValidDateTime(d.value)
  }

  function IsoBound(d: Option<DateTime>): (r: Option<string>)
    requires ValidBound(d)
    ensures r.Some? <==> d.Some?
  {
    if d.Some? then Some(FormatDateTime(d.value)) else None
  }

  /** The `must` conditions of `search_memories`: always the user match,
      and a timestamp range when a bound is given, holding exactly the
      bounds given. */
  function SearchFilter(userId: Uuid, dateFrom: Option<DateTime>, dateTo: Option<DateTime>): (r: seq<Condition>)
    requires ValidBound(dateFrom) && ValidBound(dateTo)
    ensures |r| >= 1 && r[0] == MatchUser(userId)
    ensures |r| == 1 <==> dateFrom.None? && dateTo.None?
    ensures |r| <= 2
    ensures |r| == 2 ==> r[1].TimestampRange? && (r[1].gte.Some? <==> dateFrom.Some?) && (r[1].lte.Some? <==> dateTo.Some?)
  {
    var user := [MatchUser(userId)];
    if dateFrom.None? && dateTo.None? then user
    else user + [TimestampRange(IsoBound(dateFrom), IsoBound(dateTo))]
  }

  /** Seconds since 0001-01-01, for ordering date-times. */
  function Seconds(t: DateTime): int
    requires ValidDateTime(t)
  {
    TotalMinutes(t) * 60 + t.second
  }

  /** Whether one condition admits a point of this user and timestamp. */
  predicate AdmitsOne(c: Condition, userId: Uuid, ts: DateTime)
    requires ValidDateTime(ts)
  {
    match c
    case MatchUser(u) => u == userId
    case TimestampRange(gte, lte) =>
      (gte.Some? ==> FromIsoFormat(gte.value).Some? && Seconds(FromIsoFormat(gte.value).value) <= Seconds(ts))
      && (lte.Some? ==> FromIsoFormat(lte.value).Some? && Seconds(ts) <= Seconds(FromIsoFormat(lte.value).value))
  }

  /** Whether a `must` filter admits a point: every condition does. */
  predicate Admits(conds: seq<Condition>, userId: Uuid, ts: DateTime)
    requires ValidDateTime(ts)
  {
    forall i :: 0 <= i < |conds| ==> AdmitsOne(conds[i], userId, ts)
  }

  /** What the filter means where the library accepts ISO bounds (see
      `SearchMemories`): it admits exactly the points of the user whose
      timestamp lies within the bounds that are given, both inclusive. */
  lemma FilterMeaning(userId: Uuid, dateFrom: Option<DateTime>, dateTo: Option<DateTime>, pointUser: Uuid, ts: DateTime)
    requires ValidBound(dateFrom) && ValidBound(dateTo) && ValidDateTime(ts)
    ensures Admits(SearchFilter(userId, dateFrom, dateTo), pointUser, ts) <==>
      pointUser == userId
      && (dateFrom.Some? ==> Seconds(dateFrom.value) <= Seconds(ts))
      && (dateTo.Some? ==> Seconds(ts) <= Seconds(dateTo.value))
  {
    var f := SearchFilter(userId, dateFrom, dateTo);
    assert AdmitsOne(f[0], pointUser, ts) <==> pointUser == userId;
    if |f| == 2 {
      RangeMeaning(dateFrom, dateTo, pointUser, ts);
      assert f[1] == TimestampRange(IsoBound(dateFrom), IsoBound(dateTo));
      assert Admits(f, pointUser, ts) <==> AdmitsOne(f[0], pointUser, ts) && AdmitsOne(f[1], pointUser, ts);
    }
  }

  /** The timestamp range, compared as date-times, admits exactly the
      timestamps within the bounds it was built from. */
  lemma RangeMeaning(dateFrom: Option<DateTime>, dateTo: Option<DateTime>, pointUser: Uuid, ts: DateTime)
    requires ValidBound(dateFrom) && ValidBound(dateTo) && ValidDateTime(ts)
    ensures AdmitsOne(TimestampRange(IsoBound(dateFrom), IsoBound(dateTo)), pointUser, ts) <==>
      (dateFrom.Some? ==> Seconds(dateFrom.value) <= Seconds(ts))
      && (dateTo.Some? ==> Seconds(ts) <= Seconds(dateTo.value))
  {
    IsoBoundReadsBack(dateFrom);
    IsoBoundReadsBack(dateTo);
  }

  /** A bound written into the filter reads back as the same date-time. */
  lemma IsoBoundReadsBack(d: Option<DateTime>)
    requires ValidBound(d)
    ensures d.Some? ==> FromIsoFormat(IsoBound(d).value) == Some(d.value)
  {
    if d.Some? {
      IsoFormatReadsBack(d.value);
    }
  }

  /** One hit of the similarity search. */
  datatype Hit = Hit(id: string, payload: Payload, score: real)

  /** `payload.get(key, "")` */
  function Get(p: Payload, key: string): string
  {
    if key in p then p[key] else ""
  }

  /** The conversion of one hit: None where building the result raises (an
      id that is not a UUID, a timestamp that does not parse). A missing
      `video_id` becomes "". */
  function ParseHit(h: Hit, uuid: string -> Option<Uuid>): (r: Option<MemorySearchResult>)
    ensures r.Some? <==> uuid(h.id).Some? && FromIsoFormat(Get(h.payload, "timestamp")).Some?
    ensures r.Some? ==> r.value.id == uuid(h.id).value && r.value.videoId == Get(h.payload, "video_id")
                        && r.value.score == h.score
                        && Some(r.value.timestamp) == FromIsoFormat(Get(h.payload, "timestamp"))
  {
    match (uuid(h.id), FromIsoFormat(Get(h.payload, "timestamp")))
    case (Some(id), Some(ts)) => Some(MemorySearchResult(id, Get(h.payload, "video_id"), ts, h.score))
    case _ => None
  }

  /** The conversion as a function of the hit alone. */
  function Converter(uuid: string -> Option<Uuid>): Hit -> Option<MemorySearchResult>
  {
    (h: Hit) => ParseHit(h, uuid)
  }

  function Parsable(uuid: string -> Option<Uuid>): Hit -> bool
  {
    Converts(Converter(uuid))
  }

  /** The loop over the hits: each one that converts is kept, in order, and
      the others are skipped. */
  function ParseHits(hits: seq<Hit>, uuid: string -> Option<Uuid>): (r: seq<MemorySearchResult>)
    ensures |r| == Count(hits, Parsable(uuid))
  {
    Converted(hits, Converter(uuid))
  }

  /** Every result comes from a hit, and results keep the hits' order: the
      k-th result comes from a hit after exactly k hits that convert. */
  lemma ResultProvenance(hits: seq<Hit>, uuid: string -> Option<Uuid>, k: nat) returns (i: nat)
    requires k < |ParseHits(hits, uuid)|
    ensures i < |hits| && ParseHit(hits[i], uuid) == Some(ParseHits(hits, uuid)[k])
    ensures Count(hits[..i], Parsable(uuid)) == k
  {
    i := ConvertedProvenance(hits, Converter(uuid), k);
  }

  /** When every hit converts, the results are the hits converted one for
      one. */
  lemma AllParsableKept(hits: seq<Hit>, uuid: string -> Option<Uuid>)
    requires forall i :: 0 <= i < |hits| ==> ParseHit(hits[i], uuid).Some?
    ensures |ParseHits(hits, uuid)| == |hits|
    ensures forall i :: 0 <= i < |hits| ==> ParseHits(hits, uuid)[i] == ParseHit(hits[i], uuid).value
  {
    AllConverted(hits, Converter(uuid));
  }

  /** `search_memories`: the converted hits of a search under
      `SearchFilter`, or [] when building the filter or the search raises.
      `rangeBuilds` says whether the client library's `Range` accepts the
      ISO texts the service gives it as bounds. The qdrant_client `Range`
      declares numeric bounds, so as written it does not: building a date
      range raises, and the handler answers []. */
  function SearchMemories(userId: Uuid, queryVector: seq<real>, limit: int, dateFrom: Option<DateTime>, dateTo: Option<DateTime>,
                          scoreThreshold: real, rangeBuilds: bool,
                          search: (seq<Condition>, seq<real>, int, real) -> Option<seq<Hit>>,
                          uuid: string -> Option<Uuid>): (r: seq<MemorySearchResult>)
    requires ValidBound(dateFrom) && ValidBound(dateTo)
    ensures (dateFrom.Some? || dateTo.Some?) && !rangeBuilds ==> r == []
    ensures var hits := search(SearchFilter(userId, dateFrom, dateTo), queryVector, limit, scoreThreshold);
      (dateFrom.None? && dateTo.None?) || rangeBuilds ==>
        (hits.None? ==> r == []) && (hits.Some? ==> |r| == Count(hits.value, Parsable(uuid)) && r == ParseHits(hits.value, uuid))
  {
    if (dateFrom.Some? || dateTo.Some?) && !rangeBuilds then []
    else
      match search(SearchFilter(userId, dateFrom, dateTo), queryVector, limit, scoreThreshold)
      case None => []
      case Some(hits) => ParseHits(hits, uuid)
  }

  /** As written, the date bounds never narrow a search: a search without
      bounds is unaffected by the library's `Range`, and one with a bound
      finds nothing, whatever the collection holds. */
  lemma AsWrittenDateSearchEmpty(userId: Uuid, queryVector: seq<real>, limit: int, dateFrom: Option<DateTime>,
                                 dateTo: Option<DateTime>, scoreThreshold: real,
                                 search: (seq<Condition>, seq<real>, int, real) -> Option<seq<Hit>>,
                                 uuid: string -> Option<Uuid>)
    requires ValidBound(dateFrom) && ValidBound(dateTo)
    ensures dateFrom.None? && dateTo.None? ==>
      SearchMemories(userId, queryVector, limit, dateFrom, dateTo, scoreThreshold, false, search, uuid)
      == SearchMemories(userId, queryVector, limit, dateFrom, dateTo, scoreThreshold, true, search, uuid)
    ensures dateFrom.Some? || dateTo.Some? ==>
      SearchMemories(userId, queryVector, limit, dateFrom, dateTo, scoreThreshold, false, search, uuid) == []
  {
  }

  /** `retrieve` of one id from the collection. */
  function Retrieve(coll: Collection, id: string): (r: seq<PointStruct>)
    ensures |r| <= 1 && (|r| == 1 <==> id in coll)
  {
    if id in coll then [coll[id]] else []
  }

  /** `get_memory`, given what `retrieve` returned (None when it raises):
      the first point rebuilt with the fields the payload does not hold set
      to their fixed values, or None when there is no point or the rebuild
      raises. */
  function GetMemory(retrieved: Option<seq<PointStruct>>, uuid: string -> Option<Uuid>): (r: Option<MemoryPoint>)
    ensures retrieved.None? || retrieved.value == [] ==> r.None?
    ensures r.Some? ==> var p := retrieved.value[0];
      uuid(p.id) == Some(r.value.id) && "user_id" in p.payload && uuid(p.payload["user_id"]) == Some(r.value.userId)
      && FromIsoFormat(Get(p.payload, "timestamp")) == Some(r.value.timestamp)
      && r.value.embedding == Some(p.vector)
    ensures r.Some? ==> r.value.content == "" && r.value.contentType == "video" && r.value.metadata == map[]
                        && r.value.tags == [] && r.value.sourceId.None?
  {
    if retrieved.None? || retrieved.value == [] then None
    else
      var p := retrieved.value[0];
      if "user_id" !in p.payload then None
      else match (uuid(p.id), uuid(p.payload["user_id"]), FromIsoFormat(Get(p.payload, "timestamp")))
        case (Some(id), Some(user), Some(ts)) => Some(MemoryPoint(id, user, "", "video", ts, map[], [], None, Some(p.vector)))
        case _ => None
  }

  /** `delete_memories`: the collection afterwards and the (successful,
      failed, errors) triple. One delete call covers all ids, so either all
      count as deleted or all as failed. */
  function DeleteMemories(coll: Collection, ids: seq<Uuid>, deleteRaises: Option<string>): (r: (Collection, nat, nat, seq<string>))
    ensures r.1 + r.2 == |ids|
    ensures deleteRaises.None? ==> r.0.Keys == coll.Keys - (set i | i in ids) && r.1 == |ids| && r.2 == 0 && r.3 == []
    ensures deleteRaises.None? ==> forall k :: k in r.0 ==> r.0[k] == coll[k]
    ensures deleteRaises.Some? ==> r == (coll, 0, |ids|, [DeleteErrorPrefix + deleteRaises.value])
  {
    match deleteRaises
    case None => (coll - (set i | i in ids), |ids|, 0, [])
    case Some(e) => (coll, 0, |ids|, [DeleteErrorPrefix + e])
  }

  /** Round trip: a point stored by `add_memory` is read back by
      `get_memory` with its id, user, timestamp and embedding, and with the
      fields the payload does not keep at their fixed values, when the UUID
      parser accepts both ids as they are. */
  lemma AddThenGet(coll: Collection, m: MemoryPoint, uuid: string -> Option<Uuid>)
    requires ValidDateTime(m.timestamp)
    requires AddMemory(coll, m, true).1
    requires uuid(m.id) == Some(m.id) && uuid(m.userId) == Some(m.userId)
    ensures GetMemory(Some(Retrieve(AddMemory(coll, m, true).0, m.id)), uuid)
            == Some(MemoryPoint(m.id, m.userId, "", "video", m.timestamp, map[], [], None, m.embedding))
  {
    var p := StoredPayload(m);
    assert Get(p, "timestamp") == p["timestamp"];
  }

  /** A search hit on a stored point reports the point's own id as its
      `video_id`. */
  lemma HitOnStoredPoint(coll: Collection, m: MemoryPoint, score: real, uuid: string -> Option<Uuid>)
    requires ValidDateTime(m.timestamp)
    requires AddMemory(coll, m, true).1
    requires uuid(m.id) == Some(m.id)
    ensures var p := AddMemory(coll, m, true).0[m.id];
      ParseHit(Hit(p.id, p.payload, score), uuid) == Some(MemorySearchResult(m.id, m.id, m.timestamp, score))
  {
    var p := StoredPayload(m);
    assert Get(p, "timestamp") == p["timestamp"];
    assert Get(p, "video_id") == m.id;
  }

  /** After a successful delete no deleted id can be retrieved, and other
      points are still there. */
  lemma DeletedAreGone(coll: Collection, ids: seq<Uuid>, id: Uuid)
    ensures id in ids ==> Retrieve(DeleteMemories(coll, ids, None).0, id) == []
    ensures id !in ids ==> Retrieve(DeleteMemories(coll, ids, None).0, id) == Retrieve(coll, id)
  {
  }
}

=== FILE: worker.dfy ===
/**
 * A video-processing worker (server/video_processing/worker.py).
 *
 * A worker takes jobs from the queue, uploads the segment to TwelveLabs and
 * S3, asks for a summary (up to three attempts), stores the analysis, and
 * starts the automations; it counts a job as processed when the result is
 * not an error. Every foreign call is a parameter: the TwelveLabs task
 * polls, the generation attempts, the upload and insert outcomes. Sleeps
 * are recorded, not taken, and the 180-second deadline of the polling loop
 * is the length of the poll sequence it is given.
 */
module Worker {
  import opened Common
  import opened QueueManager
  import opened SummaryAnalyzer
  import opened AutomationController

  /** `max_interval` of the adaptive poll. */
  const MaxInterval: real := 2.0

  /** The interval `upload_video_optimized` polls with. */
  const UploadPollingInterval: real := 0.5

  const IndexName: string := "video_analysis_index"

  const AnalysisAttempts: nat := 3

  const EmbedRetries: nat := 3

  const AutomationRetries: nat := 2

  function MinReal(a: real, b: real): real
  {
    if a <= b then a else b
  }

  function MaxReal(a: real, b: real): real
  {
    if a >= b then a else b
  }

  function Pow2(k: nat): (r: nat)
    ensures r >= 1
  {
    if k == 0 then 1 else 2 * Pow2(k - 1)
  }

  // ---------------------------------------------------------------------
  // Waiting for a TwelveLabs task
  // ---------------------------------------------------------------------

  /** One poll of the task: its status and video id, or a raised error. */
  datatype Poll = Status(status: string, videoId: Option<string>) | PollRaised

  /** A poll that ends the wait. */
  predicate Terminal(p: Poll)
  {
    p.Status? && (p.status == "ready" || p.status == "failed" || p.status == "error")
  }

  /** The sleep after `k` consecutive failed polls: `min(2.0, 0.1 * 2**k)`. */
  function FailureBackoff(k: nat): (r: real)
    ensures 0.0 < r <= MaxInterval
  {
    MinReal(MaxInterval, 0.1 * (Pow2(k) as real))
  }

  /** The interval after a non-terminal status: back to the base interval
      while "processing", otherwise 20% slower, capped at `max_interval`. */
  function NextInterval(base: real, current: real, status: string): (r: real)
    ensures status == "processing" ==> r <= base
    ensures status != "processing" ==> r <= MaxInterval
    ensures base > 0.0 && current > 0.0 ==> r > 0.0
  {
    if status == "processing" then MinReal(base, current) else MinReal(MaxInterval, current * 1.2)
  }

  /** `_wait_for_task_optimized` over the polls that fit before the deadline.
      It stops at the first terminal poll: "ready" gives that poll's video
      id and "failed"/"error" give None; running out of polls (the timeout)
      gives None. Every sleep stays within `max(polling_interval, 2.0)`, a
      sleep after a failed poll within 2.0. */
  method WaitForTaskOptimized(polls: seq<Poll>, base: real) returns (videoId: Option<string>, sleeps: seq<real>)
    ensures |sleeps| <= |polls|
    ensures forall j :: 0 <= j < |sleeps| ==> !Terminal(polls[j])
    ensures |sleeps| < |polls| ==>
      (Terminal(polls[|sleeps|])
       && videoId == (if polls[|sleeps|].status == "ready" then polls[|sleeps|].videoId else None))
    ensures |sleeps| == |polls| ==> videoId.None?
    ensures forall j :: 0 <= j < |sleeps| ==> sleeps[j] <= MaxReal(base, MaxInterval)
    ensures forall j :: 0 <= j < |sleeps| && polls[j].PollRaised? ==> 0.0 < sleeps[j] <= MaxInterval
    ensures base > 0.0 ==> forall j :: 0 <= j < |sleeps| ==> sleeps[j] > 0.0
  {
    var current := base;
    var failures: nat := 0;
    sleeps := [];
    var i := 0;
    while i < |polls|
      invariant 0 <= i <= |polls| && |sleeps| == i
      invariant forall j :: 0 <= j < i ==> !Terminal(polls[j])
      invariant current <= MaxReal(base, MaxInterval)
      invariant base > 0.0 ==> current > 0.0
      invariant forall j :: 0 <= j < i ==> sleeps[j] <= MaxReal(base, MaxInterval)
      invariant forall j :: 0 <= j < i && polls[j].PollRaised? ==> 0.0 < sleeps[j] <= MaxInterval
      invariant base > 0.0 ==> forall j :: 0 <= j < i ==> sleeps[j] > 0.0
    {
      match polls[i] {
        case PollRaised =>
          failures := failures + 1;
          sleeps := sleeps + [FailureBackoff(failures)];
        case Status(status, id) =>
          failures := 0;
          if status == "ready" {
            return id, sleeps;
          } else if status == "failed" || status == "error" {
            return None, sleeps;
          }
          current := NextInterval(base, current, status);
          sleeps := sleeps + [current];
      }
      i := i + 1;
    }
    return None, sleeps;
  }

  /** The indexes `client.index.list()` returns: name and id. */
  datatype IndexEntry = IndexEntry(name: string, id: string)

  /** `ensure_index`: the id of the first index named
      "video_analysis_index", else the id of a newly created one; None when
      listing or creating raises. */
  function EnsureIndex(listed: Option<seq<IndexEntry>>, created: Option<string>): (r: Option<string>)
    ensures listed.None? ==> r.None?
    ensures listed.Some? && (exists i :: 0 <= i < |listed.value| && listed.value[i].name == IndexName) ==>
      r.Some? && exists i :: 0 <= i < |listed.value| && listed.value[i].name == IndexName && r.value == listed.value[i].id
    ensures listed.Some? && (forall i :: 0 <= i < |listed.value| ==> listed.value[i].name != IndexName) ==> r == created
  {
    if listed.None? then None
    else match FindIndex(listed.value)
      case Some(id) => Some(id)
      case None => created
  }

  /** The id of the first index with the name, or None when none has it. */
  function FindIndex(entries: seq<IndexEntry>): (r: Option<string>)
    ensures r.None? <==> forall i :: 0 <= i < |entries| ==> entries[i].name != IndexName
    ensures r.Some? ==> exists i :: 0 <= i < |entries| && entries[i].name == IndexName && entries[i].id == r.value
                                    && forall j :: 0 <= j < i ==> entries[j].name != IndexName
  {
    if |entries| == 0 then None
    else if entries[0].name == IndexName then Some(entries[0].id)
    else
      var rest := FindIndex(entries[1..]);
      assert forall i :: 1 <= i < |entries| ==> entries[i] == entries[1..][i - 1];
      rest
  }

  predicate Present(o: Option<string>)
  {
    o.Some? && |o.value| > 0
  }

  /** `upload_video_optimized`: the video id once the task is ready, else
      None. A missing index is looked up first; still missing, or a task
      creation that raises, gives None. `waited` is the wait's result. */
  function UploadVideoOptimized(indexId: Option<string>, ensured: Option<string>, taskCreated: bool, waited: Option<string>): (r: Option<string>)
    ensures r.Some? ==> r == waited && |r.value| > 0
    ensures r.Some? <==> (Present(indexId) || Present(ensured)) && taskCreated && Present(waited)
  {
    var index := if Present(indexId) then indexId else ensured;
    if !Present(index) || !taskCreated then None
    else if Present(waited) then waited
    else None
  }

  // ---------------------------------------------------------------------
  // The summary
  // ---------------------------------------------------------------------

  /** One summary request: the generated text, or a raised error. */
  datatype Generation = Generated(data: string) | GenerationRaised(message: string)

  /** The analysis dictionary: the linking id as "video_id", the job's
      timestamp and its ISO text, and the summary. */
  datatype VideoAnalysis = VideoAnalysis(videoId: string, timestamp: real, datetime: string, detailedSummary: string)

  const ErrorAfterAttempts: string := "Error after 3 attempts: "

  /** The attempts from `k` on. */
  function AnalyzeFrom(k: nat, attempt: nat -> Generation): (r: (string, nat))
    requires k < AnalysisAttempts
    ensures k < r.1 <= AnalysisAttempts
    ensures forall j :: k <= j < r.1 - 1 ==> attempt(j).GenerationRaised?
    ensures attempt(r.1 - 1).Generated? ==> r.0 == attempt(r.1 - 1).data
    ensures attempt(r.1 - 1).GenerationRaised? ==> r.1 == AnalysisAttempts && r.0 == ErrorAfterAttempts + attempt(r.1 - 1).message
    decreases AnalysisAttempts - k
  {
    match attempt(k)
    case Generated(data) => (data, k + 1)
    case GenerationRaised(message) =>
      if k + 1 < AnalysisAttempts then AnalyzeFrom(k + 1, attempt)
      else (ErrorAfterAttempts + message, k + 1)
  }

  /** `analyze_video_optimized`: the analysis and how many attempts were
      made. At most three attempts; the first that succeeds supplies the
      summary, and when all three raise the summary reports the last error.
      The linking id and timestamp are kept whatever happens. */
  function AnalyzeVideoOptimized(linkingUuid: string, timestamp: real, datetime: string, attempt: nat -> Generation): (r: (VideoAnalysis, nat))
    ensures 1 <= r.1 <= AnalysisAttempts
    ensures r.0.videoId == linkingUuid && r.0.timestamp == timestamp && r.0.datetime == datetime
    ensures forall j :: 0 <= j < r.1 - 1 ==> attempt(j).GenerationRaised?
    ensures attempt(r.1 - 1).Generated? ==> r.0.detailedSummary == attempt(r.1 - 1).data
    ensures attempt(r.1 - 1).GenerationRaised? ==>
      r.1 == AnalysisAttempts && r.0.detailedSummary == ErrorAfterAttempts + attempt(2).message
  {
    var (summary, made) := AnalyzeFrom(0, attempt);
    (VideoAnalysis(linkingUuid, timestamp, datetime, summary), made)
  }

  /** When all three attempts raise, the summary starts with
      "Error after 3 attempts"; when one succeeds, the first success is the
      summary. */
  lemma AnalysisOutcome(linkingUuid: string, timestamp: real, datetime: string, attempt: nat -> Generation)
    ensures (forall j :: 0 <= j < AnalysisAttempts ==> attempt(j).GenerationRaised?) ==>
      StartsWith(AnalyzeVideoOptimized(linkingUuid, timestamp, datetime, attempt).0.detailedSummary, ErrorAfterAttempts)
    ensures forall j :: 0 <= j < AnalysisAttempts && attempt(j).Generated? && (forall i :: 0 <= i < j ==> attempt(i).GenerationRaised?) ==>
      AnalyzeVideoOptimized(linkingUuid, timestamp, datetime, attempt).0.detailedSummary == attempt(j).data
  {
    var (a, made) := AnalyzeVideoOptimized(linkingUuid, timestamp, datetime, attempt);
    if attempt(made - 1).GenerationRaised? {
      assert (ErrorAfterAttempts + attempt(2).message)[..|ErrorAfterAttempts|] == ErrorAfterAttempts;
    }
  }

  // ---------------------------------------------------------------------
  // Retries
  // ---------------------------------------------------------------------

  /** One call of `embed_and_store_video`: its result, or a raised error. */
  datatype EmbedAttempt = EmbedReturned(stored: bool) | EmbedRaised

  predicate EmbedSucceeded(a: EmbedAttempt)
  {
    a == EmbedReturned(true)
  }

  /** The attempts from `k` to `maxRetries - 1`. */
  function EmbedFrom(k: nat, maxRetries: int, attempt: nat -> EmbedAttempt): (r: bool)
    ensures r <==> exists j: nat :: k <= j < maxRetries && EmbedSucceeded(attempt(j))
    decreases maxRetries - k
  {
    if k >= maxRetries then false
    else if EmbedSucceeded(attempt(k)) then true
    else EmbedFrom(k + 1, maxRetries, attempt)
  }

  /** `embed_and_store_video_with_retry`: True iff some attempt among the
      first `max_retries` returns True. */
  function EmbedWithRetry(maxRetries: int, attempt: nat -> EmbedAttempt): (r: bool)
    ensures r <==> exists j: nat :: j < maxRetries && EmbedSucceeded(attempt(j))
  {
    EmbedFrom(0, maxRetries, attempt)
  }

  /** One call of `process_video_summary`: its results, or a raised error. */
  datatype AutomationAttempt = AutomationReturned(results: AutomationResults) | AutomationRaised(message: string)

  /** A result counts when it has no "error" key. */
  predicate AutomationSucceeded(a: AutomationAttempt)
  {
    a.AutomationReturned? && a.results.error.None?
  }

  function AutomationsFrom(k: nat, maxRetries: int, attempt: nat -> AutomationAttempt): (r: bool)
    ensures r <==> exists j: nat :: k <= j < maxRetries && AutomationSucceeded(attempt(j))
    decreases maxRetries - k
  {
    if k >= maxRetries then false
    else if AutomationSucceeded(attempt(k)) then true
    else AutomationsFrom(k + 1, maxRetries, attempt)
  }

  /** `run_automations_with_retry`: True iff some attempt among the first
      `max_retries` returns results without an error. */
  function RunAutomationsWithRetry(maxRetries: int, attempt: nat -> AutomationAttempt): (r: bool)
    ensures r <==> exists j: nat :: j < maxRetries && AutomationSucceeded(attempt(j))
  {
    AutomationsFrom(0, maxRetries, attempt)
  }

  /** An automation run whose body raises nothing succeeds on the first
      attempt. */
  lemma AutomationRunSucceeds(videoId: string, summary: string, reply: LlmReply, outcome: string -> TaskOutcome, attempt: nat -> AutomationAttempt)
    requires attempt(0) == AutomationReturned(ProcessVideoSummary(videoId, summary, reply, outcome, None))
    ensures RunAutomationsWithRetry(AutomationRetries, attempt)
  {
    assert AutomationSucceeded(attempt(0));
  }

  // ---------------------------------------------------------------------
  // One segment
  // ---------------------------------------------------------------------

  /** How the TwelveLabs upload ended: a raised error, or the returned id. */
  datatype UploadResult = UploadRaised(message: string) | UploadReturned(videoId: Option<string>)

  /** How the call that stores the analysis ended. */
  datatype InsertStep = InsertCallFails(message: string) | InsertReturned(uuid: Option<string>)

  /** The call at worker.py:229 passes two arguments to a method that takes
      one, so as written it raises this TypeError before anything is
      stored. */
  const InsertArityMessage: string := "SupabaseManager.insert_video_analysis() takes 2 positional arguments but 3 were given"

  const AsWrittenInsert: InsertStep := InsertCallFails(InsertArityMessage)

  /** What happens to the embedding after a stored analysis: the
      pre-created task is finalised, or the retrying pipeline runs. */
  datatype EmbeddingPlan = NoEmbedding | FinalizeTask | RetryPipeline

  /** Everything outside the worker that one segment meets. */
  datatype SegmentWorld = SegmentWorld(
    fileExists: bool, fileSize: nat, linkingUuid: string,
    upload: UploadResult, s3: Option<string>, embeddingTaskCreated: bool,
    generation: nat -> Generation, datetime: string, processedAt: string,
    insert: InsertStep)

  /** The result dictionary: an error (with "video_path" only from the
      catch-all handler), or the analysis with its processing fields. */
  datatype SegmentResult =
    | Failed(error: string, videoPath: Option<string>)
    | Processed(
        analysis: VideoAnalysis, workerId: int, sourceFile: string, s3Url: Option<string>,
        fileSize: nat, processedAt: string, twelvelabsVideoId: string, linkingUuid: string,
        supabaseStored: bool, automationScheduled: bool, embedding: EmbeddingPlan)

  /** `str()` of what the upload produced, as the error message shows it. */
  function ShowUpload(u: UploadResult): string
  {
    match u
    case UploadRaised(m) => m
    case UploadReturned(None) => "None"
    case UploadReturned(Some(id)) => id
  }

  predicate UploadOk(u: UploadResult)
  {
    u.UploadReturned? && Present(u.videoId)
  }

  /** `process_video_segment` */
  function ProcessVideoSegment(workerId: int, job: Job, w: SegmentWorld): (r: SegmentResult)
    ensures job.DataJob? ==> r == Failed("'video_path'", Some("unknown"))
    ensures job.SegmentJob? && !w.fileExists ==> r == Failed("Video file not found: " + job.videoPath, None)
    ensures job.SegmentJob? && w.fileExists && !UploadOk(w.upload) ==>
      r == Failed("Failed to upload to TwelveLabs: " + ShowUpload(w.upload), None)
    ensures job.SegmentJob? && w.fileExists && UploadOk(w.upload) && w.insert.InsertCallFails? ==>
      r == Failed(w.insert.message, Some(job.videoPath))
    ensures r.Processed? ==> job.SegmentJob? && w.fileExists && UploadOk(w.upload) && w.insert.InsertReturned?
    ensures r.Processed? ==>
      r.analysis == AnalyzeVideoOptimized(w.linkingUuid, job.timestamp, w.datetime, w.generation).0
      && r.workerId == workerId && r.sourceFile == job.videoPath && r.linkingUuid == w.linkingUuid
      && r.twelvelabsVideoId == w.upload.videoId.value
      && (r.s3Url.Some? <==> Present(w.s3)) && (r.s3Url.Some? ==> r.s3Url == w.s3)
      && (r.supabaseStored <==> Present(w.insert.uuid))
      && (r.automationScheduled <==> |r.analysis.detailedSummary| > 0)
      && (r.embedding.NoEmbedding? <==> !r.supabaseStored)
      && (r.supabaseStored ==> (r.embedding.FinalizeTask? <==> w.embeddingTaskCreated))
  {
    match job
    case DataJob(_, _, _) => Failed("'video_path'", Some("unknown"))
    case SegmentJob(path, _, timestamp, _) =>
      if !w.fileExists then Failed("Video file not found: " + path, None)
      else if !UploadOk(w.upload) then Failed("Failed to upload to TwelveLabs: " + ShowUpload(w.upload), None)
      else
        var analysis := AnalyzeVideoOptimized(w.linkingUuid, timestamp, w.datetime, w.generation).0;
        var s3Url := if Present(w.s3) then w.s3 else None;
        match w.insert
        case InsertCallFails(message) => Failed(message, Some(path))
        case InsertReturned(uuid) =>
          var stored := Present(uuid);
          var plan := if !stored then NoEmbedding else if w.embeddingTaskCreated then FinalizeTask else RetryPipeline;
          Processed(analysis, workerId, path, s3Url, w.fileSize, w.processedAt, w.upload.videoId.value,
                    w.linkingUuid, stored, |analysis.detailedSummary| > 0, plan)
  }

  /** A result counts as processed when it has no "error" key. */
  predicate Counts(r: SegmentResult)
  {
    r.Processed?
  }

  /** With the insert call as written, no segment is ever counted. */
  lemma AsWrittenNeverCounts(workerId: int, job: Job, w: SegmentWorld)
    requires w.insert == AsWrittenInsert
    ensures !Counts(ProcessVideoSegment(workerId, job, w))
  {
  }

  // ---------------------------------------------------------------------
  // The processing loop
  // ---------------------------------------------------------------------

  /** What one pass of `process_loop` sees: no job, a job, or the running
      flag cleared before the pass. */
  datatype LoopStep = Idle | Got(job: Job) | Halted

  /** Whether a pass counts a job. A data job has no "video_path", so the
      loop's own log line raises and the job is dropped uncounted. */
  function StepCounter(workerId: int, world: Job -> SegmentWorld): LoopStep -> bool
  {
    (s: LoopStep) => s.Got? && s.job.SegmentJob? && Counts(ProcessVideoSegment(workerId, s.job, world(s.job)))
  }

  /** `process_loop`: runs passes until the running flag is cleared, and
      returns the final `processed_count` and the number of passes made. */
  method ProcessLoop(workerId: int, steps: seq<LoopStep>, world: Job -> SegmentWorld, processed: nat)
    returns (count: nat, passes: nat)
    ensures passes <= |steps|
    ensures forall j :: 0 <= j < passes ==> !steps[j].Halted?
    ensures passes < |steps| ==> steps[passes].Halted?
    ensures count == processed + Count(steps[..passes], StepCounter(workerId, world))
  {
    count := processed;
    passes := 0;
    while passes < |steps| && !steps[passes].Halted?
      invariant passes <= |steps|
      invariant forall j :: 0 <= j < passes ==> !steps[j].Halted?
      invariant count == processed + Count(steps[..passes], StepCounter(workerId, world))
    {
      var step := steps[passes];
      assert steps[..passes + 1] == steps[..passes] + [step];
      CountSnoc(steps[..passes], step, StepCounter(workerId, world));
      if step.Got? && step.job.SegmentJob? {
        var result := ProcessVideoSegment(workerId, step.job, world(step.job));
        if Counts(result) {
          count := count + 1;
        }
      }
      passes := passes + 1;
    }
  }

  /** With the insert call as written, the counter never moves. */
  lemma {:induction false} AsWrittenCountIsZero(workerId: int, steps: seq<LoopStep>, world: Job -> SegmentWorld)
    requires forall j :: world(j).insert == AsWrittenInsert
    ensures Count(steps, StepCounter(workerId, world)) == 0
    decreases |steps|
  {
    if |steps| > 0 {
      AsWrittenCountIsZero(workerId, steps[1..], world);
      if steps[0].Got? {
        AsWrittenNeverCounts(workerId, steps[0].job, world(steps[0].job));
      }
    }
  }
}

=== FILE: worker_manager.dfy ===
/**
 * The worker pool's bookkeeping (server/video_queue/worker_manager.py).
 *
 * The manager creates `num_workers` workers with ids 0, 1, ..., starts one
 * task per worker, and reports how many are running and how many segments
 * they processed. The tasks themselves, the monitoring loop and signal
 * handling are not modelled; a worker is the part of its state the manager
 * reads.
 */
module WorkerManager {
  import opened Common

  /** `Config.NUM_WORKERS` */
  const DefaultWorkers: int := 3

  /** What the manager reads from a `VideoProcessingWorker`. */
  datatype WorkerState = WorkerState(workerId: int, isRunning: bool, processedCount: nat, indexId: Option<string>)

  /** The manager: the configured count, its workers, how many tasks it has
      started, and whether it is running. */
  datatype Manager = Manager(numWorkers: int, workers: seq<WorkerState>, tasks: nat, isRunning: bool)

  /** A freshly constructed worker: not yet running, nothing processed, no
      index. */
  function NewWorker(id: int): (r: WorkerState)
    ensures r.workerId == id && !r.isRunning && r.processedCount == 0 && r.indexId.None?
  {
    WorkerState(id, false, 0, None)
  }

  /** `WorkerManager(api_key, num_workers)`: a missing or zero count falls
      back to the configured default. */
  function NewManager(numWorkers: Option<int>): (r: Manager)
    ensures numWorkers.Some? && numWorkers.value != 0 ==> r.numWorkers == numWorkers.value
    ensures numWorkers.None? || numWorkers.value == 0 ==> r.numWorkers == DefaultWorkers
    ensures r.workers == [] && r.tasks == 0 && !r.isRunning
  {
    Manager(if numWorkers.Some? && numWorkers.value != 0 then numWorkers.value else DefaultWorkers, [], 0, false)
  }

  /** The workers `range(n)` yields: ids 0..n-1 (none when n <= 0). */
  function FreshWorkers(n: int): (r: seq<WorkerState>)
    ensures |r| == (if n > 0 then n else 0)
    ensures forall i :: 0 <= i < |r| ==> r[i] == NewWorker(i)
  {
    if n <= 0 then [] else seq(n, i requires 0 <= i < n => NewWorker(i))
  }

  /** The bookkeeping of `start_workers`: the new workers are appended, one
      task is started for each, and the manager is marked running. */
  function StartWorkers(m: Manager): (r: Manager)
    ensures r.numWorkers == m.numWorkers && r.isRunning
    ensures |r.workers| == |m.workers| + |FreshWorkers(m.numWorkers)|
    ensures r.workers[..|m.workers|] == m.workers
    ensures forall i :: 0 <= i < |r.workers| - |m.workers| ==> r.workers[|m.workers| + i] == NewWorker(i)
    ensures r.tasks == m.tasks + |FreshWorkers(m.numWorkers)|
  {
    var added := FreshWorkers(m.numWorkers);
    m.(workers := m.workers + added, tasks := m.tasks + |added|, isRunning := true)
  }

  /** `VideoProcessingWorker.stop` */
  function StopWorker(w: WorkerState): (r: WorkerState)
    ensures !r.isRunning
    ensures r.workerId == w.workerId && r.processedCount == w.processedCount && r.indexId == w.indexId
  {
    w.(isRunning := false)
  }

  /** `stop_workers`: nothing happens unless the manager is running;
      otherwise it and every worker stop. Nothing else changes. */
  function StopWorkers(m: Manager): (r: Manager)
    ensures !m.isRunning ==> r == m
    ensures !r.isRunning
    ensures r.numWorkers == m.numWorkers && r.tasks == m.tasks && |r.workers| == |m.workers|
    ensures m.isRunning ==> forall i :: 0 <= i < |m.workers| ==> r.workers[i] == StopWorker(m.workers[i])
  {
    if !m.isRunning then m
    else m.(workers := seq(|m.workers|, i requires 0 <= i < |m.workers| => StopWorker(m.workers[i])), isRunning := false)
  }

  predicate Running(w: WorkerState)
  {
    w.isRunning
  }

  /** The processed counts of the workers, summed. */
  function TotalProcessed(ws: seq<WorkerState>): nat
  {
    if |ws| == 0 then 0 else TotalProcessed(ws[..|ws| - 1]) + ws[|ws| - 1].processedCount
  }

  /** One entry of `worker_details`. */
  datatype WorkerDetail = WorkerDetail(workerId: int, isRunning: bool, processedCount: nat, indexId: Option<string>)

  datatype WorkerStats = WorkerStats(
    totalWorkers: int, activeWorkers: nat, totalProcessed: nat, queueSize: nat, details: seq<WorkerDetail>)

  /** `get_worker_stats`, with the queue size read from the queue. The
      active and processed totals are accumulated in one pass. */
  method GetWorkerStats(m: Manager, queueSize: nat) returns (r: WorkerStats)
    ensures r.totalWorkers == m.numWorkers && r.queueSize == queueSize
    ensures r.activeWorkers == Count(m.workers, Running)
    ensures r.totalProcessed == TotalProcessed(m.workers)
    ensures |r.details| == |m.workers|
    ensures forall i :: 0 <= i < |m.workers| ==>
      r.details[i] == WorkerDetail(m.workers[i].workerId, m.workers[i].isRunning, m.workers[i].processedCount, m.workers[i].indexId)
  {
    var active := 0;
    var total := 0;
    var details: seq<WorkerDetail> := [];
    var i := 0;
    while i < |m.workers|
      invariant 0 <= i <= |m.workers|
      invariant active == Count(m.workers[..i], Running)
      invariant total == TotalProcessed(m.workers[..i])
      invariant |details| == i
      invariant forall k :: 0 <= k < i ==>
        details[k] == WorkerDetail(m.workers[k].workerId, m.workers[k].isRunning, m.workers[k].processedCount, m.workers[k].indexId)
    {
      var w := m.workers[i];
      assert m.workers[..i + 1] == m.workers[..i] + [w];
      CountSnoc(m.workers[..i], w, Running);
      if w.isRunning {
        active := active + 1;
      }
      total := total + w.processedCount;
      details := details + [WorkerDetail(w.workerId, w.isRunning, w.processedCount, w.indexId)];
      i := i + 1;
    }
    assert m.workers[..i] == m.workers;
    r := WorkerStats(m.numWorkers, active, total, queueSize, details);
  }

  /** Right after start, the pool holds workers 0..n-1 and none of them has
      processed anything, so a start from scratch reports n workers and a
      processed total of zero. */
  lemma {:induction false} FreshPoolProcessedNothing(n: int)
    ensures TotalProcessed(FreshWorkers(n)) == 0
  {
    var ws := FreshWorkers(n);
    NoneProcessed(ws);
  }

  lemma {:induction false} NoneProcessed(ws: seq<WorkerState>)
    requires forall i :: 0 <= i < |ws| ==> ws[i].processedCount == 0
    ensures TotalProcessed(ws) == 0
    decreases |ws|
  {
    if |ws| > 0 {
      NoneProcessed(ws[..|ws| - 1]);
    }
  }

  /** After stop, no worker counts as active. */
  lemma {:induction false} StoppedPoolIsIdle(m: Manager)
    requires m.isRunning
    ensures Count(StopWorkers(m).workers, Running) == 0
  {
    NoneRunning(StopWorkers(m).workers);
  }

  lemma {:induction false} NoneRunning(ws: seq<WorkerState>)
    requires forall i :: 0 <= i < |ws| ==> !ws[i].isRunning
    ensures Count(ws, Running) == 0
    decreases |ws|
  {
    if |ws| > 0 {
      NoneRunning(ws[1..]);
    }
  }

  /** Stopping twice is stopping once. */
  lemma StopIdempotent(m: Manager)
    ensures StopWorkers(StopWorkers(m)) == StopWorkers(m)
  {
  }

  /** A pool started from a new manager holds exactly `num_workers` workers
      (for a positive count), so the active count never exceeds it. */
  lemma StartedPoolSize(numWorkers: Option<int>)
    ensures var m := StartWorkers(NewManager(numWorkers));
      (m.numWorkers > 0 ==> |m.workers| == m.numWorkers)
      && Count(m.workers, Running) <= (if m.numWorkers > 0 then m.numWorkers else 0)
  {
  }
}
